=== FILE: README.md ===
# PostGIS ⇄ ArcGIS Online transfer and backup jobs, modelled in Dafny

The system moves data between PostGIS databases and ArcGIS Online (AGOL) hosted feature
services. It also backs those services up to a cloud storage bucket. This project models the
core of that system in Dafny and proves what each part promises:

- **Esri JSON to GeoJSON** (`EsriToGeoJson`). A feature set becomes a GeoJSON collection,
  one feature at a time. The geometry type is chosen by the first Esri key present: x/y,
  then points, then paths, then rings.
- **PostGIS to AGOL** (`PgToAgol`). This covers four steps:
  - GeoJSON geometries become Esri geometries;
  - the layer geometry type and the field definitions are derived from the PostgreSQL
    catalogue;
  - attribute maps are cleaned of the object id and the ignored fields, and dates are sent
    as ISO text;
  - features are appended in batches.
- **Emptying a table** (`Sql`). `truncate_or_delete_table` issues a TRUNCATE. When a foreign
  key forbids it, it falls back to DELETE.
- **AGOL to PostGIS** (`AgolFeatures`, `AgolLoader`, `AgolAttachments`, `AttachmentSync`):
  - `download_features` reads a layer page by page (offset and count), translates each page
    and loads it with ogr2ogr;
  - `_run_ogr2ogr` builds the loader's command line, and `_fetch_source_epsg` chooses the
    source reference code;
  - `download_attachments` flattens the attachment groups of each page. It stages them and
    merges them into `<table>_attach` through the parent lookup the layer metadata names;
  - `transfer_attachments` reconciles the attachment table with a bucket. Each row's object
    is kept or streamed and the row is rewritten; listed objects that no row claims are
    deleted.
- **Backup job** (`Backup`, `BackupDates`):
  - `download_as_fgdb` exports each service that changed since its latest archive and
    uploads it as `{name}_{DD_Mon_YYYY}.gdb.zip`, with three attempts;
  - `delete_old_archives` deletes the archives dated before the retention cutoff;
  - `get_last_modified_date` and `list_existing_files` read names in the bucket listing.
- **`get_pg_services`** (`PgServices`). The service names of a libpq service file are its
  section headers.

Two kinds of code are modelled differently:

- Code that works by updating state step by step becomes methods with loops. Each method is
  proved against a specification function. These include the translation loop, the paging
  loops, the batch loop, the retry loop, the reconciliation loop and the deletion loop.
- Tables and buckets whose contents the source changes in place are classes with a
  sequence or map field: `Sql.Table`, `Backup.ArchiveBucket`, `AttachmentSync.Bucket` and
  `AttachmentSync.AttachmentTable`.

Everything outside the program becomes a parameter:

- the feature service, modelled as the finite list of its records;
- the server's answer to each statement;
- whether each request, export or upload succeeds;
- the clock, modelled as the date text of today and the retention cutoff.

`Wrappers`, `Strings` and `Sequences` hold the shared pieces: Option and Result, Python's
string built-ins, flattening, chunking and offset paging.

## Model

| member | source | states |
|---|---|---|
| EsriToGeoJson.EsriToGeoJson | lib/esri_to_geojson.py:20-71 | A "FeatureCollection" with one "Feature" per input feature, in input order. Each feature carries the input's attributes, or {} when it has none, and the geometry `GeometryOf` builds. A feature set without a "features" key gives no feature. |
| EsriToGeoJson.GeometryOf | lib/esri_to_geojson.py:37-67 | The geometry type is one of the six GeoJSON geometry types, or "" exactly when the Esri geometry carries no recognised key. |
| EsriToGeoJson.ConvertFeature | lib/esri_to_geojson.py:26-34 | Each output is a "Feature" whose properties are the input attributes, or {} when there are none. Its geometry type is "" exactly when the geometry carries no recognised key. |
| EsriToGeoJson.CoordinatesCarryEsriParts | lib/esri_to_geojson.py:37-67 | The GeoJSON type follows the first Esri key present, in the order x/y, points, paths, rings. The coordinates decode back to exactly that key's Esri value: [x, y], the points, paths[0] for one path, the paths, the rings, or each ring wrapped for several rings. With no recognised key the type is "" and the coordinates are []. |
| EsriToGeoJson.WrapRings | lib/esri_to_geojson.py:66 | Several rings become one polygon per ring, in order, each holding just its ring. |
| EsriToGeoJson.DecEncPosition | lib/esri_to_geojson.py:41-43 | A point's [x, y] array decodes back to the point. |
| EsriToGeoJson.DecEncPositions | lib/esri_to_geojson.py:46-48 | A point list copied into "coordinates" decodes back to the same points. |
| EsriToGeoJson.DecEncPaths | lib/esri_to_geojson.py:51-57 | A list of paths copied into "coordinates" decodes back to the same paths. |
| EsriToGeoJson.DecEncRingsAsPolygons | lib/esri_to_geojson.py:60-67 | The MultiPolygon built from several rings decodes to the rings, each wrapped as its own polygon. |
| EsriToGeoJson.DecEncList | lib/esri_to_geojson.py:37-67 | Encoding a list element by element and decoding it gives the list back whenever every element round-trips. |
| EsriToGeoJson.DecEncListMapped | lib/esri_to_geojson.py:60-67 | The same as `DecEncList`, with the elements decoding to a second list of the same length. |
| AgolFeatures.ConvertAll | lib/esri_to_geojson.py:26-69 | The translation of a page is one feature per record, in order, each the translation of its record. |
| AgolFeatures.ConvertAllAppend | lib/agol_to_pg.py:414-447 | Translating two pages one after the other gives the translation of their concatenation. |
| AgolFeatures.AppendPage | lib/agol_to_pg.py:437-443 | After the page at offset `start` is appended, the table holds the translation of every record up to `start` plus the page size. |
| AgolFeatures.LoadFeaturePage | lib/agol_to_pg.py:406-447 | One pass of the loop body for page k. A refused request raises, since the request helper aborts on any reply but 200. Otherwise the loop stops exactly when the offset has reached the end of the records. ogr2ogr failing on page k raises. Neither raise changes the table. Otherwise the page is appended; its size is at most the batch size, and a short page is the last one. |
| AgolFeatures.LoadPages | lib/agol_to_pg.py:402-447 | The pages start at offsets 0, b, 2b, … and each page loaded is appended once, in order. When nothing raises, every record is loaded once, over ceil(n/b) pages and n/b + 1 requests. When the request for page j is refused, or ogr2ogr fails on it, the loop raises after j + 1 requests and the table holds exactly the pages before j. |
| AgolFeatures.DownloadFeatures | lib/agol_to_pg.py:356-454 | An existing table is emptied first, with TRUNCATE … RESTART IDENTITY CASCADE or the DELETE fallback. The preparation error is raised exactly when that fails, before any request and with the table unchanged. Otherwise the table holds exactly the pages loaded, starting empty whether or not it existed. A normal end has loaded every record. A refused request or a loader failure on page j raises with the pages before j loaded. The one-argument translation never raises a keyword error. |
| AgolFeatures.CallEsriToGeoJson | lib/agol_to_pg.py:414-415 | Calling the one-parameter translation with no keyword converts the page. Any keyword argument is a TypeError naming the first keyword. |
| AgolFeatures.AsWrittenDownload | lib/agol_to_pg.py:395-415 | The download as written, up to the first page. Once the preparation succeeds, no row survives. It ends normally only for a layer with no record. |
| AgolFeatures.AsWrittenDownloadLosesTable | lib/agol_to_pg.py:395-415 | As written, a download of a non-empty layer into an existing table raises the `has_geometry` TypeError after the table was emptied. No rows remain. |
| AgolLoader.FetchSourceEpsg | lib/agol_to_pg.py:143-170 | `extent.spatialReference.latestWkid` is preferred and `wkid` is the fallback. There is no code exactly when the request fails or neither key is present. |
| AgolLoader.LoaderGeometryType | lib/agol_to_pg.py:288-307 | The `-nlt` type is never POLYGON, LINESTRING or NONE for a named geometry column. Single polygons and lines are promoted to multi, and an unknown first type gives PROMOTE_TO_MULTI. |
| AgolLoader.LoaderTypeFollowsEsriKey | lib/agol_to_pg.py:288-307 | The layer type ogr2ogr is given for a translated page follows the Esri key of its first geometry: x/y gives POINT, points MULTIPOINT, paths MULTILINESTRING, rings MULTIPOLYGON, none PROMOTE_TO_MULTI. |
| AgolLoader.BaseArgs | lib/agol_to_pg.py:276-286 | The fixed command prefix has 14 arguments. |
| AgolLoader.LoaderArgsOptions | lib/agol_to_pg.py:276-318 | The command is the fixed prefix followed by the options. `-a_srs` and `-t_srs` appear exactly when a geometry column is named and the source (respectively target) code is truthy, each with its `EPSG:` code. The command ends with `-nlt`, whose value is NONE exactly when no geometry column is named. |
| AgolLoader.GeometryArgsOptions | lib/agol_to_pg.py:309-316 | The reference options each appear exactly when their code is truthy and a geometry column is named. |
| AgolLoader.AddGeometryOptions | lib/agol_to_pg.py:309-316 | Appending the option groups one at a time yields the prefix followed by the geometry options. |
| AgolLoader.RunOgr2ogr | lib/agol_to_pg.py:250-318 | A file without a "features" key returns before any command. A named geometry column with no feature fails on the first feature's type. Otherwise the command is the full argument list for the first feature's type. |
| AgolAttachments.FlattenGroupsLength | lib/agol_to_pg.py:530-543 | Flattening yields one record per attachment info over all groups. |
| AgolAttachments.FlattenGroupsAt | lib/agol_to_pg.py:530-543 | Info i of group k lands right after the records of the groups before k. It carries group k's parent object id and global id. |
| AgolAttachments.Flatten | lib/agol_to_pg.py:530-543 | The nested loop produces exactly the flattening of the groups. |
| AgolAttachments.FlattenPage | lib/agol_to_pg.py:518-545 | Flattening a page's groups gives back the page's records. There are none exactly when there is no group. |
| AgolAttachments.FlattenRegroup | lib/agol_to_pg.py:530-543 | Flattening undoes the service's grouping of consecutive records by parent. |
| AgolAttachments.FetchMetadata | lib/agol_to_pg.py:195-224 | There is no metadata exactly when the request fails. With a field list, the result holds every requested key, with null for a key the layer lacks. With none, it is the whole metadata. |
| AgolAttachments.AsWrittenAlwaysGlobalId | lib/agol_to_pg.py:574-581 | As written, a successful metadata request always yields a non-empty object with a "globalIdField" key. So the merge always joins on `parent_globalid`, with the layer's global id field or null. |
| AgolAttachments.AsWrittenParentChoice | lib/agol_to_pg.py:579-581 | The lookup as written joins on `parent_globalid` exactly when the reply has a "globalIdField" key, and on `parent_oid` otherwise. |
| AgolAttachments.AsWrittenObjectIdIgnored | lib/agol_to_pg.py:574-581 | For a layer declaring only `objectIdField`, the merge as written names no parent column. The corrected lookup joins `OBJECTID` with `parent_oid`. |
| AgolAttachments.ParentChoice | lib/agol_to_pg.py:579-581 | The parent lookup is the global id field when the layer declares one, otherwise the object id field. Each is joined with the staged column of its kind, and there is no lookup when the layer declares neither. |
| AgolAttachments.ParentChoiceAgreesWithAsWritten | lib/agol_to_pg.py:579-581 | Where the layer declares a global id, the corrected lookup is the one the code makes. |
| AgolAttachments.AsWrittenStagingDuplicates | lib/agol_to_pg.py:545-572 | As written, the staging table is never emptied. Two pages of one attachment each store the first attachment twice, three rows in all. |
| AgolAttachments.AsWrittenMerged | lib/agol_to_pg.py:545-610 | As written, the merges store at least one row per staged record. When there are two or more pages and the first is not empty, they store strictly more rows than there are records. |
| AgolAttachments.MergedPagesOnce | lib/agol_to_pg.py:583-610 | When every page merges through the same lookup, the first k pages add each record of the first k·b once, in order. |
| AgolAttachments.AllPagesMergedOnce | lib/agol_to_pg.py:518-622 | A download that read every page, each merged through the same lookup, stores every attachment record of the service exactly once, in service order. |
| AgolAttachments.MergePage | lib/agol_to_pg.py:583-610 | Merging page k appends that page's rows as its metadata reply decides, and nothing else. Each inserted row draws one value of the BIGSERIAL key. This row models the corrected merge of the Findings: each page is merged once, through `ParentChoice`. |
| AgolAttachments.LoadAttachmentPage | lib/agol_to_pg.py:518-622 | One pass of the loop body: it stops exactly on a failed request or an empty page. It raises exactly when the merge names no parent column. Otherwise the page's records are merged and the offset advances by the number of records, not of groups. The identity sequence advances by the number of rows inserted. This row models the corrected merge of the Findings: each page is merged once, through `ParentChoice`. |
| AgolAttachments.NextAttachmentPage | lib/agol_to_pg.py:518-622 | One pass of the paging loop with its bookkeeping. The request is counted. A failing merge raises with the table unchanged. Otherwise the merged pages and their offsets extend by the page processed, and the offset advances. The pass says whether the loop ends: either every record was processed, over ceil(n/b) pages and n/b + 1 requests, or the request failed. The identity sequence advances by the number of rows inserted. |
| AgolAttachments.LoadAttachmentPages | lib/agol_to_pg.py:518-622 | The pages start at offsets 0, b, 2b, …, and every loaded page was fetched and merged. With no failed request, all n records are processed over ceil(n/b) pages and n/b + 1 requests. A failed request ends the loop; the helper returns None rather than raising. A failing merge raises with the earlier pages merged. The identity sequence advances by the number of rows inserted. This row models the corrected merge of the Findings: each page is merged once, through `ParentChoice`. |
| AgolAttachments.DownloadAttachments | lib/agol_to_pg.py:457-629 | An existing `<table>_attach` is emptied (TRUNCATE with RESTART IDENTITY, no CASCADE, or the DELETE fallback). The preparation error is raised exactly when that fails, before any request. A missing table is created empty with its key sequence at 1. The table then holds the merged pages, and a failing merge raises after the pages before it. The next key value afterwards is the sequence start plus the rows inserted. The start is 1 after a truncation or a creation, and unchanged after the DELETE fallback. This row models the corrected merge of the Findings: each page is merged once, through `ParentChoice`. |
| Sql.QuoteIdent | lib/sql.py:46-47 | An identifier is rendered double-quoted, with each inner quote doubled. The text between the outer quotes holds no lone quote, and PostgreSQL reads it back as exactly the name. |
| Sql.EscapeRead | lib/sql.py:46-47 | Reading back a name with its quotes doubled gives the name. |
| Sql.TruncateFlagsRoundTrip | lib/sql.py:45-50 | The TRUNCATE statement ends in ` RESTART IDENTITY` exactly when the sequence is reset, and in ` CASCADE` exactly when cascading. Both are read back off the statement's tail, whatever the names. |
| Sql.Decide | lib/sql.py:52-89 | The call ends normally by TRUNCATE exactly when it succeeds. It ends by DELETE exactly when the TRUNCATE failed with the foreign-key refusal and the DELETE succeeded, warning when a reset was asked. Otherwise it re-raises the DELETE's own error after a refusal, and the TRUNCATE's error in every other case. |
| Sql.Table.TruncateOrDelete | lib/sql.py:28-89 | Exactly the TRUNCATE statement is issued first. The table is empty after a normal end and unchanged after a raise. The identity sequence restarts at 1 only for a truncation with a reset, never after the DELETE fallback. |
| Sql.Table.constructor | lib/sql.py:28 | A table holding the given rows and next identity value. |
| PgServices.HeaderNameExact | lib/get_services.py:32 | A stripped line names a service exactly when it reads `[` + name + `]` for a non-empty name without ']'. |
| PgServices.PaddedHeader | lib/get_services.py:31-33 | Whitespace around a header, the line ending included, does not change the name it carries. |
| PgServices.TrailingTextNoName | lib/get_services.py:32 | Any text after the closing bracket means the line names no service. |
| PgServices.OtherLineNoName | lib/get_services.py:32 | A stripped line that does not open with '[' names no service. This covers comments and any `key=value` setting whose key does not start with '['. |
| PgServices.ServiceNamesAppend | lib/get_services.py:30-34 | The names of a file in two parts are those of the first part followed by those of the second. |
| PgServices.ServiceNamesMembers | lib/get_services.py:30-34 | There are no more names than lines. A name is listed exactly when it is the header of some line. |
| PgServices.GetPgServices | lib/get_services.py:24-43 | A missing file gives the error "pg_service.conf file not found", and any other read error gives its own message. Otherwise the result is the header names, in file order. |
| PgToAgol.GeometryTypeFor | lib/pg_to_agol.py:268-289 | The layer type is one of the four Esri geometry types. A PostGIS type the table does not know, compared upper-cased, gives a polygon layer. |
| PgToAgol.ConvertGeoJsonToEsriGeometry | lib/pg_to_agol.py:74-101 | Input that is neither text nor an object is a type error, and text that does not decode is an error. Otherwise the geometry is converted. |
| PgToAgol.FromGeoJson | lib/pg_to_agol.py:82-101 | An unsupported type is refused exactly when its upper-cased name is not one of the six, and the error carries that name. Otherwise, for each type, the conversion succeeds exactly when the coordinates are nested as that type requires. A Point takes x and y from the first two coordinates. MultiPoint coordinates become the points, and a LineString becomes a single path. MultiLineString coordinates become the paths, and Polygon coordinates the rings, holes included. A MultiPolygon's rings are its polygons' rings, concatenated in order. A converted geometry has a single Esri key, of the kind `GeometryTypeFor` names. |
| PgToAgol.FromGeoJsonKeepsCoordinates | lib/pg_to_agol.py:85-97 | Nothing of well-nested coordinates is lost. A Point's x and y are its first two numbers. The Esri points, paths or rings encode back to exactly the GeoJSON coordinates. A MultiPolygon's coordinates are some list of polygons whose rings, concatenated, are the Esri rings. |
| PgToAgol.UpperOfGeoJsonTypes | lib/pg_to_agol.py:82 | The six GeoJSON type names upper-case to the keys the conversion tests. |
| PgToAgol.ConcatWrapRings | lib/pg_to_agol.py:97 | Flattening a MultiPolygon's polygons into their rings undoes the one-ring-per-polygon wrapping. |
| PgToAgol.EsriRoundTrip | lib/pg_to_agol.py:74-101 | An Esri geometry translated to GeoJSON and converted back is the same geometry. A geometry-less feature's empty type is refused. |
| PgToAgol.EsriFieldType | lib/pg_to_agol.py:25-39 | A non-key column never gets the OID type. An unknown PostgreSQL type is a string field. |
| PgToAgol.EsriFieldTypePreimages | lib/pg_to_agol.py:25-39 | Exactly which PostgreSQL types give the integer, small integer, date and double field types. |
| PgToAgol.IgnoreSet | lib/pg_to_agol.py:123-124 | A column is ignored exactly when it is the geometry column, or is one of the comma-separated parts of a non-empty `--ignore` text. The parts are not stripped. |
| PgToAgol.IgnoreSetUnstripped | lib/pg_to_agol.py:123-124 | For `--ignore "a, b"`, the field query ignores the columns "a" and " b" but not "b". The feature preparation at line 368 drops the attributes "a" and "b". |
| PgToAgol.Unignored | lib/pg_to_agol.py:126-131 | The query keeps exactly the columns whose names are not ignored. A single column is kept exactly when its name is not ignored. The query has no ORDER BY, so the order in which the catalogue lists the columns is an input. |
| PgToAgol.UnignoredAppend | lib/pg_to_agol.py:126-131 | The filter keeps the listed order: the result for two column lists is the first list's result followed by the second's. |
| PgToAgol.FieldFor | lib/pg_to_agol.py:137-139 | A field is named and aliased by its column. It is typed OID exactly when the column is the primary key. |
| PgToAgol.FetchFieldDefinitions | lib/pg_to_agol.py:104-141 | There is one field per unignored column, in order. None is the geometry column, each is aliased by its own name, and each is typed OID exactly when it is the primary key. |
| PgToAgol.WireValue | lib/pg_to_agol.py:153-155 | A datetime is sent as its ISO text, and every other value unchanged. |
| PgToAgol.PreparedAttributesIdempotent | lib/pg_to_agol.py:144-158 | Preparing an already prepared attribute map changes nothing. |
| PgToAgol.PrepareFeatures | lib/pg_to_agol.py:144-158 | There is one feature per input feature, with the same geometry. An attribute is kept exactly when its lower-cased key is not "objectid" and its key is not ignored. No datetime survives, and other values are unchanged. |
| PgToAgol.SuccessesWhenAllSucceed | lib/pg_to_agol.py:237-250 | When every batch succeeds, there is one result per batch. |
| PgToAgol.SubmitBatches | lib/pg_to_agol.py:237-248 | The loop submits exactly the consecutive slices of the batch size. The results are those of the successful batches, in order. |
| PgToAgol.AppendFeatures | lib/pg_to_agol.py:232-250 | A zero batch size raises the `range` ValueError, and a negative one submits nothing. Otherwise there are ceil(n/b) batches whose concatenation is the whole feature list. A failing batch does not stop the later ones. |
| PgToAgol.StrippedNonEmptyOfPlain | lib/pg_to_agol.py:368 | Stripping and dropping empty parts leaves plain field names unchanged. |
| PgToAgol.ParseIgnoreFields | lib/pg_to_agol.py:368 | Every parsed ignore name is non-empty and has no ',' and no surrounding whitespace. |
| PgToAgol.ParseIgnoreFieldsOfJoin | lib/pg_to_agol.py:368 | Plain field names written comma-separated parse back to the same list. |
| Backup.SanitizeName | lib/backup.py:46-48 | The name keeps its length. Exactly the characters outside [A-Za-z0-9_] become '_'. |
| Backup.SanitizeNameIdempotent | lib/backup.py:46-48 | Sanitising a sanitised name changes nothing. |
| Backup.SanitizersAgree | lib/backup.py:46-48 | `sanitize_name` and the attachment file-name sanitiser agree on every name. |
| Backup.UploadWithRetry | lib/backup.py:59-72 | The upload succeeds exactly when some attempt 1..retries succeeds, and then at the first such attempt. Otherwise all `retries` attempts were made. There is one pause after every failed attempt but the last. |
| Backup.ArchiveBaseOfGdb | lib/backup.py:79-88 | A `.gdb.zip` name has the base before that suffix. A `.zip` name has the base before `.zip`, unless it also ends in `.gdb.zip`. |
| Backup.ListExistingFiles | lib/backup.py:74-90 | A base name is present exactly when some archive in the listing has it. It maps to the last such archive listed. |
| Backup.Latest | lib/backup.py:97-109 | The latest date read: none exactly when no name gives a date; otherwise one of the dates read, with none later. |
| Backup.LatestNext | lib/backup.py:103-105 | A further date replaces the latest only when it is strictly later. |
| Backup.GetLastModifiedDate | lib/backup.py:92-109 | One pass over the listing yields the latest date of the names that contain the service name. |
| Backup.ArchiveNameDated | lib/backup.py:100-103 | An archive made on day d, with a four-digit year, carries the sanitised service name and reads back as day d. |
| Backup.ArchiveNameFields | lib/backup.py:100 | The '_' fields of an archive name are those of the service name, then day, month and year. |
| Backup.ArchiveDateText | lib/backup.py:100-101 | The date text read off an archive name is the date it was written with. |
| Backup.BackupItem | lib/backup.py:123-155 | An item is skipped when its service has a dated archive and it was modified no later than that day's midnight. Otherwise it is exported and uploaded with up to three attempts. Only a successful upload adds `{name}_{today}.gdb.zip` to the bucket, and a failed export or upload leaves the bucket as it was. The server export is removed exactly when the item ends uploaded, which needs the export, an upload and the clean-up to succeed. |
| Backup.DownloadAsFgdb | lib/backup.py:111-158 | Items are taken in order, up to `max_items`, each against the listing left by those before it. A title is added when its archive was stored, and skipped when the item did not end uploaded. An item whose clean-up raised after its upload is therefore listed in both. |
| Backup.Outcome | lib/backup.py:119-155 | An item is not modified exactly when its service has a dated archive whose midnight is not before its modification time. Its archive is stored exactly when it is modified, the export succeeds and some attempt of the upload succeeds. It ends uploaded exactly when the archive is stored and the clean-up succeeds. |
| Backup.Backups | lib/backup.py:119-155 | After n items there are n outcomes. The listing keeps the original names as its prefix, and grows by at most one name per item. |
| Backup.TitlesPartition | lib/backup.py:146-154 | An item whose archive was stored is among the added titles, and an item that did not end uploaded is among the skipped ones. The two lists together number the items processed plus the items whose clean-up raised. |
| Backup.TitlesCount | lib/backup.py:146-154 | The added and skipped titles together number the items processed, plus one for each item whose clean-up raised after its upload. |
| Backup.TitleListed | lib/backup.py:146-154 | An item's title is among the added titles when its archive was stored, and among the skipped ones when it did not end uploaded. |
| Backup.BackupsKeep | lib/backup.py:119-155 | The listing only grows, and the archive of every stored item is in it. |
| Backup.BackupsStored | lib/backup.py:119-155 | After any number of items, the archive of every item whose archive was stored is in the listing. |
| Backup.BackupsOnlyArchives | lib/backup.py:119-155 | Any name the job adds is the archive of an item whose archive was stored. |
| Backup.BackupsNext | lib/backup.py:119-155 | One more item appends its outcome, and a stored archive adds its name. |
| Backup.ArchiveBucket.constructor | lib/backup.py:111 | A bucket listing the given names. |
| Backup.SelectPartition | lib/backup.py:165-188 | The deleted and kept names together are exactly the listing. |
| Backup.ExpiriesAt | lib/backup.py:176-183 | The i-th flag is whether the i-th name is an expired archive. |
| Backup.WithExpiryMembers | lib/backup.py:165-188 | Every deleted name is an expired listed name, and every kept one a listed name that is not expired. |
| Backup.WithExpiryPartition | lib/backup.py:165-188 | Deleted and kept names together are the listing, as a multiset. |
| Backup.DeleteStep | lib/backup.py:165-187 | One step of the deletion loop removes the i-th listed name from the bucket exactly when it is expired, and keeps the rest in order. |
| Backup.DeleteIfExpired | lib/backup.py:176-187 | One pass of the deletion loop: an expired name is removed from the bucket at its position among the names kept so far, and recorded as deleted. Any other name stays, and the position moves past it. |
| Backup.DeletionTest | lib/backup.py:168-183 | The loop's test, including its repeated cutoff comparison, is exactly whether the name is an expired archive. The list of services just added never saves one. |
| Backup.DeleteOldArchives | lib/backup.py:160-188 | Exactly the archives dated before the cutoff are deleted, in listing order. The bucket keeps every other name in order, including names without an archive extension or a readable date. |
| Backup.ArchiveNameRetention | lib/backup.py:176-183 | An archive made on day d is read back with its service name and day. It is deleted exactly when that day's midnight is before the cutoff. |
| BackupDates.BeforeIsStrictTotalOrder | lib/backup.py:134 | Datetime comparison is irreflexive, transitive and total. |
| BackupDates.ParseDate | lib/backup.py:103 | `strptime('%d_%b_%Y')` yields only valid calendar dates. |
| BackupDates.ParseFormatDate | lib/backup.py:112 | A date formatted as `DD_Mon_YYYY`, with a four-digit year, parses back to itself and holds no '.'. |
| BackupDates.FormatDateFields | lib/backup.py:112 | The formatted date splits on '_' into day, month name and year. |
| BackupDates.MonthNumberOfName | lib/backup.py:103 | `%b` reads each month's abbreviation as its own number. |
| AttachmentSync.SplitExt | lib/agol_to_pg.py:679 | `os.path.splitext`: the stem and extension rejoin to the name. The extension is empty or a '.' followed by neither '.' nor '/'. |
| AttachmentSync.SplitExtJoin | lib/agol_to_pg.py:679 | A dot-free stem followed by an extension splits back into the two. |
| AttachmentSync.SanitizeStem | lib/agol_to_pg.py:680-681 | The stem keeps its length. Exactly the characters that are not ASCII letters or digits become '_'. |
| AttachmentSync.StoredNameSplit | lib/agol_to_pg.py:679-681 | The rewritten name splits into the sanitised stem and the original extension. |
| AttachmentSync.RewriteKeepsTarget | lib/agol_to_pg.py:679-702 | A rewritten row is stored under the same object. |
| AttachmentSync.RewriteIdempotent | lib/agol_to_pg.py:679-702 | Rewriting a rewritten row changes nothing. |
| AttachmentSync.TargetUnderTable | lib/agol_to_pg.py:684 | Every object name starts with the table name followed by '/'. |
| AttachmentSync.Listing | lib/agol_to_pg.py:662-663 | The listing holds exactly the objects whose names start with the raw table name, with their contents. |
| AttachmentSync.SyncRow | lib/agol_to_pg.py:686-693 | One row: the step fails exactly when its target is not listed and its download fails. A listed target is claimed and leaves the bucket as it was. A missing target is stored with its content and recorded as streamed. Either way the target is no longer pending. |
| AttachmentSync.SyncRows | lib/agol_to_pg.py:686-693 | Over the rows, the streamed objects are extended in order by at most one per row, and the pending set only shrinks. |
| AttachmentSync.SyncRowsFacts | lib/agol_to_pg.py:674-704 | When no stream fails, the unclaimed listed objects remain pending and the bucket gains only the streamed objects. Objects not streamed keep their contents. Only targets are streamed, and every target was either listed or streamed. |
| AttachmentSync.SyncStreamsUnlisted | lib/agol_to_pg.py:686-693 | With distinct targets, exactly the targets not listed are streamed, in row order. |
| AttachmentSync.SyncAllListed | lib/agol_to_pg.py:686-693 | With distinct targets, when every target is listed, nothing is streamed and no request is made. |
| AttachmentSync.SyncDeletesUnclaimed | lib/agol_to_pg.py:711-713 | After a completed run, exactly the listed objects that no row claims are deleted, and every target is in the bucket. |
| AttachmentSync.SyncKeepsOthers | lib/agol_to_pg.py:662-713 | Objects outside the raw table prefix are left as they were. |
| AttachmentSync.RawPrefixDeletesSibling | lib/agol_to_pg.py:662-663 | Reconciling table "road" with no rows deletes the object "roads/1.png" of another table, because the listing prefix has no '/'. |
| AttachmentSync.ListedAfterSync | lib/agol_to_pg.py:662-713 | After a completed run, the objects under the table prefix are exactly the targets. |
| AttachmentSync.RewrittenStable | lib/agol_to_pg.py:696-702 | Rewriting keeps every row's target, and the rewritten rows rewrite to themselves. |
| AttachmentSync.SyncIdempotent | lib/agol_to_pg.py:632-724 | With distinct targets, a second reconciliation, over the rewritten rows and the bucket left by a completed one, streams nothing, deletes nothing and rewrites every row to itself. |
| AttachmentSync.TransferRow | lib/agol_to_pg.py:676-702 | One row: a listed target is claimed, and a missing one is streamed or the stream raises. The row is rewritten with the bucket URL and the sanitised name. |
| AttachmentSync.TransferAttachments | lib/agol_to_pg.py:632-724 | With no attachment table, nothing changes. Otherwise each row in turn is kept or streamed and rewritten, then the unclaimed listed objects are deleted. A failed stream raises with the earlier rows rewritten, their objects in the bucket, and nothing deleted. |
| AttachmentSync.Bucket.constructor | lib/agol_to_pg.py:658 | A bucket holding the given objects. |
| AttachmentSync.AttachmentTable.constructor | lib/agol_to_pg.py:670 | An attachment table holding the given rows. |
| Strings.Strip | lib/get_services.py:32 | `str.strip()` leaves no whitespace at either end. |
| Strings.StripLeftSpaces | lib/pg_to_agol.py:368 | What the left strip removes is whitespace. |
| Strings.StripRightSpaces | lib/pg_to_agol.py:368 | What the right strip removes is whitespace. |
| Strings.StripPadded | lib/get_services.py:32 | Stripping whitespace padding from text with no whitespace at its ends gives the text. |
| Strings.StripIdempotent | lib/pg_to_agol.py:368 | Stripping twice is stripping once. |
| Strings.JoinSplit | lib/backup.py:100-101 | Joining the parts of a split with the separator gives the text back. |
| Strings.SplitJoin | lib/backup.py:100-101 | Splitting a join of separator-free parts gives the parts back. |
| Strings.RemoveAllAfter | lib/backup.py:101 | `replace(pat, '')` on a text followed by a pattern-free suffix. |
| Strings.Upper | lib/pg_to_agol.py:82 | `str.upper()` on ASCII letters keeps the length, leaves no lower-case letter, changes nothing but lower-case letters, and keeps every character's letter up to case. |
| Strings.CaseMappings | lib/pg_to_agol.py:82 | Upper-casing and lower-casing are idempotent, and each absorbs the other: `Lower(Upper(s)) == Lower(s)`, `Upper(Lower(s)) == Upper(s)`. |
| Strings.Lower | lib/pg_to_agol.py:150 | `str.lower()` on ASCII letters keeps the length, leaves no upper-case letter, changes nothing but upper-case letters, and keeps every character's letter up to case. |
| Strings.IntToString | lib/agol_to_pg.py:684 | The decimal text of an attachment id is non-empty and holds no '.' and no '/'. |
| Sequences.ChunksCover | lib/pg_to_agol.py:237 | The consecutive slices of size b make up the whole list, and there are ceil(n/b) of them. |
| Sequences.ChunksAt | lib/pg_to_agol.py:237-238 | Chunk j is the slice starting at offset j·b. |
| Sequences.ChunksFrom | lib/pg_to_agol.py:237-238 | Chunking from an offset takes the slice up to offset + b, then chunks the rest. |
| Sequences.Page | lib/agol_to_pg.py:87-112 | A page is at most `count` records. It is the slice at `start` when records remain, full-size when enough remain, and reaches the end otherwise. |
| Sequences.EndOnEmptyPage | lib/agol_to_pg.py:405-409 | A loop over n records that meets an empty page after k full pages made n/b + 1 requests, over ceil(n/b) = k pages. |
| Sequences.EndOnShortPage | lib/agol_to_pg.py:443-447 | A loop whose k-th page is short made n/b + 1 = k requests, over ceil(n/b) = k pages. |

## Left out

- Network and cloud calls are inputs, not modelled code: HTTP requests, tokens, feature
  layer handles, service creation, the export, downloads and bucket uploads. A call appears
  only as the success or failure the caller branches on.
- `get_token`, `get_feature_layer`, `delete_all_features`, `get_postgis_srid`,
  `get_or_create_new_feature_service` and `get_primary_key_column` are not modelled: each
  is a single network or database call. `fetch_data_from_postgis` is not modelled either:
  it reads rows from PostGIS. `get_postgis_geometry_type` is modelled by its mapping
  (`GeometryTypeFor`) only.
- Logging, progress and debug messages, and the streamed log lines are left out.
- `main`, `parse_args` and argument parsing are left out, except the ignore-list parsing of
  `lib/pg_to_agol.py:368`.
- lib/gcp.py, lib/pg_function.py and app.py are not part of this model.
- The clock is left out. `dt.datetime.now()` becomes the parameter `today` (date text) or
  the cutoff `Moment`. `item.modified` is given as a `Moment`, with no time-zone
  conversion from the epoch milliseconds.
- Temporary files and directories are left out. In `download_as_fgdb`, a failure while
  removing the local file or the server export after the upload is modelled as the outcome
  `CleanupFailed`. Which of the two removals failed is not distinguished.
- Python's `%d`, `%b` and `%Y` accept non-ASCII digits and are locale-dependent. The model
  takes ASCII digits and the C locale.
- `strftime('%Y')` writes a year below 1000 with fewer than four digits. The round trip is
  proved for years 1000-9999 only.
- File decoding and universal newlines in `get_pg_services` are left out. The file is a
  list of lines. A read error in the middle of the file is modelled as the same error
  result as one before the first line.
- SQL text is not executed:
  - the parent-id subquery of the attachment merge is represented by the lookup it names;
  - the UPDATE of `transfer_attachments` is represented by the row it writes, and its lack
    of quoting (a quote in a file name breaks the statement) is left out;
  - the `len(records) > 0` guard is folded into the empty-page stop, which happens first.
- The content served at a URL is modelled as a function of the URL.
- The bucket listing in `delete_old_archives` and `download_as_fgdb` is a list of distinct
  names. Deleting removes a name by its position in that list.
- JSON null and a missing key are the same `None` in `FetchSourceEpsg` and `FetchMetadata`.
  As written, a `latestWkid` that is present but null returns null rather than falling back
  to `wkid`; the model does not separate the two.
- PgToAgol.FromGeoJson: coordinates whose nesting does not fit the declared type are
  refused (`MalformedCoordinates`). The source treats them differently by type:
  - for MultiPoint, LineString, MultiLineString and Polygon it copies them into the Esri
    geometry as they are;
  - for a Point, coordinates with fewer than two items raise IndexError, a bare number
    raises TypeError, and first items that are not numbers are copied as they are;
  - for a MultiPolygon, a member that is a number raises TypeError, and any other list
    contributes its items as rings.
  The model does not separate these outcomes.
- AgolFeatures.LoadPages, AgolFeatures.DownloadFeatures, AgolAttachments.LoadAttachmentPages:
  the layer is modelled as a list of records, and a page as its slice at the offset. This
  assumes two things of the server:
  - each reply holds exactly `min(batch_size, records left)` records;
  - a reply carries `features` (or `attachmentGroups`) whenever records remain.
  The source stops normally on a reply without that key, such as a 200 reply with an error
  body, and on any short page. So a server whose record limit is below `batch_size`, or
  one that answers with an error body, ends the download early with records missing and
  no error. The promise that a normal end loaded every record holds only under these two
  assumptions.
- AgolFeatures.AsWrittenDownload: it models the download as written only up to the first
  page. That is where the call with `has_geometry=` fails, or the first request is refused.
- AgolFeatures.LoadPages, AgolFeatures.DownloadFeatures: the table's identity sequence after
  the ogr2ogr loads is not stated. It depends on how the loader assigns feature ids, which
  is outside the program.
- PgToAgol.FromGeoJson: upper-casing the GeoJSON type is modelled on ASCII letters only.
  Python's `str.upper()` also maps other letters, for instance 'ı' to 'I', so a type name
  with such a letter is accepted by the source but refused by the model. In the error text
  of a refused name, only the ASCII letters are upper-cased.
- AttachmentSync.SyncAllListed, AttachmentSync.SyncIdempotent: both are proved only for rows
  with distinct targets. A target that two rows share is popped from the listing by the first
  row, so the second row finds it missing and streams it again, on every run. The staging
  table, never emptied as written (AgolAttachments.AsWrittenStagingDuplicates), produces such
  repeated rows after a download of more than one page.
- Strings.Upper, Strings.Lower: they map ASCII letters only, not Python's full Unicode case
  mapping.
- EsriToGeoJson.ConvertFeature: JSON null and a missing key are the same `None`. As written,
  `"attributes": null` gives null properties, while the model gives {}. A geometry
  `{"x": null, "y": null}` gives a Point with null coordinates, while the model treats it
  as carrying no recognised key.
- Integer widths are not modelled. Offsets, counts and identity values are unbounded
  naturals, as Python integers are.
- Concurrency, the database connections' transaction behaviour beyond autocommit and each
  UPDATE's commit, and retries of HTTP requests are left out.

## Findings

| source | as written | input that shows it | evidently intended | confidence | as-written member | corrected member |
|---|---|---|---|---|---|---|
| lib/agol_to_pg.py:414-415 | `esri_to_geojson(esri_json, has_geometry=has_geometry)` calls a one-parameter function, a TypeError. This happens after an existing table has already been truncated. | Any layer with at least one record, loaded into an existing table. | Translate the page with the one-argument call. | not executed | AgolFeatures.AsWrittenDownloadLosesTable | AgolFeatures.DownloadFeatures |
| lib/agol_to_pg.py:545-572 | The temporary staging table is created once with `IF NOT EXISTS` and never emptied. Each page's merge copies every row staged so far. | Two pages of one attachment each: the first attachment is stored twice, three rows in all. | Each page's records are merged once. | not executed | AgolAttachments.AsWrittenStagingDuplicates | AgolAttachments.AllPagesMergedOnce |
| lib/agol_to_pg.py:574-581 | `_fetch_metadata` with a field list always returns both keys, so `'globalIdField' in identifiers` always holds. | A layer whose metadata has only `objectIdField: "OBJECTID"`: the merge names a null parent field joined with `parent_globalid`. | Use the global id when declared, otherwise the object id with `parent_oid`. | not executed | AgolAttachments.AsWrittenObjectIdIgnored | AgolAttachments.ParentChoice |

Two further behaviours are modelled as written, because what was intended is not evident
from the code:

- The bucket listing in `transfer_attachments` uses the raw table name as its prefix. A
  table name that is a prefix of another table's (e.g. "road" and "roads") makes the
  reconciliation delete the other table's objects: see `AttachmentSync.RawPrefixDeletesSibling`.
- `get_last_modified_date` matches the service name anywhere in an object name. A service
  whose name is contained in another's can take that one's dates.

=== FILE: agol_attachments.dfy ===
/**
  `download_attachments`: the attachment groups a feature service returns page by page are
  flattened into one record per attachment, staged, and merged into the `<table>_attach`
  table, the parent being looked up through the identifier field the layer metadata names.
  The service is the finite list of its attachment records, a page being the slice at the
  requested offset regrouped by parent; whether a page request or a metadata request
  fails is an input.
 */
module AgolAttachments {
  import opened Wrappers
  import opened Sequences
  import Sql

  // The attachment query response

  /** One entry of a group's `attachmentInfos`; the EXIF object is carried as an opaque value. */
  datatype AttachmentInfo<X> = AttachmentInfo(
    id: int, name: string, size: int, contentType: string, exifInfo: X, keywords: string, url: string)

  /** One entry of `attachmentGroups`: the attachments of one parent feature. */
  datatype AttachmentGroup<X> = AttachmentGroup(parentObjectId: int, parentGlobalId: string, infos: seq<AttachmentInfo<X>>)

  /** The tuple staged for one attachment: its info and its parent's object id and global id. */
  datatype AttachmentRecord<X> = AttachmentRecord(info: AttachmentInfo<X>, parentOid: int, parentGlobalId: string)

  /** The records of one group, each tagged with the group's parent. */
  function Tag<X>(g: AttachmentGroup<X>): (rs: seq<AttachmentRecord<X>>)
    ensures |rs| == |g.infos|
  {
    seq(|g.infos|, i requires 0 <= i < |g.infos| => AttachmentRecord(g.infos[i], g.parentObjectId, g.parentGlobalId))
  }

  function Tagged<X>(gs: seq<AttachmentGroup<X>>): seq<seq<AttachmentRecord<X>>> {
    seq(|gs|, k requires 0 <= k < |gs| => Tag(gs[k]))
  }

  /** The flattening of a page: the groups' tagged records one after the other. */
  function FlattenGroups<X>(gs: seq<AttachmentGroup<X>>): seq<AttachmentRecord<X>> {
    Concat(Tagged(gs))
  }

  lemma FlattenGroupsAppend<X>(gs: seq<AttachmentGroup<X>>, g: AttachmentGroup<X>)
    ensures FlattenGroups(gs + [g]) == FlattenGroups(gs) + Tag(g)
  {
    assert Tagged(gs + [g]) == Tagged(gs) + [Tag(g)];
    ConcatAppend(Tagged(gs), Tag(g));
  }

  lemma FlattenGroupsSplit<X>(xs: seq<AttachmentGroup<X>>, ys: seq<AttachmentGroup<X>>)
    ensures FlattenGroups(xs + ys) == FlattenGroups(xs) + FlattenGroups(ys)
  {
    assert Tagged(xs + ys) == Tagged(xs) + Tagged(ys);
    ConcatSplit(Tagged(xs), Tagged(ys));
  }

  lemma FlattenGroupsSingle<X>(g: AttachmentGroup<X>)
    ensures FlattenGroups([g]) == Tag(g)
  {
    assert Tagged([g]) == Tagged([]) + [Tag(g)];
    ConcatAppend(Tagged([]), Tag(g));
  }

  /** The number of attachment infos over all groups. */
  function InfoCount<X>(gs: seq<AttachmentGroup<X>>): nat
    decreases |gs|
  {
    if gs == [] then 0 else InfoCount(gs[..|gs| - 1]) + |gs[|gs| - 1].infos|
  }

  /** One record per attachment info: as many records as infos. */
  lemma {:induction false} FlattenGroupsLength<X>(gs: seq<AttachmentGroup<X>>)
    ensures |FlattenGroups(gs)| == InfoCount(gs)
    decreases |gs|
  {
    if gs != [] {
      var init := gs[..|gs| - 1];
      FlattenGroupsLength(init);
      assert init + [gs[|gs| - 1]] == gs;
      FlattenGroupsAppend(init, gs[|gs| - 1]);
    }
  }

  /**
    Info i of group k is the record right after the records of the groups before k, and it
    carries group k's parent object id and parent global id: the flattening keeps the
    order of groups and of infos within a group.
   */
  lemma FlattenGroupsAt<X>(gs: seq<AttachmentGroup<X>>, k: nat, i: nat)
    requires k < |gs| && i < |gs[k].infos|
    ensures var o := |FlattenGroups(gs[..k])|;
      && o + i < |FlattenGroups(gs)|
      && FlattenGroups(gs)[o + i] == AttachmentRecord(gs[k].infos[i], gs[k].parentObjectId, gs[k].parentGlobalId)
  {
    assert gs == gs[..k] + ([gs[k]] + gs[k + 1..]);
    FlattenGroupsSplit(gs[..k], [gs[k]] + gs[k + 1..]);
    FlattenGroupsSplit([gs[k]], gs[k + 1..]);
    FlattenGroupsSingle(gs[k]);
  }

  /**
    `for group in groups: for attachment in group['attachmentInfos']: records.append(...)`.
   */
  method Flatten<X>(groups: seq<AttachmentGroup<X>>) returns (records: seq<AttachmentRecord<X>>)
    ensures records == FlattenGroups(groups)
  {
    records := [];
    for i := 0 to |groups|
      invariant records == FlattenGroups(groups[..i])
    {
      var group := groups[i];
      for j := 0 to |group.infos|
        invariant records == FlattenGroups(groups[..i]) + Tag(group)[..j]
      {
        assert Tag(group)[..j + 1] == Tag(group)[..j] + [Tag(group)[j]];
        records := records + [AttachmentRecord(group.infos[j], group.parentObjectId, group.parentGlobalId)];
      }
      assert Tag(group)[..|group.infos|] == Tag(group);
      assert groups[..i + 1] == groups[..i] + [group];
      FlattenGroupsAppend(groups[..i], group);
    }
    assert groups[..|groups|] == groups;
  }

  /** Flattening the groups of the page at `start`: the page's records, none exactly when there is no group. */
  method FlattenPage<X>(all: seq<AttachmentRecord<X>>, start: nat, batchSize: nat, groups: seq<AttachmentGroup<X>>)
    returns (records: seq<AttachmentRecord<X>>)
    requires groups == Regroup(Page(all, start, batchSize))
    ensures records == Page(all, start, batchSize)
    ensures groups == [] <==> records == []
  {
    records := Flatten(groups);
    FlattenRegroup(Page(all, start, batchSize));
  }

  /** A record continues a group when it has the group's parent. */
  predicate Continues<X>(r: AttachmentRecord<X>, g: AttachmentGroup<X>) {
    g.parentObjectId == r.parentOid && g.parentGlobalId == r.parentGlobalId
  }

  /** How the service groups a run of attachment records: consecutive records of one parent form a group. */
  function Regroup<X>(rs: seq<AttachmentRecord<X>>): seq<AttachmentGroup<X>>
    decreases |rs|
  {
    if rs == [] then [] else
      var r := rs[0];
      var rest := Regroup(rs[1..]);
      if rest != [] && Continues(r, rest[0]) then
        [AttachmentGroup(r.parentOid, r.parentGlobalId, [r.info] + rest[0].infos)] + rest[1..]
      else
        [AttachmentGroup(r.parentOid, r.parentGlobalId, [r.info])] + rest
  }

  lemma FlattenGroupsCons<X>(g: AttachmentGroup<X>, gs: seq<AttachmentGroup<X>>)
    ensures FlattenGroups([g] + gs) == Tag(g) + FlattenGroups(gs)
  {
    FlattenGroupsSplit([g], gs);
    FlattenGroupsSingle(g);
  }

  lemma TagCons<X>(r: AttachmentRecord<X>, g: AttachmentGroup<X>)
    requires Continues(r, g)
    ensures Tag(AttachmentGroup(r.parentOid, r.parentGlobalId, [r.info] + g.infos)) == [r] + Tag(g)
  {
  }

  lemma FlattenJoined<X>(r: AttachmentRecord<X>, rest: seq<AttachmentGroup<X>>)
    requires rest != [] && Continues(r, rest[0])
    ensures FlattenGroups([AttachmentGroup(r.parentOid, r.parentGlobalId, [r.info] + rest[0].infos)] + rest[1..])
      == [r] + FlattenGroups(rest)
  {
    var h := rest[0];
    FlattenGroupsCons(AttachmentGroup(r.parentOid, r.parentGlobalId, [r.info] + h.infos), rest[1..]);
    TagCons(r, h);
    assert rest == [h] + rest[1..];
    FlattenGroupsCons(h, rest[1..]);
  }

  lemma FlattenStarted<X>(r: AttachmentRecord<X>, rest: seq<AttachmentGroup<X>>)
    ensures FlattenGroups([AttachmentGroup(r.parentOid, r.parentGlobalId, [r.info])] + rest) == [r] + FlattenGroups(rest)
  {
    var g := AttachmentGroup(r.parentOid, r.parentGlobalId, [r.info]);
    FlattenGroupsCons(g, rest);
    assert Tag(g) == [r];
  }

  /** Flattening undoes the grouping: the page's records come back in order. */
  lemma {:induction false} FlattenRegroup<X>(rs: seq<AttachmentRecord<X>>)
    ensures FlattenGroups(Regroup(rs)) == rs
    decreases |rs|
  {
    if rs != [] {
      var rest := Regroup(rs[1..]);
      FlattenRegroup(rs[1..]);
      if rest != [] && Continues(rs[0], rest[0]) {
        FlattenJoined(rs[0], rest);
      } else {
        FlattenStarted(rs[0], rest);
      }
      assert [rs[0]] + rs[1..] == rs;
    }
  }

  // The layer metadata and the parent lookup

  /** A JSON object of string-or-null values: a key maps to `None` when its value is null. */
  type Metadata = map<string, Option<string>>

  /**
    `_fetch_metadata`: no metadata when the request fails; with a non-empty field list, an
    object holding every requested key, null for a key the layer does not have; with no
    field list, the whole metadata object.
   */
  function FetchMetadata(reply: Option<Metadata>, fields: seq<string>): (r: Option<Metadata>)
    ensures r.None? <==> reply.None?
    ensures reply.Some? && fields == [] ==> r == reply
    ensures reply.Some? && fields != [] ==>
      && (forall f :: f in r.value <==> f in fields)
      && forall f :: f in r.value ==> r.value[f] == (if f in reply.value then reply.value[f] else None)
  {
    match reply
    case None => None
    case Some(metadata) =>
      if fields != [] then Some(map f | f in fields :: if f in metadata then metadata[f] else None)
      else reply
  }

  const IdFields: seq<string> := ["globalIdField", "objectIdField"]

  /** The merge as written: the key test on "globalIdField" decides, whatever its value. */
  function AsWrittenParentChoice(ids: Metadata): (choice: (Option<string>, string))
    ensures choice.1 in {"parent_globalid", "parent_oid"}
    ensures choice.1 == "parent_globalid" <==> "globalIdField" in ids
  {
    if "globalIdField" in ids then (ids["globalIdField"], "parent_globalid")
    else (if "objectIdField" in ids then ids["objectIdField"] else None, "parent_oid")
  }

  /**
    Whatever the layer metadata holds, a successful metadata request returns a non-empty
    object with the "globalIdField" key, so the merge always joins on the parent global id,
    and with no parent column at all when the layer declares no global id.
   */
  lemma AsWrittenAlwaysGlobalId(m: Metadata)
    ensures var ids := FetchMetadata(Some(m), IdFields);
      && ids.Some? && ids.value != map[]
      && AsWrittenParentChoice(ids.value) == (if "globalIdField" in m then m["globalIdField"] else None, "parent_globalid")
  {
    var ids := FetchMetadata(Some(m), IdFields);
    assert "globalIdField" in IdFields;
    assert "globalIdField" in ids.value;
  }

  /** A layer that declares only an object id field: the merge as written names no parent column. */
  lemma AsWrittenObjectIdIgnored()
    ensures var m: Metadata := map["objectIdField" := Some("OBJECTID")];
      && AsWrittenParentChoice(FetchMetadata(Some(m), IdFields).value) == (None, "parent_globalid")
      && ParentChoice(FetchMetadata(Some(m), IdFields).value) == Some(("OBJECTID", "parent_oid"))
  {
    var m: Metadata := map["objectIdField" := Some("OBJECTID")];
    AsWrittenAlwaysGlobalId(m);
    var ids := FetchMetadata(Some(m), IdFields);
    assert "objectIdField" in IdFields;
    assert ids.value["objectIdField"] == Some("OBJECTID");
    assert ids.value["globalIdField"] == None;
  }

  predicate Declared(ids: Metadata, key: string) {
    key in ids && ids[key].Some? && ids[key].value != ""
  }

  /**
    The parent lookup: the global id field when the layer declares one, otherwise the object
    id field, each joined with the staged column of the same kind; no lookup when the layer
    declares neither.
   */
  function ParentChoice(ids: Metadata): (choice: Option<(string, string)>)
    ensures choice.None? <==> !Declared(ids, "globalIdField") && !Declared(ids, "objectIdField")
    ensures choice.Some? && choice.value.1 == "parent_globalid" <==> Declared(ids, "globalIdField")
    ensures choice.Some? ==> choice.value.0 != "" && choice.value.1 in {"parent_globalid", "parent_oid"}
    ensures choice.Some? && choice.value.1 == "parent_globalid" ==> Some(choice.value.0) == ids["globalIdField"]
    ensures choice.Some? && choice.value.1 == "parent_oid" ==> Some(choice.value.0) == ids["objectIdField"]
  {
    if Declared(ids, "globalIdField") then Some((ids["globalIdField"].value, "parent_globalid"))
    else if Declared(ids, "objectIdField") then Some((ids["objectIdField"].value, "parent_oid"))
    else None
  }

  /** Where the layer declares a global id the corrected lookup is the one the code makes. */
  lemma ParentChoiceAgreesWithAsWritten(m: Metadata)
    requires Declared(m, "globalIdField")
    ensures var ids := FetchMetadata(Some(m), IdFields).value;
      ParentChoice(ids) == Some((AsWrittenParentChoice(ids).0.value, AsWrittenParentChoice(ids).1))
  {
    var ids := FetchMetadata(Some(m), IdFields).value;
    assert "globalIdField" in IdFields;
    assert ids["globalIdField"] == m["globalIdField"];
  }

  /** What happens to one staged page: no merge (metadata request failed), a merge through a parent lookup, or a failing merge. */
  datatype PageMerge = NotMerged | MergeBy(parentField: string, lookupColumn: string) | MergeFails

  function PageMergeFor(reply: Option<Metadata>): PageMerge {
    match FetchMetadata(reply, IdFields)
    case None => NotMerged
    case Some(ids) =>
      match ParentChoice(ids)
      case None => MergeFails
      case Some(choice) => MergeBy(choice.0, choice.1)
  }

  /** The merge outcome of each page, page j consulting the j-th metadata reply. */
  function MergesOf(metadata: nat -> Option<Metadata>): nat -> PageMerge {
    (j: nat) => PageMergeFor(metadata(j))
  }

  // The attachment table

  /** A row of the attachment table: the staged record and the parent lookup its parent id came from. */
  datatype StoredAttachment<X> = StoredAttachment(record: AttachmentRecord<X>, parentField: string, lookupColumn: string)

  function Store<X>(rs: seq<AttachmentRecord<X>>, field: string, column: string): (stored: seq<StoredAttachment<X>>)
    ensures |stored| == |rs|
  {
    seq(|rs|, k requires 0 <= k < |rs| => StoredAttachment(rs[k], field, column))
  }

  lemma StoreAppend<X>(xs: seq<AttachmentRecord<X>>, ys: seq<AttachmentRecord<X>>, field: string, column: string)
    ensures Store(xs + ys, field, column) == Store(xs, field, column) + Store(ys, field, column)
  {
  }

  function PageRows<X>(page: seq<AttachmentRecord<X>>, merge: PageMerge): seq<StoredAttachment<X>> {
    if merge.MergeBy? then Store(page, merge.parentField, merge.lookupColumn) else []
  }

  /** The rows the first k pages add, each page merged once with its own parent lookup. */
  function MergedPages<X>(all: seq<AttachmentRecord<X>>, b: nat, merges: nat -> PageMerge, k: nat): seq<StoredAttachment<X>>
    requires b > 0
  {
    if k == 0 then [] else
      MergedPages(all, b, merges, k - 1) + PageRows(Page(all, Times(k - 1, b), b), merges(k - 1))
  }

  lemma MergedPagesNext<X>(all: seq<AttachmentRecord<X>>, b: nat, merges: nat -> PageMerge, k: nat)
    requires b > 0
    ensures MergedPages(all, b, merges, k + 1)
      == MergedPages(all, b, merges, k) + PageRows(Page(all, Times(k, b), b), merges(k))
  {
  }

  /**
    When every page merges through the same lookup, the first k pages add every record of
    the first k * b once, in order.
   */
  lemma {:induction false} MergedPagesOnce<X>(
    all: seq<AttachmentRecord<X>>, b: nat, merges: nat -> PageMerge, k: nat, field: string, column: string)
    requires b > 0
    requires forall j :: 0 <= j < k ==> merges(j) == MergeBy(field, column)
    ensures MergedPages(all, b, merges, k) == Store(all[..Min(Times(k, b), |all|)], field, column)
  {
    if k > 0 {
      MergedPagesOnce(all, b, merges, k - 1, field, column);
      var lo := Min(Times(k - 1, b), |all|);
      var hi := Min(Times(k, b), |all|);
      PageSlice(all, Times(k - 1, b), b);
      assert all[..hi] == all[..lo] + all[lo..hi];
      StoreAppend(all[..lo], all[lo..hi], field, column);
    }
  }

  /**
    A download that read every page, each merged through the same lookup, has stored every
    attachment record of the service exactly once, in the service's order.
   */
  lemma AllPagesMergedOnce<X>(
    all: seq<AttachmentRecord<X>>, b: nat, merges: nat -> PageMerge, k: nat, field: string, column: string)
    requires b > 0 && k == (|all| + b - 1) / b
    requires forall j :: 0 <= j < k ==> merges(j) == MergeBy(field, column)
    ensures MergedPages(all, b, merges, k) == Store(all, field, column)
  {
    MergedPagesOnce(all, b, merges, k, field, column);
    CeilingCovers(|all|, b);
    assert all[..|all|] == all;
  }

  /** The merges as written: the staging table is never emptied, so each merge copies every page staged so far. */
  function AsWrittenMerged<X>(pages: seq<seq<AttachmentRecord<X>>>, field: string, column: string): (r: seq<StoredAttachment<X>>)
    ensures |r| >= |Concat(pages)|
    ensures |pages| >= 2 && pages[0] != [] ==> |r| > |Concat(pages)|
    decreases |pages|
  {
    if pages == [] then []
    else
      var init := pages[..|pages| - 1];
      ConcatHead(init);
      AsWrittenMerged(init, field, column) + Store(Concat(pages), field, column)
  }

  lemma ConcatHead<T>(xss: seq<seq<T>>)
    ensures |xss| >= 1 ==> |Concat(xss)| >= |xss[0]|
  {
    if |xss| >= 1 {
      ConcatSplit([xss[0]], xss[1..]);
      ConcatAppend([], xss[0]);
      assert [] + [xss[0]] == [xss[0]] && [xss[0]] + xss[1..] == xss;
    }
  }

  /** Two pages of one attachment each: the first attachment is stored twice. */
  lemma AsWrittenStagingDuplicates<X>(a: AttachmentRecord<X>, b: AttachmentRecord<X>, field: string, column: string)
    ensures AsWrittenMerged([[a], [b]], field, column) == Store([a, a, b], field, column)
    ensures |AsWrittenMerged([[a], [b]], field, column)| == 3
  {
    var first: seq<seq<AttachmentRecord<X>>> := [[a]];
    var pages := [[a], [b]];
    assert pages[..1] == first && first[..0] == [];
    assert Concat(first) == [a];
    assert Concat(pages) == [a, b];
    assert AsWrittenMerged(first, field, column) == Store([a], field, column);
    StoreAppend([a], [a, b], field, column);
    assert [a] + [a, b] == [a, a, b];
  }

  // The paging loop

  datatype AttachmentError =
    | TruncateFailed(error: Sql.DbError)    // raised by the table preparation
    | MergeFailed(page: nat)                // the merge statement of this page named no parent column

  datatype AttachmentDownload = Finished | Raised(error: AttachmentError)

  /** Stores page k's records as its merge says; each row inserted draws the next value of the table's BIGSERIAL key. */
  method MergePage<X>(
    dest: Sql.Table<StoredAttachment<X>>, base: seq<StoredAttachment<X>>, all: seq<AttachmentRecord<X>>,
    batchSize: nat, merges: nat -> PageMerge, k: nat, records: seq<AttachmentRecord<X>>)
    requires batchSize > 0
    requires dest.rows == base + MergedPages(all, batchSize, merges, k)
    requires records == Page(all, Times(k, batchSize), batchSize)
    modifies dest
    ensures dest.rows == base + MergedPages(all, batchSize, merges, k + 1)
    ensures dest.nextIdentity + |old(dest.rows)| == old(dest.nextIdentity) + |dest.rows|
  {
    MergedPagesNext(all, batchSize, merges, k);
    var inserted := PageRows(records, merges(k));
    dest.rows := dest.rows + inserted;
    dest.nextIdentity := dest.nextIdentity + |inserted|;
  }

  /** How the handling of one page ends: the loop stops, the merge raises, or `count` records were processed. */
  datatype PageOutcome = NoMorePages | MergeRaised | Processed(count: nat)

  /**
    The loop body for page k, at offset `start` = k * b: a failed request or a page with no
    group stops the loop; otherwise the page is flattened and merged, and the number of
    records (not of groups) is what the offset advances by.
   */
  method LoadAttachmentPage<X>(
    dest: Sql.Table<StoredAttachment<X>>, base: seq<StoredAttachment<X>>, all: seq<AttachmentRecord<X>>,
    batchSize: nat, fetchFails: nat -> bool, merges: nat -> PageMerge, k: nat, start: nat)
    returns (outcome: PageOutcome)
    requires batchSize > 0 && start == Times(k, batchSize) && start <= |all|
    requires dest.rows == base + MergedPages(all, batchSize, merges, k)
    modifies dest
    ensures dest.nextIdentity + |old(dest.rows)| == old(dest.nextIdentity) + |dest.rows|
    ensures outcome.NoMorePages? <==> fetchFails(k) || start == |all|
    ensures outcome.MergeRaised? <==> !fetchFails(k) && start < |all| && merges(k) == MergeFails
    ensures !outcome.Processed? ==> dest.rows == old(dest.rows)
    ensures outcome.Processed? ==>
      && outcome.count == |Page(all, start, batchSize)| && 0 < outcome.count <= batchSize
      && start + outcome.count <= |all|
      && (outcome.count < batchSize ==> start + outcome.count == |all|)
      && dest.rows == base + MergedPages(all, batchSize, merges, k + 1)
  {
    if fetchFails(k) {
      return NoMorePages;
    }
    var groups := Regroup(Page(all, start, batchSize));
    var records := FlattenPage(all, start, batchSize, groups);
    if |groups| == 0 {
      return NoMorePages;
    }
    if merges(k) == MergeFails {
      return MergeRaised;
    }
    MergePage(dest, base, all, batchSize, merges, k, records);
    return Processed(|records|);
  }

  /** Pages 0 .. k - 1 were fetched and their merges did not fail. */
  predicate PagesLoaded(fetchFails: nat -> bool, merges: nat -> PageMerge, k: nat) {
    forall j :: 0 <= j < k ==> !fetchFails(j) && merges(j) != MergeFails
  }

  lemma PagesLoadedNext(fetchFails: nat -> bool, merges: nat -> PageMerge, k: nat)
    requires PagesLoaded(fetchFails, merges, k) && !fetchFails(k) && merges(k) != MergeFails
    ensures PagesLoaded(fetchFails, merges, k + 1)
  {
  }

  /**
    One pass of the paging loop from page k = |offsets| at offset `start`: the request is
    counted, the page is handled, and on a processed page its offset is recorded and the
    offset advances by its record count. `done` says whether the loop stops after it.
   */
  method NextAttachmentPage<X>(
    dest: Sql.Table<StoredAttachment<X>>, base: seq<StoredAttachment<X>>, all: seq<AttachmentRecord<X>>,
    batchSize: nat, fetchFails: nat -> bool, merges: nat -> PageMerge,
    start: nat, fetches: nat, offsets: seq<nat>)
    returns (raised: bool, start': nat, fetches': nat, offsets': seq<nat>, done: bool)
    requires batchSize > 0 && start <= |all|
    requires offsets == PageOffsets(|offsets|, batchSize) && PagesLoaded(fetchFails, merges, |offsets|)
    requires start == Times(|offsets|, batchSize) && fetches == |offsets|
    requires dest.rows == base + MergedPages(all, batchSize, merges, |offsets|)
    modifies dest
    ensures dest.nextIdentity + |old(dest.rows)| == old(dest.nextIdentity) + |dest.rows|
    ensures raised ==>
      && dest.rows == old(dest.rows) && offsets' == offsets && fetches' == fetches + 1 && start' == start
      && !fetchFails(|offsets|) && merges(|offsets|) == MergeFails && start < |all|
    ensures !raised ==>
      && start <= start' <= |all|
      && offsets' == PageOffsets(|offsets'|, batchSize) && PagesLoaded(fetchFails, merges, |offsets'|)
      && dest.rows == base + MergedPages(all, batchSize, merges, |offsets'|)
      && (!done ==> start' == Times(|offsets'|, batchSize) && fetches' == |offsets'| && start < start')
      && (done ==>
        || (start' == |all| && fetches' == |all| / batchSize + 1 && |offsets'| == (|all| + batchSize - 1) / batchSize)
        || (fetchFails(|offsets'|) && start' == Times(|offsets'|, batchSize) && fetches' == |offsets'| + 1))
  {
    var n := |all|;
    var k := |offsets|;
    fetches' := fetches + 1;
    var outcome := LoadAttachmentPage(dest, base, all, batchSize, fetchFails, merges, k, start);
    match outcome {
      case NoMorePages =>
        if !fetchFails(k) {
          EndOnEmptyPage(n, batchSize, k);
        }
        return false, start, fetches', offsets, true;
      case MergeRaised =>
        return true, start, fetches', offsets, false;
      case Processed(count) =>
        PagesLoadedNext(fetchFails, merges, k);
        PageOffsetsNext(k, batchSize);
        offsets' := offsets + [start];
        assert Times(k + 1, batchSize) == start + batchSize;
        start' := start + count;
        raised, done := false, count < batchSize;
        if count < batchSize {
          EndOnShortPage(n, batchSize, k + 1, count);
        }
    }
  }

  /**
    The paging loop: the offset starts at 0 and advances by each page's record count; the
    loop stops at a failed request, an empty page or a page shorter than the batch. When no
    request fails, every record has been processed once, over ceil(n / b) pages and
    n / b + 1 requests; a failing merge raises with the earlier pages merged. Each page is
    merged once, through the lookup ParentChoice makes: this is the corrected merge, not the
    one that re-reads the whole staging table and always joins on the global id.
   */
  method LoadAttachmentPages<X>(
    dest: Sql.Table<StoredAttachment<X>>, all: seq<AttachmentRecord<X>>, batchSize: nat,
    fetchFails: nat -> bool, merges: nat -> PageMerge)
    returns (failedPage: Option<nat>, total: nat, fetches: nat, offsets: seq<nat>)
    requires batchSize > 0
    modifies dest
    ensures dest.nextIdentity + |old(dest.rows)| == old(dest.nextIdentity) + |dest.rows|
    ensures dest.rows == old(dest.rows) + MergedPages(all, batchSize, merges, |offsets|)
    ensures offsets == PageOffsets(|offsets|, batchSize)
    ensures PagesLoaded(fetchFails, merges, |offsets|)
    ensures failedPage.Some? ==>
      && failedPage.value == |offsets| && !fetchFails(|offsets|)
      && merges(|offsets|) == MergeFails
      && Times(|offsets|, batchSize) < |all|
    ensures failedPage.None? ==>
      || (total == |all| && fetches == |all| / batchSize + 1 && |offsets| == (|all| + batchSize - 1) / batchSize)
      || (fetchFails(|offsets|) && total == Times(|offsets|, batchSize) <= |all| && fetches == |offsets| + 1)
  {
    total, fetches, offsets := 0, 0, [];
    var base := dest.rows;
    var n := |all|;
    var start := 0;
    var done := false;
    while !done
      invariant 0 <= start <= n
      invariant dest.nextIdentity + |base| == old(dest.nextIdentity) + |dest.rows|
      invariant offsets == PageOffsets(|offsets|, batchSize)
      invariant PagesLoaded(fetchFails, merges, |offsets|)
      invariant dest.rows == base + MergedPages(all, batchSize, merges, |offsets|)
      invariant !done ==> start == Times(|offsets|, batchSize) && fetches == |offsets|
      invariant done ==>
        || (start == n && fetches == n / batchSize + 1 && |offsets| == (n + batchSize - 1) / batchSize)
        || (fetchFails(|offsets|) && start == Times(|offsets|, batchSize) && fetches == |offsets| + 1)
      decreases n - start, if done then 0 else 1
    {
      var raised;
      raised, start, fetches, offsets, done := NextAttachmentPage(dest, base, all, batchSize, fetchFails, merges, start, fetches, offsets);
      if raised {
        return Some(|offsets|), start, fetches, offsets;
      }
    }
    return None, start, fetches, offsets;
  }

  /**
    `download_attachments`: an existing `<table>_attach` is emptied (TRUNCATE with RESTART
    IDENTITY, no CASCADE, or the DELETE fallback) and a failure there raises before any
    request; a missing one is created empty. Then the pages are loaded.
   */
  method DownloadAttachments<X>(
    dest: Sql.Table<StoredAttachment<X>>, tableExists: bool, schema: string, table: string,
    all: seq<AttachmentRecord<X>>, batchSize: nat,
    truncation: Sql.Execution, deletion: Sql.Execution,
    fetchFails: nat -> bool, metadata: nat -> Option<Metadata>)
    returns (outcome: AttachmentDownload, total: nat, fetches: nat, offsets: seq<nat>)
    requires batchSize > 0
    modifies dest
    ensures tableExists && Sql.Decide(truncation, deletion, true).Raised? ==>
      && outcome == Raised(TruncateFailed(Sql.Decide(truncation, deletion, true).error))
      && dest.rows == old(dest.rows) && fetches == 0
    ensures outcome.Raised? && outcome.error.TruncateFailed? ==> tableExists && Sql.Decide(truncation, deletion, true).Raised?
    ensures !(tableExists && Sql.Decide(truncation, deletion, true).Raised?) ==>
      dest.nextIdentity == (if !tableExists || Sql.Decide(truncation, deletion, true).Truncated? then 1 else old(dest.nextIdentity)) + |dest.rows|
    ensures outcome.Finished? ==>
      && dest.rows == MergedPages(all, batchSize, MergesOf(metadata), |offsets|)
      && offsets == PageOffsets(|offsets|, batchSize)
      && (|| (total == |all| && fetches == |all| / batchSize + 1 && |offsets| == (|all| + batchSize - 1) / batchSize)
          || (fetchFails(|offsets|) && total == Times(|offsets|, batchSize) && fetches == |offsets| + 1))
    ensures outcome.Raised? && outcome.error.MergeFailed? ==>
      && outcome.error.page == |offsets|
      && PageMergeFor(metadata(|offsets|)) == MergeFails
      && dest.rows == MergedPages(all, batchSize, MergesOf(metadata), |offsets|)
  {
    if tableExists {
      var prepared, issued := dest.TruncateOrDelete(schema, table + "_attach", false, true, truncation, deletion);
      if prepared.Raised? {
        return Raised(TruncateFailed(prepared.error)), 0, 0, [];
      }
    } else {
      dest.rows := [];
      dest.nextIdentity := 1;
    }
    var failedPage;
    failedPage, total, fetches, offsets := LoadAttachmentPages(dest, all, batchSize, fetchFails, MergesOf(metadata));
    outcome := if failedPage.Some? then Raised(MergeFailed(failedPage.value)) else Finished;
  }
}

=== FILE: agol_features.dfy ===
/**
  `download_features`: the layer's records are read page by page (offset and count) from the
  feature service, each page is translated to GeoJSON and appended to the PostGIS table, after
  the table has been emptied when it already exists. The service is the finite list of the
  layer's records, a page being the slice at the requested offset; whether a page request
  fails and whether the loader succeeds on a page are inputs.
 */
module AgolFeatures {
  import opened Wrappers
  import opened Sequences
  import opened EsriToGeoJson
  import Sql

  /** The GeoJSON features the translation makes of a list of Esri features, one for one. */
  function ConvertAll<N, V>(fs: seq<EsriFeature<N, V>>): (r: seq<GeoFeature<N, V>>)
    ensures |r| == |fs| && forall k :: 0 <= k < |fs| ==> r[k] == ConvertFeature(fs[k])
  {
    seq(|fs|, k requires 0 <= k < |fs| => ConvertFeature(fs[k]))
  }

  lemma ConvertAllAppend<N, V>(xs: seq<EsriFeature<N, V>>, ys: seq<EsriFeature<N, V>>)
    ensures ConvertAll(xs + ys) == ConvertAll(xs) + ConvertAll(ys)
  {
  }

  lemma AppendPage<N, V>(base: seq<GeoFeature<N, V>>, records: seq<EsriFeature<N, V>>, start: nat, page: seq<EsriFeature<N, V>>)
    requires start + |page| <= |records| && page == records[start .. start + |page|]
    ensures base + ConvertAll(records[..start]) + ConvertAll(page) == base + ConvertAll(records[..start + |page|])
  {
    assert records[..start + |page|] == records[..start] + page;
    ConvertAllAppend(records[..start], page);
  }

  datatype DownloadError =
    | TruncateFailed(error: Sql.DbError)    // raised by the table preparation
    | FetchAborted(page: nat)               // the request for this page was refused, and `abort` raised
    | LoaderFailed(page: nat)               // ogr2ogr exited with an error on this page
    | UnexpectedKeyword(keyword: string)    // TypeError from a call with an unknown keyword argument

  datatype Download = Finished | Raised(error: DownloadError)

  /** How the handling of one page ends: no more records, the request raises, ogr2ogr fails, or `count` features were loaded. */
  datatype PageOutcome = NoMorePages | FetchRaised | LoaderRaised | Processed(count: nat)

  /**
    The loop body for page k, at offset `start` = k * b: a refused request raises (the
    request helper aborts on any reply but 200), a page with no feature stops the loop;
    otherwise the page is translated and loaded, and the number of features translated is
    what the offset advances by.
   */
  method LoadFeaturePage<N, V>(
    dest: Sql.Table<GeoFeature<N, V>>, base: seq<GeoFeature<N, V>>, records: seq<EsriFeature<N, V>>,
    batchSize: nat, fetchFails: nat -> bool, loaderFails: nat -> bool, k: nat, start: nat)
    returns (outcome: PageOutcome)
    requires batchSize > 0 && start == Times(k, batchSize) && start <= |records|
    requires dest.rows == base + ConvertAll(records[..start])
    modifies dest
    ensures outcome.FetchRaised? <==> fetchFails(k)
    ensures outcome.NoMorePages? <==> !fetchFails(k) && start == |records|
    ensures outcome.LoaderRaised? <==> !fetchFails(k) && start < |records| && loaderFails(k)
    ensures !outcome.Processed? ==> dest.rows == old(dest.rows)
    ensures outcome.Processed? ==>
      && outcome.count == |Page(records, start, batchSize)| && 0 < outcome.count <= batchSize
      && start + outcome.count <= |records|
      && (outcome.count < batchSize ==> start + outcome.count == |records|)
      && dest.rows == base + ConvertAll(records[..start + outcome.count])
  {
    if fetchFails(k) {
      return FetchRaised;
    }
    var page := Page(records, start, batchSize);
    if |page| == 0 {
      return NoMorePages;
    }
    var geojson := EsriToGeoJson.EsriToGeoJson(EsriFeatureSet(Some(page)));
    if loaderFails(k) {
      return LoaderRaised;
    }
    assert geojson.features == ConvertAll(page);
    AppendPage(base, records, start, page);
    dest.rows := dest.rows + geojson.features;
    return Processed(|geojson.features|);
  }

  /**
    The paging loop: the offset starts at 0 and advances by the size of each page; the loop
    stops at an empty page or after a page shorter than the batch size, and raises when a
    request is refused or ogr2ogr fails. Every page loaded was appended once, in order, and
    the pages started at offsets 0, b, 2b, .... When nothing raises, every record was
    loaded, over ceil(n / b) pages and n / b + 1 requests; when page j raises, the table has
    gained exactly the pages before it.
   */
  method LoadPages<N, V>(dest: Sql.Table<GeoFeature<N, V>>, records: seq<EsriFeature<N, V>>, batchSize: nat,
                         fetchFails: nat -> bool, loaderFails: nat -> bool)
    returns (failure: Option<DownloadError>, total: nat, fetches: nat, offsets: seq<nat>)
    requires batchSize > 0
    modifies dest
    ensures offsets == PageOffsets(|offsets|, batchSize)
    ensures forall j :: 0 <= j < |offsets| ==> !fetchFails(j) && !loaderFails(j)
    ensures total <= |records| && dest.rows == old(dest.rows) + ConvertAll(records[..total])
    ensures failure.None? ==>
      total == |records| && fetches == |records| / batchSize + 1 && |offsets| == (|records| + batchSize - 1) / batchSize
    ensures failure.Some? ==>
      && total == Times(|offsets|, batchSize) && fetches == |offsets| + 1
      && (|| (failure.value == FetchAborted(|offsets|) && fetchFails(|offsets|))
          || (failure.value == LoaderFailed(|offsets|) && !fetchFails(|offsets|) && loaderFails(|offsets|) && total < |records|))
  {
    total, fetches, offsets := 0, 0, [];
    var base := dest.rows;
    var n := |records|;
    var start := 0;
    var done := false;
    while !done
      invariant 0 <= start <= n
      invariant total == start
      invariant forall j :: 0 <= j < |offsets| ==> !fetchFails(j) && !loaderFails(j)
      invariant offsets == PageOffsets(|offsets|, batchSize)
      invariant dest.rows == base + ConvertAll(records[..start])
      invariant !done ==> start == Times(|offsets|, batchSize) && fetches == |offsets|
      invariant done ==> start == n && fetches == n / batchSize + 1 && |offsets| == (n + batchSize - 1) / batchSize
      decreases n - start, if done then 0 else 1
    {
      fetches := fetches + 1;
      var k := |offsets|;
      var outcome := LoadFeaturePage(dest, base, records, batchSize, fetchFails, loaderFails, k, start);
      match outcome {
        case NoMorePages =>
          EndOnEmptyPage(n, batchSize, k);
          done := true;
        case FetchRaised =>
          return Some(FetchAborted(k)), total, fetches, offsets;
        case LoaderRaised =>
          return Some(LoaderFailed(k)), total, fetches, offsets;
        case Processed(count) =>
          PageOffsetsNext(k, batchSize);
          offsets := offsets + [start];
          assert Times(k + 1, batchSize) == start + batchSize;
          start := start + count;
          total := total + count;
          if count < batchSize {
            EndOnShortPage(n, batchSize, k + 1, count);
            done := true;
          }
      }
    }
    failure := None;
  }

  /**
    `download_features`: an existing table is first emptied (TRUNCATE with CASCADE and
    RESTART IDENTITY, or the DELETE fallback), and a failure there raises before any request;
    a missing table has no rows until ogr2ogr creates it. Then the pages are loaded, and a
    refused request or a failing ogr2ogr raises with the pages before it loaded.
   */
  method DownloadFeatures<N, V>(
    dest: Sql.Table<GeoFeature<N, V>>, tableExists: bool, schema: string, table: string,
    records: seq<EsriFeature<N, V>>, batchSize: nat,
    truncation: Sql.Execution, deletion: Sql.Execution, fetchFails: nat -> bool, loaderFails: nat -> bool)
    returns (outcome: Download, total: nat, fetches: nat, offsets: seq<nat>)
    requires batchSize > 0
    modifies dest
    ensures tableExists && Sql.Decide(truncation, deletion, true).Raised? ==>
      && outcome == Raised(TruncateFailed(Sql.Decide(truncation, deletion, true).error))
      && dest.rows == old(dest.rows) && fetches == 0
    ensures outcome.Raised? && outcome.error.TruncateFailed? ==> tableExists && Sql.Decide(truncation, deletion, true).Raised?
    ensures !(tableExists && Sql.Decide(truncation, deletion, true).Raised?) ==>
      && total <= |records| && dest.rows == ConvertAll(records[..total])
      && (forall j :: 0 <= j < |offsets| ==> offsets[j] == j * batchSize && !fetchFails(j) && !loaderFails(j))
    ensures outcome.Finished? ==>
      && total == |records| && dest.rows == ConvertAll(records)
      && fetches == |records| / batchSize + 1 && |offsets| == (|records| + batchSize - 1) / batchSize
    ensures outcome.Raised? && outcome.error.FetchAborted? ==>
      var j := outcome.error.page;
      && j == |offsets| && fetchFails(j) && fetches == j + 1
      && total == j * batchSize && dest.rows == ConvertAll(records[..j * batchSize])
    ensures outcome.Raised? && outcome.error.LoaderFailed? ==>
      var j := outcome.error.page;
      && j == |offsets| && !fetchFails(j) && loaderFails(j) && fetches == j + 1
      && j * batchSize < |records| && total == j * batchSize && dest.rows == ConvertAll(records[..j * batchSize])
    ensures !(outcome.Raised? && outcome.error.UnexpectedKeyword?)
  {
    if tableExists {
      var prepared, issued := dest.TruncateOrDelete(schema, table, true, true, truncation, deletion);
      if prepared.Raised? {
        return Raised(TruncateFailed(prepared.error)), 0, 0, [];
      }
    } else {
      dest.rows := [];
    }
    var failure;
    failure, total, fetches, offsets := LoadPages(dest, records, batchSize, fetchFails, loaderFails);
    outcome := if failure.Some? then Raised(failure.value) else Finished;
    if outcome.Finished? {
      assert records[..total] == records;
    }
  }

  // The loop as written passes `has_geometry=` to the one-parameter translation

  /** Calling `esri_to_geojson(esri_json, **keywords)`: any keyword argument is a TypeError. */
  function CallEsriToGeoJson<N, V>(page: seq<EsriFeature<N, V>>, keywords: seq<string>): (r: Result<seq<GeoFeature<N, V>>, DownloadError>)
    ensures keywords == [] ==> r == Ok(ConvertAll(page))
    ensures keywords != [] ==> r == Err(UnexpectedKeyword(keywords[0]))
  {
    if keywords == [] then Ok(ConvertAll(page)) else Err(UnexpectedKeyword(keywords[0]))
  }

  /**
    `download_features` as written, up to the first page it converts: the table is prepared,
    the first request is made (`firstFetchFails` says whether it is refused), and the first
    page, when it is not empty, makes the call with `has_geometry=`. Returns the outcome and
    the table rows it leaves.
   */
  function AsWrittenDownload<N, V>(
    rows: seq<GeoFeature<N, V>>, tableExists: bool, records: seq<EsriFeature<N, V>>, batchSize: nat,
    truncation: Sql.Execution, deletion: Sql.Execution, firstFetchFails: bool): (r: (Download, seq<GeoFeature<N, V>>))
    requires batchSize > 0
    ensures !(tableExists && Sql.Decide(truncation, deletion, true).Raised?) ==> r.1 == []
    ensures r.0.Finished? ==> records == [] && r.1 == []
  {
    var prepared := Sql.Decide(truncation, deletion, true);
    if tableExists && prepared.Raised? then (Raised(TruncateFailed(prepared.error)), rows)
    else if firstFetchFails then (Raised(FetchAborted(0)), [])
    else
      var page := Page(records, 0, batchSize);
      if page == [] then (Finished, [])
      else
        match CallEsriToGeoJson(page, ["has_geometry"])
        case Err(e) => (Raised(e), [])
        case Ok(converted) => (Finished, converted)
  }

  /**
    As written, every download of a non-empty layer into an existing table raises a TypeError
    after the table has been emptied: the old rows are gone and no new row is loaded.
   */
  lemma AsWrittenDownloadLosesTable<N, V>(
    rows: seq<GeoFeature<N, V>>, records: seq<EsriFeature<N, V>>, batchSize: nat, deletion: Sql.Execution)
    requires batchSize > 0 && records != []
    ensures AsWrittenDownload(rows, true, records, batchSize, Sql.Done, deletion, false)
      == (Raised(UnexpectedKeyword("has_geometry")), [])
  {
    assert Page(records, 0, batchSize) != [];
  }
}

=== FILE: agol_loader.dfy ===
/**
  The choices made before features are loaded into PostGIS: which EPSG code a feature
  service declares, and the ogr2ogr command line (layer geometry type, geometry column
  options, source and target spatial reference) built for one GeoJSON file.
 */
module AgolLoader {
  import opened Wrappers
  import opened Strings
  import opened EsriToGeoJson

  // The source spatial reference

  /** The "spatialReference" object of a layer's extent; a key it does not carry is `None`. */
  datatype SpatialReference = SpatialReference(latestWkid: Option<int>, wkid: Option<int>)

  /**
    The metadata request: a status other than 200, or the layer metadata, whose
    `extent.spatialReference` object is read as empty when either level is missing.
   */
  datatype MetadataResponse = RequestFailed | Metadata(spatialReference: SpatialReference)

  /**
    `_fetch_source_epsg`: the current code `latestWkid` is preferred, the historical `wkid`
    is the fallback, and there is no code when the request fails or neither key is present.
   */
  function FetchSourceEpsg(response: MetadataResponse): (r: Option<int>)
    ensures r.None? <==>
      response.RequestFailed? || (response.spatialReference.latestWkid.None? && response.spatialReference.wkid.None?)
    ensures r.Some? ==>
      || r == response.spatialReference.latestWkid
      || (response.spatialReference.latestWkid.None? && r == response.spatialReference.wkid)
  {
    match response
    case RequestFailed => None
    case Metadata(sr) =>
      if sr.latestWkid.Some? then sr.latestWkid
      else if sr.wkid.Some? then sr.wkid
      else None
  }

  // The layer geometry type

  const NltMapping: map<string, string> := map[
    "Point" := "POINT",
    "MultiPoint" := "MULTIPOINT",
    "LineString" := "LINESTRING",
    "MultiLineString" := "MULTILINESTRING",
    "Polygon" := "POLYGON",
    "MultiPolygon" := "MULTIPOLYGON"
  ]

  /**
    The `-nlt` layer type for the GeoJSON type of the first feature: single polygons and
    lines are promoted to their multi types, other known types map to their own name and
    anything else lets ogr2ogr promote to multi.
   */
  function LoaderGeometryType(firstType: string): (t: string)
    ensures t != "POLYGON" && t != "LINESTRING" && t != "NONE"
    ensures t in {"POINT", "MULTIPOINT", "MULTILINESTRING", "MULTIPOLYGON", "PROMOTE_TO_MULTI"}
    ensures firstType !in NltMapping ==> t == "PROMOTE_TO_MULTI"
  {
    if firstType == "Polygon" then "MULTIPOLYGON"
    else if firstType == "LineString" then "MULTILINESTRING"
    else if firstType in NltMapping then NltMapping[firstType]
    else "PROMOTE_TO_MULTI"
  }

  /** The layer type read straight off the Esri key a geometry carries. */
  function LoaderTypeForEsri<N>(g: Option<EsriGeometry<N>>): string {
    if Unrecognised(g) then "PROMOTE_TO_MULTI"
    else if g.value.x.Some? && g.value.y.Some? then "POINT"
    else if g.value.points.Some? then "MULTIPOINT"
    else if g.value.paths.Some? then "MULTILINESTRING"
    else "MULTIPOLYGON"
  }

  /**
    For features produced by the Esri to GeoJSON translation, the layer type depends only on
    which Esri key the first geometry carries, not on how many paths or rings it has: one
    ring and several rings both load into a MULTIPOLYGON layer.
   */
  lemma LoaderTypeFollowsEsriKey<N>(g: Option<EsriGeometry<N>>)
    ensures LoaderGeometryType(GeometryOf(g).kind) == LoaderTypeForEsri(g)
  {
    CoordinatesCarryEsriParts(g);
  }

  // The ogr2ogr command line

  datatype LoaderRequest = LoaderRequest(
    filePath: string,
    service: string,
    schema: string,
    table: string,
    oid: string,
    geometryName: Option<string>,
    sourceEpsg: Option<int>,
    targetEpsg: Option<int>)

  /** A run that returns before building a command, fails on the missing first feature, or runs a command. */
  datatype LoaderRun = NoFeaturesKey | FirstFeatureMissing | Command(args: seq<string>)

  /** Python truthiness of an optional string and of an optional integer. */
  predicate Truthy(s: Option<string>) {
    s.Some? && s.value != ""
  }

  predicate TruthyCode(c: Option<int>) {
    c.Some? && c.value != 0
  }

  function BaseArgs(req: LoaderRequest): (args: seq<string>)
    ensures |args| == 14
  {
    ["ogr2ogr", "-progress", "--config", "PG_USE_COPY", "YES", "-f", "PostgreSQL",
     "PG:service=" + req.service + " sslmode=disable active_schema=" + req.schema,
     req.filePath, "-append", "-lco", "FID=" + req.oid, "-nln", req.schema + "." + req.table]
  }

  function EpsgArg(code: int): string {
    "EPSG:" + IntToString(code)
  }

  function GeometryArgs(req: LoaderRequest): seq<string> {
    if Truthy(req.geometryName) then
      ["-lco", "GEOMETRY_NAME=" + req.geometryName.value, "-lco", "GEOMETRY_TYPE=geometry", "-lco", "DIM=2"]
      + (if TruthyCode(req.sourceEpsg) then ["-a_srs", EpsgArg(req.sourceEpsg.value)] else [])
      + (if TruthyCode(req.targetEpsg) then ["-t_srs", EpsgArg(req.targetEpsg.value)] else [])
    else []
  }

  function NltFor(req: LoaderRequest, firstType: string): string {
    if Truthy(req.geometryName) then LoaderGeometryType(firstType) else "NONE"
  }

  /** The full argument list for a file whose first feature has GeoJSON type `firstType`. */
  function LoaderArgs(req: LoaderRequest, firstType: string): seq<string> {
    BaseArgs(req) + GeometryArgs(req) + ["-nlt", NltFor(req, firstType)]
  }

  /**
    What the options after the fixed prefix say: a source reference is assigned (-a_srs) only
    when a geometry column is named and the source code is truthy, a reprojection (-t_srs)
    only when a geometry column is named and the target code is truthy, and the layer type is
    "NONE" exactly when no geometry column is named.
   */
  lemma LoaderArgsOptions(req: LoaderRequest, firstType: string)
    ensures var args := LoaderArgs(req, firstType);
      var tail := args[14..];
      && args[..14] == BaseArgs(req)
      && ("-a_srs" in tail <==> Truthy(req.geometryName) && TruthyCode(req.sourceEpsg))
      && ("-t_srs" in tail <==> Truthy(req.geometryName) && TruthyCode(req.targetEpsg))
      && (Truthy(req.geometryName) && TruthyCode(req.sourceEpsg) ==> EpsgArg(req.sourceEpsg.value) in tail)
      && (Truthy(req.geometryName) && TruthyCode(req.targetEpsg) ==> EpsgArg(req.targetEpsg.value) in tail)
      && tail[|tail| - 2] == "-nlt"
      && (tail[|tail| - 1] == "NONE" <==> !Truthy(req.geometryName))
  {
    var args := LoaderArgs(req, firstType);
    var nlt := NltFor(req, firstType);
    assert args[..14] == BaseArgs(req) && args[14..] == GeometryArgs(req) + ["-nlt", nlt];
    GeometryArgsOptions(req);
    assert nlt[0] != '-' by {
      if Truthy(req.geometryName) {
        var t := LoaderGeometryType(firstType);
        assert t in {"POINT", "MULTIPOINT", "MULTILINESTRING", "MULTIPOLYGON", "PROMOTE_TO_MULTI"};
      }
    }
  }

  /** The source and target reference options each appear exactly when their code is truthy and a geometry column is named. */
  lemma GeometryArgsOptions(req: LoaderRequest)
    ensures var g := GeometryArgs(req);
      && ("-a_srs" in g <==> Truthy(req.geometryName) && TruthyCode(req.sourceEpsg))
      && ("-t_srs" in g <==> Truthy(req.geometryName) && TruthyCode(req.targetEpsg))
      && (Truthy(req.geometryName) && TruthyCode(req.sourceEpsg) ==> EpsgArg(req.sourceEpsg.value) in g)
      && (Truthy(req.geometryName) && TruthyCode(req.targetEpsg) ==> EpsgArg(req.targetEpsg.value) in g)
  {
    if Truthy(req.geometryName) {
      var name := "GEOMETRY_NAME=" + req.geometryName.value;
      var six := ["-lco", name, "-lco", "GEOMETRY_TYPE=geometry", "-lco", "DIM=2"];
      var source := if TruthyCode(req.sourceEpsg) then ["-a_srs", EpsgArg(req.sourceEpsg.value)] else [];
      var target := if TruthyCode(req.targetEpsg) then ["-t_srs", EpsgArg(req.targetEpsg.value)] else [];
      assert GeometryArgs(req) == six + source + target;
      assert name[0] == 'G';
      assert "-a_srs" !in six && "-t_srs" !in six;
      assert "-t_srs" !in source by {
        if TruthyCode(req.sourceEpsg) {
          assert EpsgArg(req.sourceEpsg.value)[0] == 'E';
        }
      }
      assert "-a_srs" !in target by {
        if TruthyCode(req.targetEpsg) {
          assert EpsgArg(req.targetEpsg.value)[0] == 'E';
        }
      }
    }
  }

  /** The options `_run_ogr2ogr` appends for a named geometry column, one group at a time. */
  method AddGeometryOptions(prefix: seq<string>, req: LoaderRequest) returns (command: seq<string>)
    requires Truthy(req.geometryName)
    ensures command == prefix + GeometryArgs(req)
  {
    command := prefix + ["-lco", "GEOMETRY_NAME=" + req.geometryName.value];
    command := command + ["-lco", "GEOMETRY_TYPE=geometry"];
    command := command + ["-lco", "DIM=2"];
    ghost var six := ["-lco", "GEOMETRY_NAME=" + req.geometryName.value, "-lco", "GEOMETRY_TYPE=geometry", "-lco", "DIM=2"];
    assert command == prefix + six;
    ghost var source := if TruthyCode(req.sourceEpsg) then ["-a_srs", EpsgArg(req.sourceEpsg.value)] else [];
    ghost var target := if TruthyCode(req.targetEpsg) then ["-t_srs", EpsgArg(req.targetEpsg.value)] else [];
    if req.sourceEpsg.Some? && req.sourceEpsg.value != 0 {
      command := command + ["-a_srs", EpsgArg(req.sourceEpsg.value)];
    }
    assert command == prefix + six + source;
    if req.targetEpsg.Some? && req.targetEpsg.value != 0 {
      command := command + ["-t_srs", EpsgArg(req.targetEpsg.value)];
    }
    assert command == prefix + six + source + target;
    assert GeometryArgs(req) == six + source + target;
  }

  /**
    `_run_ogr2ogr` up to running the command: no "features" key returns early, a named
    geometry column with no features fails on the first feature's type, and otherwise the
    command grows option by option into LoaderArgs.
   */
  method RunOgr2ogr<N, V>(req: LoaderRequest, features: Option<seq<GeoFeature<N, V>>>) returns (run: LoaderRun)
    ensures features.None? <==> run.NoFeaturesKey?
    ensures run.FirstFeatureMissing? <==> features.Some? && features.value == [] && Truthy(req.geometryName)
    ensures run.Command? ==>
      run.args == LoaderArgs(req, if features.value == [] then "" else features.value[0].geometry.kind)
  {
    if features.None? {
      return NoFeaturesKey;
    }
    var command := BaseArgs(req);
    var nlt := "NONE";
    if req.geometryName.Some? && |req.geometryName.value| > 0 {
      if |features.value| == 0 {
        return FirstFeatureMissing;
      }
      var geomType := features.value[0].geometry.kind;
      if geomType == "Polygon" {
        nlt := "MULTIPOLYGON";
      } else if geomType == "LineString" {
        nlt := "MULTILINESTRING";
      } else {
        nlt := if geomType in NltMapping then NltMapping[geomType] else "PROMOTE_TO_MULTI";
      }
      assert nlt == NltFor(req, geomType);
      command := AddGeometryOptions(command, req);
    } else {
      assert GeometryArgs(req) == [];
    }
    command := command + ["-nlt", nlt];
    run := Command(command);
  }
}

=== FILE: attachment_sync.dfy ===
/**
  `transfer_attachments`: the attachment table written by the attachment download is
  reconciled with a storage bucket. Every row names an object `{table}/{attachmentid}{ext}`;
  an object already listed under the table's prefix is kept, a missing one is streamed from
  the row's URL, the row is rewritten with the bucket URL and a sanitised file name, and the
  listed objects no row claimed are deleted at the end. The bucket is a map from object names
  to contents, the content served at a URL is an input.
 */
module AttachmentSync {
  import opened Wrappers
  import opened Strings

  // File names

  /** `s` holds no `c` at or after index `from`. */
  predicate NoneFrom(s: string, c: char, from: int) {
    forall k :: from <= k < |s| && 0 <= k ==> s[k] != c
  }

  /** The index of the last `c` in `s`, or -1 (`str.rfind`). */
  function LastIndex(s: string, c: char): (i: int)
    ensures -1 <= i < |s|
    ensures i >= 0 ==> s[i] == c
    ensures NoneFrom(s, c, i + 1)
    decreases |s|
  {
    if s == [] then -1
    else if s[|s| - 1] == c then |s| - 1
    else LastIndex(s[..|s| - 1], c)
  }

  /** The last occurrence is the one with no occurrence after it. */
  lemma LastIndexIs(s: string, c: char, i: int)
    requires 0 <= i < |s| && s[i] == c && NoneFrom(s, c, i + 1)
    ensures LastIndex(s, c) == i
  {
  }

  predicate AllDots(s: string) {
    forall k :: 0 <= k < |s| ==> s[k] == '.'
  }

  /** What `splitext` can return as an extension: empty, or a '.' followed by neither '.' nor '/'. */
  predicate IsExtension(ext: string) {
    ext == [] || (ext[0] == '.' && NoneFrom(ext, '.', 1) && NoneFrom(ext, '/', 0))
  }

  /**
    Where `os.path.splitext` starts the extension of a POSIX path: at the last '.', provided
    that dot lies in the final path component and something other than a dot comes before it
    in that component ("a/.bashrc" and "..." have no extension); -1 when there is none.
   */
  function ExtensionStart(p: string): (d: int)
    ensures d == -1 || (0 < d < |p| && p[d] == '.' && NoneFrom(p, '.', d + 1) && NoneFrom(p, '/', d))
  {
    var sep := LastIndex(p, '/');
    var dot := LastIndex(p, '.');
    if dot > sep && !AllDots(p[sep + 1 .. dot]) then
      assert sep + 1 < dot;
      dot
    else -1
  }

  /** `os.path.splitext` on a POSIX path: the text before the extension, and the extension. */
  function SplitExt(p: string): (r: (string, string))
    ensures r.0 + r.1 == p
    ensures IsExtension(r.1) && (r.1 != [] ==> r.0 != [])
  {
    var d := ExtensionStart(p);
    if d >= 0 then
      ExtensionShape(p, d);
      (p[..d], p[d..])
    else (p, [])
  }

  lemma ExtensionShape(p: string, dot: int)
    requires 0 <= dot < |p| && p[dot] == '.' && NoneFrom(p, '.', dot + 1) && NoneFrom(p, '/', dot)
    ensures IsExtension(p[dot..])
  {
    var ext := p[dot..];
    forall k | 0 <= k < |ext|
      ensures ext[k] == p[dot + k]
    {
    }
  }

  predicate NoDotOrSlash(s: string) {
    forall k :: 0 <= k < |s| ==> s[k] != '.' && s[k] != '/'
  }

  /** A stem free of dots and slashes followed by an extension splits back into the two. */
  lemma SplitExtJoin(stem: string, ext: string)
    requires NoDotOrSlash(stem)
    requires IsExtension(ext) && (ext != [] ==> stem != [])
    ensures SplitExt(stem + ext) == (stem, ext)
  {
    var p := stem + ext;
    assert NoneFrom(p, '/', 0);
    LastIndexIs'(p, '/');
    var sep := LastIndex(p, '/');
    if ext == [] {
      assert p == stem;
      assert NoneFrom(p, '.', 0);
      LastIndexIs'(p, '.');
    } else {
      assert NoneFrom(p, '.', |stem| + 1);
      LastIndexIs(p, '.', |stem|);
      assert p[sep + 1 .. |stem|] == stem;
      assert stem[0] != '.';
      assert p[..|stem|] == stem && p[|stem|..] == ext;
    }
  }

  /** A text without `c` has no last `c`. */
  lemma LastIndexIs'(s: string, c: char)
    requires NoneFrom(s, c, 0)
    ensures LastIndex(s, c) == -1
  {
  }

  /** `re.sub(r'[^a-zA-Z0-9]', '_', stem)`: every character but an ASCII letter or digit becomes '_'. */
  function SanitizeStem(s: string): (r: string)
    ensures |r| == |s|
    ensures forall k :: 0 <= k < |r| ==> IsAsciiAlnum(r[k]) || r[k] == '_'
    ensures forall k :: 0 <= k < |s| ==> (r[k] == s[k] <==> IsAsciiAlnum(s[k]) || s[k] == '_')
    ensures forall k :: 0 <= k < |s| && r[k] != s[k] ==> r[k] == '_'
  {
    seq(|s|, k requires 0 <= k < |s| => if IsAsciiAlnum(s[k]) then s[k] else '_')
  }

  lemma SanitizeStemIdempotent(s: string)
    ensures SanitizeStem(SanitizeStem(s)) == SanitizeStem(s)
  {
  }

  // Rows and objects

  /** A row of `{schema}.{table}_attach` as the reconciliation reads it; `objectId` is the primary key. */
  datatype AttachmentRow = AttachmentRow(objectId: int, attachmentId: int, name: string, url: string)

  /** The object a row is stored under: `{table}/{attachmentid}{ext}`. */
  function Target(table: string, row: AttachmentRow): string {
    table + "/" + IntToString(row.attachmentId) + SplitExt(row.name).1
  }

  /** The name a row is rewritten with: the sanitised stem followed by the original extension. */
  function StoredName(row: AttachmentRow): string {
    var (stem, ext) := SplitExt(row.name);
    SanitizeStem(stem) + ext
  }

  function BucketUrl(bucketName: string, target: string): string {
    "https://storage.cloud.google.com/" + bucketName + "/" + target
  }

  function Rewrite(bucketName: string, table: string, row: AttachmentRow): AttachmentRow {
    row.(name := StoredName(row), url := BucketUrl(bucketName, Target(table, row)))
  }

  function Rewritten(bucketName: string, table: string, rows: seq<AttachmentRow>): (r: seq<AttachmentRow>)
    ensures |r| == |rows|
  {
    seq(|rows|, k requires 0 <= k < |rows| => Rewrite(bucketName, table, rows[k]))
  }

  function Targets(table: string, rows: seq<AttachmentRow>): (r: seq<string>)
    ensures |r| == |rows|
  {
    seq(|rows|, k requires 0 <= k < |rows| => Target(table, rows[k]))
  }

  /** The stored name splits into the sanitised stem and the original extension. */
  lemma StoredNameSplit(row: AttachmentRow)
    ensures var (stem, ext) := SplitExt(row.name);
      SplitExt(StoredName(row)) == (SanitizeStem(stem), ext)
  {
    var (stem, ext) := SplitExt(row.name);
    var clean := SanitizeStem(stem);
    assert NoDotOrSlash(clean);
    SplitExtJoin(clean, ext);
  }

  /** A rewritten row keeps its target. */
  lemma RewriteKeepsTarget(bucketName: string, table: string, row: AttachmentRow)
    ensures Target(table, Rewrite(bucketName, table, row)) == Target(table, row)
  {
    StoredNameSplit(row);
    var r := Rewrite(bucketName, table, row);
    assert SplitExt(r.name).1 == SplitExt(row.name).1;
  }

  /** Rewriting a rewritten row changes nothing. */
  lemma RewriteIdempotent(bucketName: string, table: string, row: AttachmentRow)
    ensures Rewrite(bucketName, table, Rewrite(bucketName, table, row)) == Rewrite(bucketName, table, row)
  {
    var r := Rewrite(bucketName, table, row);
    var (stem, ext) := SplitExt(row.name);
    StoredNameSplit(row);
    SanitizeStemIdempotent(stem);
    assert StoredName(r) == StoredName(row);
    RewriteKeepsTarget(bucketName, table, row);
  }

  /** Every target lies under the table's name followed by '/'. */
  lemma TargetUnderTable(table: string, row: AttachmentRow)
    ensures StartsWith(Target(table, row), table + "/")
    ensures StartsWith(Target(table, row), table)
  {
    var id := IntToString(row.attachmentId);
    var ext := SplitExt(row.name).1;
    PrefixOfJoin(table, "/", id, ext);
  }

  /** The leading parts of a concatenation are prefixes of it. */
  lemma PrefixOfJoin(a: string, b: string, c: string, d: string)
    ensures a + b <= a + b + c + d
    ensures a <= a + b + c + d
  {
    assert a + b + c + d == (a + b) + (c + d);
    assert (a + b + c + d)[..|a|] == a;
  }

  // The reconciliation as a function of the rows

  /** What the reconciliation needs of a row: the object it is stored under and the URL it is served from. */
  datatype Job = Job(target: string, url: string)

  function JobOf(table: string, row: AttachmentRow): Job {
    Job(Target(table, row), row.url)
  }

  function Jobs(table: string, rows: seq<AttachmentRow>): (r: seq<Job>)
    ensures |r| == |rows|
  {
    seq(|rows|, k requires 0 <= k < |rows| => JobOf(table, rows[k]))
  }

  function JobTargets(jobs: seq<Job>): (r: seq<string>)
    ensures |r| == |jobs|
  {
    seq(|jobs|, k requires 0 <= k < |jobs| => jobs[k].target)
  }

  /** The targets of the rows' jobs are the rows' targets. */
  lemma JobTargetsOfRows(table: string, rows: seq<AttachmentRow>)
    ensures JobTargets(Jobs(table, rows)) == Targets(table, rows)
  {
  }

  lemma JobTargetsInit(jobs: seq<Job>)
    requires jobs != []
    ensures var n := |jobs| - 1;
      && JobTargets(jobs[..n]) == JobTargets(jobs)[..n]
      && JobTargets(jobs) == JobTargets(jobs[..n]) + [jobs[n].target]
  {
    var n := |jobs| - 1;
    assert JobTargets(jobs[..n]) == JobTargets(jobs)[..n];
  }

  /**
    The bucket's objects, the listed objects not yet claimed by a row (`blobs`), and the
    targets streamed so far, in order.
   */
  datatype SyncState<B> = SyncState(objects: map<string, B>, pending: map<string, B>, streamed: seq<string>)

  /** `bucket.list_blobs(prefix=table)`: every object whose name starts with the raw prefix. */
  function Listing<B>(objects: map<string, B>, prefix: string): (r: map<string, B>)
    ensures forall k :: k in r <==> k in objects && StartsWith(k, prefix)
    ensures forall k :: k in r ==> r[k] == objects[k]
  {
    map k | k in objects && StartsWith(k, prefix) :: objects[k]
  }

  function Start<B>(objects: map<string, B>, table: string): SyncState<B> {
    SyncState(objects, Listing(objects, table), [])
  }

  /**
    One row: a target still among the listed objects is taken off the list; any other target
    is streamed from the row's URL, and a failed request stops the reconciliation (None).
   */
  function SyncRow<B>(s: SyncState<B>, job: Job, download: string -> Option<B>): (r: Option<SyncState<B>>)
    ensures r.None? <==> job.target !in s.pending && download(job.url).None?
    ensures r.Some? ==> r.value.pending == s.pending - {job.target}
    ensures r.Some? && job.target in s.pending ==> r.value.objects == s.objects && r.value.streamed == s.streamed
    ensures r.Some? && job.target !in s.pending ==>
      r.value.objects == s.objects[job.target := download(job.url).value] && r.value.streamed == s.streamed + [job.target]
  {
    var t := job.target;
    if t in s.pending then Some(s.(pending := s.pending - {t}))
    else
      match download(job.url)
      case None => None
      case Some(content) => Some(s.(objects := s.objects[t := content], streamed := s.streamed + [t]))
  }

  /** The rows in order, each as SyncRow says, stopping at the first failed request. */
  function SyncRows<B>(s: SyncState<B>, jobs: seq<Job>, download: string -> Option<B>): (r: Option<SyncState<B>>)
    ensures r.Some? ==> |s.streamed| <= |r.value.streamed| <= |s.streamed| + |jobs| && r.value.streamed[..|s.streamed|] == s.streamed
    ensures r.Some? ==> forall k :: k in r.value.pending ==> k in s.pending
    decreases |jobs|
  {
    if jobs == [] then Some(s)
    else
      match SyncRows(s, jobs[..|jobs| - 1], download)
      case None => None
      case Some(before) => SyncRow(before, jobs[|jobs| - 1], download)
  }

  /**
    What a run over the rows leaves when no request fails: the listed objects not claimed
    by any row are still pending, with their contents; an object is in the bucket when it
    was there before or was streamed; an object not streamed keeps its content; only targets
    are streamed; and every target was either listed or streamed.
   */
  lemma SyncRowsFacts<B>(s0: SyncState<B>, jobs: seq<Job>, download: string -> Option<B>)
    requires s0.streamed == []
    requires SyncRows(s0, jobs, download).Some?
    ensures var s := SyncRows(s0, jobs, download).value;
      && (forall k :: k in s.pending <==> k in s0.pending && k !in JobTargets(jobs))
      && (forall k :: k in s.pending ==> s.pending[k] == s0.pending[k])
      && (forall k :: k in s.objects <==> k in s0.objects || k in s.streamed)
      && (forall k :: k in s0.objects && k !in s.streamed ==> s.objects[k] == s0.objects[k])
      && (forall t :: t in s.streamed ==> t in JobTargets(jobs))
      && (forall t :: t in JobTargets(jobs) ==> t in s0.pending || t in s.streamed)
  {
    SyncRowsPending(s0, jobs, download);
    SyncRowsObjects(s0, jobs, download);
    SyncRowsStreamed(s0, jobs, download);
  }

  lemma {:induction false} SyncRowsPending<B>(s0: SyncState<B>, jobs: seq<Job>, download: string -> Option<B>)
    requires SyncRows(s0, jobs, download).Some?
    ensures var s := SyncRows(s0, jobs, download).value;
      && (forall k :: k in s.pending <==> k in s0.pending && k !in JobTargets(jobs))
      && (forall k :: k in s.pending ==> s.pending[k] == s0.pending[k])
    decreases |jobs|
  {
    if jobs != [] {
      var init := jobs[..|jobs| - 1];
      SyncRowsPending(s0, init, download);
      var before := SyncRows(s0, init, download).value;
      var t := jobs[|jobs| - 1].target;
      JobTargetsInit(jobs);
      var s := SyncRows(s0, jobs, download).value;
      if t in before.pending {
        assert s.pending == before.pending - {t};
      } else {
        assert s.pending == before.pending;
      }
    }
  }

  lemma {:induction false} SyncRowsObjects<B>(s0: SyncState<B>, jobs: seq<Job>, download: string -> Option<B>)
    requires s0.streamed == []
    requires SyncRows(s0, jobs, download).Some?
    ensures var s := SyncRows(s0, jobs, download).value;
      && (forall k :: k in s.objects <==> k in s0.objects || k in s.streamed)
      && (forall k :: k in s0.objects && k !in s.streamed ==> s.objects[k] == s0.objects[k])
    decreases |jobs|
  {
    if jobs != [] {
      SyncRowsObjects(s0, jobs[..|jobs| - 1], download);
    }
  }

  lemma {:induction false} SyncRowsStreamed<B>(s0: SyncState<B>, jobs: seq<Job>, download: string -> Option<B>)
    requires s0.streamed == []
    requires SyncRows(s0, jobs, download).Some?
    ensures var s := SyncRows(s0, jobs, download).value;
      && (forall t :: t in s.streamed ==> t in JobTargets(jobs))
      && (forall t :: t in JobTargets(jobs) ==> t in s0.pending || t in s.streamed)
    decreases |jobs|
  {
    if jobs != [] {
      var init := jobs[..|jobs| - 1];
      SyncRowsStreamed(s0, init, download);
      SyncRowsPending(s0, init, download);
      JobTargetsInit(jobs);
    }
  }

  /** Distinct row targets: the attachment ids of one layer are unique. */
  predicate Distinct(ts: seq<string>) {
    forall i, j :: 0 <= i < j < |ts| ==> ts[i] != ts[j]
  }

  /** The targets, in order, that are not among the listed names. */
  function Unlisted(listed: set<string>, ts: seq<string>): (r: seq<string>)
    ensures forall t :: t in r <==> t in ts && t !in listed
    decreases |ts|
  {
    if ts == [] then []
    else
      var init := ts[..|ts| - 1];
      var last := ts[|ts| - 1];
      assert ts == init + [last];
      Unlisted(listed, init) + (if last in listed then [] else [last])
  }

  /**
    With distinct targets, a row's object is streamed exactly when its target is not among
    the listed objects, and the streams happen in row order.
   */
  lemma {:induction false} SyncStreamsUnlisted<B>(s0: SyncState<B>, jobs: seq<Job>, download: string -> Option<B>)
    requires s0.streamed == []
    requires Distinct(JobTargets(jobs))
    requires SyncRows(s0, jobs, download).Some?
    ensures SyncRows(s0, jobs, download).value.streamed == Unlisted(s0.pending.Keys, JobTargets(jobs))
    decreases |jobs|
  {
    if jobs != [] {
      var n := |jobs| - 1;
      var init := jobs[..n];
      var ts := JobTargets(jobs);
      JobTargetsInit(jobs);
      assert Distinct(JobTargets(init));
      SyncStreamsUnlisted(s0, init, download);
      SyncRowsPending(s0, init, download);
      assert ts[n] !in JobTargets(init);
      assert ts[..n] == JobTargets(init);
    }
  }

  lemma UnlistOne<B>(m: map<string, B>, xs: seq<string>, ys: seq<string>, last: string)
    requires forall k :: k in ys <==> k in xs || k == last
    ensures (map k | k in m && k !in xs :: m[k]) - {last} == map k | k in m && k !in ys :: m[k]
  {
    var a := (map k | k in m && k !in xs :: m[k]) - {last};
    var b := map k | k in m && k !in ys :: m[k];
    assert a.Keys == b.Keys;
    assert forall k :: k in a ==> a[k] == b[k];
  }

  /**
    A run in which every target is still listed and no two rows share one streams nothing
    and only takes the targets off the list.
   */
  lemma {:induction false} SyncAllListed<B>(s0: SyncState<B>, jobs: seq<Job>, download: string -> Option<B>)
    requires Distinct(JobTargets(jobs))
    requires forall t :: t in JobTargets(jobs) ==> t in s0.pending
    ensures SyncRows(s0, jobs, download)
      == Some(s0.(pending := map k | k in s0.pending && k !in JobTargets(jobs) :: s0.pending[k]))
    decreases |jobs|
  {
    if jobs != [] {
      var n := |jobs| - 1;
      var init := jobs[..n];
      var ts := JobTargets(jobs);
      var last := ts[n];
      JobTargetsInit(jobs);
      assert Distinct(JobTargets(init));
      SyncAllListed(s0, init, download);
      var before := map k | k in s0.pending && k !in JobTargets(init) :: s0.pending[k];
      assert last !in JobTargets(init);
      assert last in before;
      assert SyncRows(s0, jobs, download) == SyncRow(s0.(pending := before), jobs[n], download);
      assert forall k :: k in ts <==> k in JobTargets(init) || k == last;
      UnlistOne(s0.pending, JobTargets(init), ts, last);
    } else {
      assert (map k | k in s0.pending && k !in JobTargets(jobs) :: s0.pending[k]) == s0.pending;
    }
  }

  /** The bucket after a completed run: the unclaimed listed objects are deleted. */
  function Finish<B>(s: SyncState<B>): map<string, B> {
    s.objects - s.pending.Keys
  }

  /**
    After a completed run, exactly the objects listed under the raw table prefix that no row
    claims are deleted, and every target is in the bucket.
   */
  lemma SyncDeletesUnclaimed<B>(objects: map<string, B>, table: string, rows: seq<AttachmentRow>, download: string -> Option<B>)
    requires SyncRows(Start(objects, table), Jobs(table, rows), download).Some?
    ensures var s := SyncRows(Start(objects, table), Jobs(table, rows), download).value;
      && s.pending.Keys == set k | k in objects && StartsWith(k, table) && k !in Targets(table, rows)
      && (forall t :: t in Targets(table, rows) ==> t in Finish(s))
  {
    JobTargetsOfRows(table, rows);
    SyncRowsFacts(Start(objects, table), Jobs(table, rows), download);
  }

  /** Every target of the rows lies under the raw table prefix. */
  lemma TargetsUnderTable(table: string, rows: seq<AttachmentRow>)
    ensures forall t :: t in Targets(table, rows) ==> StartsWith(t, table)
  {
    var ts := Targets(table, rows);
    forall t | t in ts
      ensures StartsWith(t, table)
    {
      var i :| 0 <= i < |rows| && ts[i] == t;
      TargetUnderTable(table, rows[i]);
    }
  }

  /** A completed run leaves every object outside the raw table prefix as it was. */
  lemma SyncKeepsOthers<B>(objects: map<string, B>, table: string, rows: seq<AttachmentRow>, download: string -> Option<B>)
    requires SyncRows(Start(objects, table), Jobs(table, rows), download).Some?
    ensures var s := SyncRows(Start(objects, table), Jobs(table, rows), download).value;
      forall k :: k in objects && !StartsWith(k, table) ==> k in Finish(s) && Finish(s)[k] == objects[k]
  {
    JobTargetsOfRows(table, rows);
    SyncRowsFacts(Start(objects, table), Jobs(table, rows), download);
    TargetsUnderTable(table, rows);
  }

  /**
    The listing uses the raw table name with no '/', so reconciling table "road" with no
    rows deletes the object "roads/1.png" of another table.
   */
  lemma RawPrefixDeletesSibling<B>(content: B, download: string -> Option<B>)
    ensures var s := SyncRows(Start(map["roads/1.png" := content], "road"), Jobs("road", []), download);
      s.Some? && "roads/1.png" in s.value.pending && Finish(s.value) == map[]
  {
    var objects := map["roads/1.png" := content];
    assert StartsWith("roads/1.png", "road");
    assert Listing(objects, "road").Keys == {"roads/1.png"};
  }

  /** Rewriting keeps every row's target, and the rewritten rows rewrite to themselves. */
  lemma RewrittenStable(bucketName: string, table: string, rows: seq<AttachmentRow>)
    ensures Targets(table, Rewritten(bucketName, table, rows)) == Targets(table, rows)
    ensures Rewritten(bucketName, table, Rewritten(bucketName, table, rows)) == Rewritten(bucketName, table, rows)
  {
    var rewritten := Rewritten(bucketName, table, rows);
    forall k | 0 <= k < |rows|
      ensures Targets(table, rewritten)[k] == Targets(table, rows)[k]
      ensures Rewrite(bucketName, table, rewritten[k]) == rewritten[k]
    {
      RewriteKeepsTarget(bucketName, table, rows[k]);
      RewriteIdempotent(bucketName, table, rows[k]);
    }
  }

  /** After a completed run, the objects listed under the table prefix are exactly the targets. */
  lemma ListedAfterSync<B>(objects: map<string, B>, table: string, rows: seq<AttachmentRow>, download: string -> Option<B>)
    requires SyncRows(Start(objects, table), Jobs(table, rows), download).Some?
    ensures var after := Finish(SyncRows(Start(objects, table), Jobs(table, rows), download).value);
      forall k :: k in Listing(after, table) <==> k in Targets(table, rows)
  {
    JobTargetsOfRows(table, rows);
    SyncRowsFacts(Start(objects, table), Jobs(table, rows), download);
    TargetsUnderTable(table, rows);
  }

  /**
    A second reconciliation after a completed one, over the rewritten rows and the bucket it
    left, streams nothing, deletes nothing and rewrites every row to itself.
   */
  lemma SyncIdempotent<B>(objects: map<string, B>, table: string, bucketName: string, rows: seq<AttachmentRow>,
                          download: string -> Option<B>, again: string -> Option<B>)
    requires Distinct(Targets(table, rows))
    requires SyncRows(Start(objects, table), Jobs(table, rows), download).Some?
    ensures var after := Finish(SyncRows(Start(objects, table), Jobs(table, rows), download).value);
      var rewritten := Rewritten(bucketName, table, rows);
      var second := SyncRows(Start(after, table), Jobs(table, rewritten), again);
      && second.Some? && second.value.streamed == [] && Finish(second.value) == after
      && Rewritten(bucketName, table, rewritten) == rewritten
  {
    var after := Finish(SyncRows(Start(objects, table), Jobs(table, rows), download).value);
    var rewritten := Rewritten(bucketName, table, rows);
    var ts := Targets(table, rows);
    RewrittenStable(bucketName, table, rows);
    JobTargetsOfRows(table, rewritten);
    ListedAfterSync(objects, table, rows, download);
    var listed := Listing(after, table);
    SyncAllListed(Start(after, table), Jobs(table, rewritten), again);
    NothingUnclaimed(listed, ts);
  }

  lemma NothingUnclaimed<B>(listed: map<string, B>, ts: seq<string>)
    requires forall k :: k in listed ==> k in ts
    ensures (map k | k in listed && k !in ts :: listed[k]) == map[]
  {
  }

  // The reconciliation as the source runs it

  /** A storage bucket: object names to contents. */
  class Bucket<B> {
    var objects: map<string, B>

    constructor (objects: map<string, B>)
      ensures this.objects == objects
    {
      this.objects := objects;
    }
  }

  /** The `{schema}.{table}_attach` table. */
  class AttachmentTable {
    var rows: seq<AttachmentRow>

    constructor (rows: seq<AttachmentRow>)
      ensures this.rows == rows
    {
      this.rows := rows;
    }
  }

  lemma SyncRowsNext<B>(s0: SyncState<B>, jobs: seq<Job>, i: nat, download: string -> Option<B>)
    requires i < |jobs|
    ensures SyncRows(s0, jobs[..i + 1], download) ==
      match SyncRows(s0, jobs[..i], download)
      case None => None
      case Some(before) => SyncRow(before, jobs[i], download)
  {
    assert jobs[..i + 1][..i] == jobs[..i];
  }

  lemma RewrittenNext(bucketName: string, table: string, rows: seq<AttachmentRow>, i: nat)
    requires i < |rows|
    ensures (Rewritten(bucketName, table, rows[..i]) + rows[i..])[i := Rewrite(bucketName, table, rows[i])]
      == Rewritten(bucketName, table, rows[..i + 1]) + rows[i + 1..]
  {
    var a := (Rewritten(bucketName, table, rows[..i]) + rows[i..])[i := Rewrite(bucketName, table, rows[i])];
    var b := Rewritten(bucketName, table, rows[..i + 1]) + rows[i + 1..];
    forall k | 0 <= k < |rows|
      ensures a[k] == b[k]
    {
      if k < i {
        assert rows[..i][k] == rows[..i + 1][k];
      }
    }
  }

  /**
    One pass of the row loop: the row's object is taken off the pending listing or streamed,
    and the row is rewritten in the table; a failed stream changes nothing.
   */
  method TransferRow<B>(
    bucket: Bucket<B>, attachments: AttachmentTable, table: string, bucketName: string,
    download: string -> Option<B>, row: AttachmentRow, i: nat, pending: map<string, B>, streamed: seq<string>)
    returns (ok: bool, pending': map<string, B>, streamed': seq<string>)
    requires i < |attachments.rows|
    modifies bucket, attachments
    ensures var next := SyncRow(SyncState(old(bucket.objects), pending, streamed), JobOf(table, row), download);
      && (ok <==> next.Some?)
      && (ok ==> next.value == SyncState(bucket.objects, pending', streamed'))
      && (ok ==> attachments.rows == old(attachments.rows)[i := Rewrite(bucketName, table, row)])
      && (!ok ==> bucket.objects == old(bucket.objects) && attachments.rows == old(attachments.rows))
      && (!ok ==> pending' == pending && streamed' == streamed)
  {
    var (stem, extension) := SplitExt(row.name);
    var fileName := SanitizeStem(stem) + extension;
    var target := table + "/" + IntToString(row.attachmentId) + extension;
    pending', streamed' := pending, streamed;
    if target in pending {
      pending' := pending - {target};
    } else {
      var content := download(row.url);
      if content.None? {
        return false, pending', streamed';
      }
      bucket.objects := bucket.objects[target := content.value];
      streamed' := streamed + [target];
    }
    var url := "https://storage.cloud.google.com/" + bucketName + "/" + target;
    attachments.rows := attachments.rows[i := AttachmentRow(row.objectId, row.attachmentId, fileName, url)];
    ok := true;
  }

  /**
    `transfer_attachments`: the bucket is listed under the raw table prefix; when the
    attachment table exists, its rows are read in order, each row's object is kept or
    streamed and the row rewritten (each UPDATE is committed at once), and the listed objects
    no row claimed are deleted. A failed stream raises: the rows before it stay rewritten,
    the objects streamed before it stay in the bucket, and nothing is deleted. Returns the
    failing row, the targets streamed, in order, and the names deleted.
   */
  method TransferAttachments<B>(
    bucket: Bucket<B>, attachments: AttachmentTable, tableExists: bool,
    table: string, bucketName: string, download: string -> Option<B>)
    returns (failedRow: Option<nat>, streamed: seq<string>, deleted: set<string>)
    modifies bucket, attachments
    ensures !tableExists ==>
      && failedRow == None && streamed == [] && deleted == {}
      && bucket.objects == old(bucket.objects) && attachments.rows == old(attachments.rows)
    ensures tableExists && failedRow.None? ==>
      var result := SyncRows(Start(old(bucket.objects), table), Jobs(table, old(attachments.rows)), download);
      && result.Some?
      && bucket.objects == Finish(result.value)
      && streamed == result.value.streamed
      && deleted == result.value.pending.Keys
      && attachments.rows == Rewritten(bucketName, table, old(attachments.rows))
    ensures tableExists && failedRow.Some? ==>
      var i := failedRow.value;
      var rows := old(attachments.rows);
      && i < |rows|
      && var before := SyncRows(Start(old(bucket.objects), table), Jobs(table, rows)[..i], download);
      && before.Some?
      && SyncRow(before.value, JobOf(table, rows[i]), download).None?
      && bucket.objects == before.value.objects
      && streamed == before.value.streamed
      && deleted == {}
      && attachments.rows == Rewritten(bucketName, table, rows[..i]) + rows[i..]
  {
    failedRow, streamed, deleted := None, [], {};
    var s0 := Start(bucket.objects, table);
    var pending := Listing(bucket.objects, table);
    if !tableExists {
      return;
    }
    var rows := attachments.rows;
    ghost var jobs := Jobs(table, rows);
    var i := 0;
    while i < |rows|
      invariant 0 <= i <= |rows|
      invariant attachments.rows == Rewritten(bucketName, table, rows[..i]) + rows[i..]
      invariant SyncRows(s0, jobs[..i], download) == Some(SyncState(bucket.objects, pending, streamed))
    {
      SyncRowsNext(s0, jobs, i, download);
      assert jobs[i] == JobOf(table, rows[i]);
      RewrittenNext(bucketName, table, rows, i);
      var ok;
      ok, pending, streamed := TransferRow(bucket, attachments, table, bucketName, download, rows[i], i, pending, streamed);
      if !ok {
        failedRow := Some(i);
        return;
      }
      i := i + 1;
    }
    assert rows[..i] == rows && jobs[..i] == jobs;
    deleted := pending.Keys;
    bucket.objects := bucket.objects - pending.Keys;
  }
}

=== FILE: backup.dfy ===
/**
  The backup job: every feature service is exported as a file geodatabase and uploaded to a
  bucket as `{name}_{DD_Mon_YYYY}.gdb.zip`, unless it has not changed since its latest
  archive; old archives are deleted after a retention period. The bucket is the list of its
  object names, in listing order; the export, the upload attempts, the clock and the
  cutoff are inputs.
 */
module Backup {
  import opened Wrappers
  import opened Strings
  import opened BackupDates
  import AttachmentSync

  const MaxUploadRetries := 3

  /** `sanitize_name`: every character outside [A-Za-z0-9_] becomes '_'. */
  function SanitizeName(name: string): (r: string)
    ensures |r| == |name|
    ensures forall k :: 0 <= k < |r| ==> IsAsciiAlnum(r[k]) || r[k] == '_'
    ensures forall k :: 0 <= k < |name| ==> (r[k] == name[k] <==> IsAsciiAlnum(name[k]) || name[k] == '_')
    ensures forall k :: 0 <= k < |name| && r[k] != name[k] ==> r[k] == '_'
  {
    seq(|name|, k requires 0 <= k < |name| => if IsAsciiAlnum(name[k]) || name[k] == '_' then name[k] else '_')
  }

  lemma SanitizeNameIdempotent(name: string)
    ensures SanitizeName(SanitizeName(name)) == SanitizeName(name)
  {
  }

  /**
    The attachment transfer's `[^a-zA-Z0-9]` and this `[^A-Za-z0-9_]` differ only on '_',
    which both leave as '_'.
   */
  lemma SanitizersAgree(name: string)
    ensures SanitizeName(name) == AttachmentSync.SanitizeStem(name)
  {
  }

  // Uploading with retries

  predicate UploadSucceeds(succeeds: nat -> bool, retries: int) {
    exists a: nat :: 1 <= a <= retries && succeeds(a)
  }

  /**
    `upload_with_retry`: attempts 1, 2, ..., `retries` in turn (`succeeds(a)` is the outcome
    of attempt a), stopping at the first success, with a pause after every failed attempt but
    the last. With `retries` below 1 no attempt is made and the result is falsy.
   */
  method UploadWithRetry(succeeds: nat -> bool, retries: int) returns (uploaded: bool, attempts: nat, sleeps: nat)
    ensures uploaded <==> UploadSucceeds(succeeds, retries)
    ensures uploaded ==> 1 <= attempts <= retries && succeeds(attempts) && forall a: nat :: 1 <= a < attempts ==> !succeeds(a)
    ensures !uploaded ==> attempts == (if retries < 0 then 0 else retries)
    ensures sleeps == (if attempts == 0 then 0 else attempts - 1)
  {
    attempts, sleeps := 0, 0;
    var attempt: nat := 1;
    while attempt <= retries
      invariant attempt == 1 || attempt <= retries
      invariant attempts == attempt - 1 && sleeps == attempts
      invariant forall a: nat :: 1 <= a < attempt ==> !succeeds(a)
      decreases retries - attempt
    {
      attempts := attempt;
      if succeeds(attempt) {
        return true, attempts, sleeps;
      }
      if attempt < retries {
        sleeps := sleeps + 1;
      } else {
        return false, attempts, sleeps;
      }
      attempt := attempt + 1;
    }
    uploaded := false;
  }

  // Archive names

  /** The base name of an archive: ".gdb.zip" is tried before ".zip"; any other name is not an archive. */
  function ArchiveBase(name: string): Option<string> {
    if EndsWith(name, ".gdb.zip") then Some(name[..|name| - 8])
    else if EndsWith(name, ".zip") then Some(name[..|name| - 4])
    else None
  }

  lemma ArchiveBaseOfGdb(base: string)
    ensures ArchiveBase(base + ".gdb.zip") == Some(base)
    ensures ArchiveBase(base + ".zip") == Some(base) || EndsWith(base + ".zip", ".gdb.zip")
  {
    var n := base + ".gdb.zip";
    assert n[|n| - 8..] == ".gdb.zip";
    assert n[..|n| - 8] == base;
    var z := base + ".zip";
    assert z[|z| - 4..] == ".zip";
    assert z[..|z| - 4] == base;
  }

  /** Name `i` is the last in the listing up to `n` whose archive base is `b`. */
  predicate LastWithBase(names: seq<string>, n: int, b: string, i: int)
    requires 0 <= n <= |names|
  {
    0 <= i < n && ArchiveBase(names[i]) == Some(b)
    && forall j :: i < j < n ==> ArchiveBase(names[j]) != Some(b)
  }

  /**
    `list_existing_files`: the archives of the listing keyed by base name; a base name is
    present exactly when some archive has it, and maps to the last such archive listed.
   */
  method ListExistingFiles(names: seq<string>) returns (existing: map<string, string>)
    ensures forall b :: b in existing <==> exists i :: 0 <= i < |names| && ArchiveBase(names[i]) == Some(b)
    ensures forall b :: b in existing ==> exists i :: LastWithBase(names, |names|, b, i) && existing[b] == names[i]
  {
    existing := map[];
    for n := 0 to |names|
      invariant forall b :: b in existing <==> exists i :: 0 <= i < n && ArchiveBase(names[i]) == Some(b)
      invariant forall b :: b in existing ==> exists i :: LastWithBase(names, n, b, i) && existing[b] == names[i]
    {
      var filename := names[n];
      var base := ArchiveBase(filename);
      if base.Some? {
        existing := existing[base.value := filename];
        assert LastWithBase(names, n + 1, base.value, n);
      }
      forall b | b in existing
        ensures exists i :: LastWithBase(names, n + 1, b, i) && existing[b] == names[i]
      {
        if base != Some(b) {
          var i :| LastWithBase(names, n, b, i) && existing[b] == names[i];
          assert LastWithBase(names, n + 1, b, i);
        } else {
          assert LastWithBase(names, n + 1, b, n);
        }
      }
    }
  }

  // The latest backup of a service

  /** `names[-3:]` and `names[:-3]` */
  function LastFields(parts: seq<string>, n: nat): seq<string> {
    if |parts| <= n then parts else parts[|parts| - n..]
  }

  function LeadingFields(parts: seq<string>, n: nat): seq<string> {
    if |parts| <= n then [] else parts[..|parts| - n]
  }

  /** The date `get_last_modified_date` reads off a name: its last three '_' fields, with ".gdb.zip" removed. */
  function BackupDate(name: string): Option<Date> {
    ParseDate(DateText(name))
  }

  /** What `get_last_modified_date` reads off one name: a date when the name holds the service name anywhere and its date parses. */
  function Reading(name: string, base: string): Option<Date> {
    if Contains(name, base) then BackupDate(name) else None
  }

  function Readings(names: seq<string>, base: string): (r: seq<Option<Date>>)
    ensures |r| == |names|
  {
    seq(|names|, i requires 0 <= i < |names| => Reading(names[i], base))
  }

  /** The latest of the dates read, None when none was read. */
  function Latest(dates: seq<Option<Date>>): (r: Option<Date>)
    ensures r.None? <==> forall i :: 0 <= i < |dates| ==> dates[i].None?
    ensures r.Some? ==> r in dates
    ensures r.Some? ==> forall i :: 0 <= i < |dates| && dates[i].Some? ==> !DateBefore(r.value, dates[i].value)
    decreases |dates|
  {
    if dates == [] then None
    else
      var init := dates[..|dates| - 1];
      var last := dates[|dates| - 1];
      var prev := Latest(init);
      assert forall i :: 0 <= i < |init| ==> init[i] == dates[i];
      if last.None? then prev
      else if prev.None? || DateBefore(prev.value, last.value) then last
      else prev
  }

  /** The latest archive date of a service in a listing. */
  function LatestBackup(names: seq<string>, base: string): Option<Date> {
    Latest(Readings(names, base))
  }

  /** Adding one more date to those read: it replaces the latest only when strictly later. */
  lemma LatestNext(dates: seq<Option<Date>>, i: nat)
    requires i < |dates|
    ensures var prev := Latest(dates[..i]);
      Latest(dates[..i + 1])
        == if dates[i].Some? && (prev.None? || DateBefore(prev.value, dates[i].value)) then dates[i] else prev
  {
    assert dates[..i + 1][..i] == dates[..i];
  }

  /** `get_last_modified_date`: one pass over the listing keeping the latest date read. */
  method GetLastModifiedDate(names: seq<string>, base: string) returns (latest: Option<Date>)
    ensures latest == LatestBackup(names, base)
  {
    ghost var dates := Readings(names, base);
    latest := None;
    for i := 0 to |names|
      invariant latest == Latest(dates[..i])
    {
      var filename := names[i];
      LatestNext(dates, i);
      if Contains(filename, base) {
        var fileDate := ParseDate(DateText(filename));
        assert dates[i] == fileDate;
        if fileDate.Some? && (latest.None? || DateBefore(latest.value, fileDate.value)) {
          latest := fileDate;
        }
      } else {
        assert dates[i] == None;
      }
    }
    assert dates[..|names|] == dates;
  }

  // Exporting and uploading

  datatype Item = Item(title: string, modified: Moment)

  /**
    What became of one item: skipped as unchanged, skipped on a failed export, skipped on a
    failed upload, uploaded but the clean-up afterwards raised (the title is then in both
    lists), or uploaded and cleaned up.
   */
  datatype ItemOutcome = NotModified | ExportFailed | UploadFailed | CleanupFailed | Uploaded

  /**
    What the outside world does with one item: whether the export or its download raises,
    the outcome of each upload attempt, and whether removing the local file or the server
    export raises.
   */
  datatype ItemReplies = ItemReplies(exportFails: bool, attempts: nat -> bool, cleanupFails: bool)

  /** The archive reached the bucket, and the title was put in the added list. */
  predicate Stored(outcome: ItemOutcome) {
    outcome == Uploaded || outcome == CleanupFailed
  }

  /** The title is in the added list (`added`) or in the skipped list (`!added`). */
  predicate Listed(outcome: ItemOutcome, added: bool) {
    if added then Stored(outcome) else outcome != Uploaded
  }

  function ArchiveName(title: string, today: string): string {
    SanitizeName(title) + "_" + today + ".gdb.zip"
  }

  /**
    An item is skipped without export when its service has a dated archive and it was
    modified no later than that archive's midnight; otherwise it is exported and uploaded,
    and after an upload the local file and the server export are removed.
   */
  function Outcome(names: seq<string>, item: Item, replies: ItemReplies): (o: ItemOutcome)
    ensures o == NotModified <==>
      var last := LatestBackup(names, SanitizeName(item.title));
      last.Some? && !Before(Midnight(last.value), item.modified)
    ensures Stored(o) <==> o != NotModified && !replies.exportFails && UploadSucceeds(replies.attempts, MaxUploadRetries)
    ensures o == Uploaded <==> Stored(o) && !replies.cleanupFails
  {
    var last := LatestBackup(names, SanitizeName(item.title));
    if last.Some? && !Before(Midnight(last.value), item.modified) then NotModified
    else if replies.exportFails then ExportFailed
    else if !UploadSucceeds(replies.attempts, MaxUploadRetries) then UploadFailed
    else if replies.cleanupFails then CleanupFailed
    else Uploaded
  }

  /** Uploading to a name: a new object joins the listing, an existing one is overwritten in place. */
  function AddName(names: seq<string>, name: string): seq<string> {
    if name in names then names else names + [name]
  }

  /** The number of items `download_as_fgdb` gets to: at most `max_items`. */
  function Processed(items: seq<Item>, maxItems: int): nat {
    if maxItems <= 0 then 0 else if |items| <= maxItems then |items| else maxItems
  }

  /** The listing and the outcomes after the first `n` items, each seeing the uploads of those before it. */
  function Backups(names: seq<string>, items: seq<Item>, n: nat, today: string,
                   replies: nat -> ItemReplies): (r: (seq<string>, seq<ItemOutcome>))
    requires n <= |items|
    ensures |r.1| == n
    ensures |names| <= |r.0| <= |names| + n && r.0[..|names|] == names
    decreases n
  {
    if n == 0 then (names, [])
    else
      var (before, outcomes) := Backups(names, items, n - 1, today, replies);
      var item := items[n - 1];
      var outcome := Outcome(before, item, replies(n - 1));
      (if Stored(outcome) then AddName(before, ArchiveName(item.title, today)) else before, outcomes + [outcome])
  }

  /** The titles in the added list (`added`) or in the skipped list (`!added`), in order. */
  function TitlesWith(items: seq<Item>, outcomes: seq<ItemOutcome>, added: bool): seq<string>
    requires |outcomes| <= |items|
    decreases |outcomes|
  {
    if outcomes == [] then []
    else
      var n := |outcomes| - 1;
      TitlesWith(items, outcomes[..n], added) + (if Listed(outcomes[n], added) then [items[n].title] else [])
  }

  /** The number of items whose clean-up raised after the upload: each of them is listed twice. */
  function CleanupFailures(outcomes: seq<ItemOutcome>): nat
    decreases |outcomes|
  {
    if outcomes == [] then 0
    else CleanupFailures(outcomes[..|outcomes| - 1]) + (if outcomes[|outcomes| - 1] == CleanupFailed then 1 else 0)
  }

  lemma {:induction false} TitlesCount(items: seq<Item>, outcomes: seq<ItemOutcome>)
    requires |outcomes| <= |items|
    ensures |TitlesWith(items, outcomes, true)| + |TitlesWith(items, outcomes, false)| == |outcomes| + CleanupFailures(outcomes)
    decreases |outcomes|
  {
    if outcomes != [] {
      TitlesCount(items, outcomes[..|outcomes| - 1]);
    }
  }

  lemma {:induction false} TitleListed(items: seq<Item>, outcomes: seq<ItemOutcome>, added: bool, k: nat)
    requires |outcomes| <= |items| && k < |outcomes| && Listed(outcomes[k], added)
    ensures items[k].title in TitlesWith(items, outcomes, added)
    decreases |outcomes|
  {
    var n := |outcomes| - 1;
    if k < n {
      var init := outcomes[..n];
      assert init[k] == outcomes[k];
      TitleListed(items, init, added, k);
    }
  }

  /**
    Every item processed lands in one of the two lists: the added list when its archive was
    uploaded, the skipped list otherwise, and both when the clean-up after its upload raised.
   */
  lemma TitlesPartition(items: seq<Item>, outcomes: seq<ItemOutcome>)
    requires |outcomes| <= |items|
    ensures |TitlesWith(items, outcomes, true)| + |TitlesWith(items, outcomes, false)| == |outcomes| + CleanupFailures(outcomes)
    ensures forall k :: 0 <= k < |outcomes| && Stored(outcomes[k]) ==> items[k].title in TitlesWith(items, outcomes, true)
    ensures forall k :: 0 <= k < |outcomes| && outcomes[k] != Uploaded ==> items[k].title in TitlesWith(items, outcomes, false)
  {
    TitlesCount(items, outcomes);
    forall k | 0 <= k < |outcomes| && Stored(outcomes[k])
      ensures items[k].title in TitlesWith(items, outcomes, true)
    {
      TitleListed(items, outcomes, true, k);
    }
    forall k | 0 <= k < |outcomes| && outcomes[k] != Uploaded
      ensures items[k].title in TitlesWith(items, outcomes, false)
    {
      TitleListed(items, outcomes, false, k);
    }
  }

  /** One more item: its outcome is appended, and an upload adds its archive name to the listing. */
  lemma BackupsNext(names: seq<string>, items: seq<Item>, n: nat, today: string,
                    replies: nat -> ItemReplies)
    requires n < |items|
    ensures var (before, outcomes) := Backups(names, items, n, today, replies);
      var outcome := Outcome(before, items[n], replies(n));
      Backups(names, items, n + 1, today, replies)
        == (if Stored(outcome) then AddName(before, ArchiveName(items[n].title, today)) else before, outcomes + [outcome])
  {
  }

  /** One more item, whatever its outcome: an upload adds its archive name, anything else leaves the listing. */
  lemma ListingStep(names: seq<string>, items: seq<Item>, n: nat, today: string,
                    replies: nat -> ItemReplies)
    requires n < |items|
    ensures var (before, outcomes) := Backups(names, items, n, today, replies);
      var (after, outcomes') := Backups(names, items, n + 1, today, replies);
      && outcomes' == outcomes + [outcomes'[n]]
      && after == if Stored(outcomes'[n]) then AddName(before, ArchiveName(items[n].title, today)) else before
  {
    BackupsNext(names, items, n, today, replies);
  }

  /** The listing only grows, and the archive of every stored item is present. */
  lemma BackupsKeep(names: seq<string>, items: seq<Item>, n: nat, today: string,
                    replies: nat -> ItemReplies)
    requires n <= |items|
    ensures var (after, outcomes) := Backups(names, items, n, today, replies);
      && (forall x :: x in names ==> x in after)
      && (forall k :: 0 <= k < n && Stored(outcomes[k]) ==> ArchiveName(items[k].title, today) in after)
  {
    var r := Backups(names, items, n, today, replies);
    PrefixMembers(names, r.0);
    BackupsStored(names, items, n, today, replies);
  }

  /** Every name of a prefix is a name of the whole. */
  lemma PrefixMembers(prefix: seq<string>, s: seq<string>)
    requires |prefix| <= |s| && s[..|prefix|] == prefix
    ensures forall x :: x in prefix ==> x in s
  {
    forall x | x in prefix
      ensures x in s
    {
      var i :| 0 <= i < |prefix| && prefix[i] == x;
      assert s[i] == x;
    }
  }

  /** The archive of every stored item is in the listing. */
  lemma {:induction false} BackupsStored(names: seq<string>, items: seq<Item>, n: nat, today: string,
                                         replies: nat -> ItemReplies)
    requires n <= |items|
    ensures var r := Backups(names, items, n, today, replies);
      forall k :: 0 <= k < n && Stored(r.1[k]) ==> ArchiveName(items[k].title, today) in r.0
    decreases n
  {
    if n > 0 {
      BackupsStored(names, items, n - 1, today, replies);
      var prev := Backups(names, items, n - 1, today, replies);
      var next := Backups(names, items, n, today, replies);
      KeepStep(items, n - 1, today, prev.0, prev.1, next.0, next.1);
    }
  }

  /** The step of `BackupsStored`, on the listings and outcomes before and after one more item. */
  lemma KeepStep(items: seq<Item>, n: nat, today: string,
                 before: seq<string>, outcomes: seq<ItemOutcome>, after: seq<string>, outcomes': seq<ItemOutcome>)
    requires n < |items| && |outcomes| == n && |outcomes'| == n + 1
    requires forall k :: 0 <= k < n && Stored(outcomes[k]) ==> ArchiveName(items[k].title, today) in before
    requires outcomes' == outcomes + [outcomes'[n]]
    requires after == if Stored(outcomes'[n]) then AddName(before, ArchiveName(items[n].title, today)) else before
    ensures forall k :: 0 <= k <= n && Stored(outcomes'[k]) ==> ArchiveName(items[k].title, today) in after
  {
    AddNameKeeps(before, ArchiveName(items[n].title, today));
    forall k | 0 <= k <= n && Stored(outcomes'[k])
      ensures ArchiveName(items[k].title, today) in after
    {
      if k < n {
        assert outcomes'[k] == outcomes[k];
      }
    }
  }

  /** Adding a name keeps every name listed, and lists the added one. */
  lemma AddNameKeeps(names: seq<string>, name: string)
    ensures forall x :: x in names ==> x in AddName(names, name)
    ensures name in AddName(names, name)
  {
  }

  /** Any name the job adds is the archive of an item whose archive was stored. */
  lemma {:induction false} BackupsOnlyArchives(names: seq<string>, items: seq<Item>, n: nat, today: string,
                                               replies: nat -> ItemReplies)
    requires n <= |items|
    ensures var (after, outcomes) := Backups(names, items, n, today, replies);
      forall x :: x in after && x !in names ==>
        exists k :: 0 <= k < n && Stored(outcomes[k]) && x == ArchiveName(items[k].title, today)
    decreases n
  {
    if n > 0 {
      BackupsOnlyArchives(names, items, n - 1, today, replies);
      ListingStep(names, items, n - 1, today, replies);
      var (before, outcomes) := Backups(names, items, n - 1, today, replies);
      var (after, outcomes') := Backups(names, items, n, today, replies);
      forall x | x in after && x !in names
        ensures exists k :: 0 <= k < n && Stored(outcomes'[k]) && x == ArchiveName(items[k].title, today)
      {
        if x in before {
          var k :| 0 <= k < n - 1 && Stored(outcomes[k]) && x == ArchiveName(items[k].title, today);
          assert outcomes'[k] == outcomes[k];
        } else {
          assert Stored(outcomes'[n - 1]) && x == ArchiveName(items[n - 1].title, today);
        }
      }
    }
  }

  /** The text `get_last_modified_date` parses: the last three '_' fields, with ".gdb.zip" removed. */
  function DateText(name: string): string {
    RemoveAll(Join(LastFields(Split(name, '_'), 3), '_'), ".gdb.zip")
  }

  lemma JoinThree(a: string, b: string, c: string, sep: char)
    ensures Join([a, b, c], sep) == a + [sep] + b + [sep] + c
  {
    assert [a, b, c][1..] == [b, c];
    assert [b, c][1..] == [c];
    assert Join([b, c], sep) == b + [sep] + c;
    assert Join([a, b, c], sep) == a + [sep] + (b + [sep] + c);
  }

  /** The last three fields of an archive made on day d, joined again. */
  lemma ArchiveTail(d: Date)
    requires ValidDate(d) && d.year <= 9999
    ensures Join([TwoDigits(d.day), MonthNames[d.month - 1], FourDigits(d.year) + ".gdb.zip"], '_') == FormatDate(d) + ".gdb.zip"
  {
    JoinThree(TwoDigits(d.day), MonthNames[d.month - 1], FourDigits(d.year) + ".gdb.zip", '_');
  }

  /** The '_' fields of an archive name: those of the service name, then day, month and year. */
  lemma ArchiveNameFields(name: string, d: Date)
    requires ValidDate(d) && d.year <= 9999
    ensures Split(name + "_" + FormatDate(d) + ".gdb.zip", '_')
      == Split(name, '_') + [TwoDigits(d.day), MonthNames[d.month - 1], FourDigits(d.year) + ".gdb.zip"]
  {
    var tail := [TwoDigits(d.day), MonthNames[d.month - 1], FourDigits(d.year) + ".gdb.zip"];
    MonthNumberOfName(d.month);
    ArchiveTail(d);
    SplitJoin(tail, '_');
    assert name + "_" + FormatDate(d) + ".gdb.zip" == name + ['_'] + Join(tail, '_');
    SplitAround(name, Join(tail, '_'), '_');
  }

  lemma RemoveSuffix(d: Date)
    requires ValidDate(d) && 1000 <= d.year <= 9999
    ensures RemoveAll(FormatDate(d) + ".gdb.zip", ".gdb.zip") == FormatDate(d)
  {
    ParseFormatDate(d);
    RemoveAllAfter(FormatDate(d), ".gdb.zip", ".gdb.zip");
    assert RemoveAll(".gdb.zip", ".gdb.zip") == [];
  }

  lemma ArchiveDateText(name: string, d: Date)
    requires ValidDate(d) && 1000 <= d.year <= 9999
    ensures DateText(name + "_" + FormatDate(d) + ".gdb.zip") == FormatDate(d)
  {
    var tail := [TwoDigits(d.day), MonthNames[d.month - 1], FourDigits(d.year) + ".gdb.zip"];
    ArchiveNameFields(name, d);
    assert LastFields(Split(name, '_') + tail, 3) == tail;
    ArchiveTail(d);
    RemoveSuffix(d);
  }

  /**
    An archive made on day d carries the service's sanitised name and reads back as day d
    for a year of four digits, so a later item of the same service is skipped unless it
    was modified after that midnight.
   */
  lemma ArchiveNameDated(title: string, d: Date)
    requires ValidDate(d) && 1000 <= d.year <= 9999
    ensures Reading(ArchiveName(title, FormatDate(d)), SanitizeName(title)) == Some(d)
  {
    var name := SanitizeName(title);
    var archive := ArchiveName(title, FormatDate(d));
    ContainsPrefix(archive, name);
    ArchiveDateText(name, d);
    ParseFormatDate(d);
  }

  lemma ContainsPrefix(s: string, prefix: string)
    requires prefix <= s
    ensures Contains(s, prefix)
  {
  }

  /** A bucket of archives, as the list of its object names. */
  class ArchiveBucket {
    var names: seq<string>

    constructor (names: seq<string>)
      ensures this.names == names
    {
      this.names := names;
    }
  }

  /**
    One item of `download_as_fgdb`: its service name is sanitised, its latest archive date
    read from the current listing, and the item is skipped when unchanged since, else
    exported and uploaded with up to three attempts. A successful upload adds
    `{name}_{today}.gdb.zip` to the bucket and is followed by the removal of the local file
    and then of the server export; `exportDeleted` says whether that removal completed,
    which happens only after a successful upload.
   */
  method BackupItem(item: Item, bucket: ArchiveBucket, today: string, replies: ItemReplies)
    returns (outcome: ItemOutcome, exportDeleted: bool)
    modifies bucket
    ensures outcome == Outcome(old(bucket.names), item, replies)
    ensures bucket.names == if Stored(outcome) then AddName(old(bucket.names), ArchiveName(item.title, today)) else old(bucket.names)
    ensures exportDeleted <==> outcome == Uploaded
    ensures exportDeleted ==> !replies.exportFails && UploadSucceeds(replies.attempts, MaxUploadRetries)
  {
    exportDeleted := false;
    var sanitizedName := SanitizeName(item.title);
    var baseName := sanitizedName + "_" + today;
    var lastBackupDate := GetLastModifiedDate(bucket.names, sanitizedName);
    if lastBackupDate.Some? && !Before(Midnight(lastBackupDate.value), item.modified) {
      outcome := NotModified;
    } else if replies.exportFails {
      outcome := ExportFailed;
    } else {
      var uploaded, _, _ := UploadWithRetry(replies.attempts, MaxUploadRetries);
      if uploaded {
        bucket.names := AddName(bucket.names, baseName + ".gdb.zip");
        if replies.cleanupFails {
          outcome := CleanupFailed;
        } else {
          exportDeleted := true;
          outcome := Uploaded;
        }
      } else {
        outcome := UploadFailed;
      }
    }
  }

  lemma TitlesWithNext(items: seq<Item>, outcomes: seq<ItemOutcome>, outcome: ItemOutcome, added: bool)
    requires |outcomes| < |items|
    ensures TitlesWith(items, outcomes + [outcome], added)
      == TitlesWith(items, outcomes, added) + (if Listed(outcome, added) then [items[|outcomes|].title] else [])
  {
    assert (outcomes + [outcome])[..|outcomes|] == outcomes;
  }

  /**
    `download_as_fgdb`: the items are taken in order up to `max_items`, each handled as
    `BackupItem` says against the listing left by those before it; the titles of the
    uploaded items are returned as added, all others as skipped, and an item whose
    clean-up raised after its upload as both. The listing of existing
    files is computed and not used, as in the job.
   */
  method DownloadAsFgdb(items: seq<Item>, bucket: ArchiveBucket, maxItems: int, today: string,
                        replies: nat -> ItemReplies)
    returns (added: seq<string>, skipped: seq<string>, outcomes: seq<ItemOutcome>)
    modifies bucket
    ensures (bucket.names, outcomes) == Backups(old(bucket.names), items, Processed(items, maxItems), today, replies)
    ensures added == TitlesWith(items, outcomes, true)
    ensures skipped == TitlesWith(items, outcomes, false)
  {
    added, skipped, outcomes := [], [], [];
    var existing := ListExistingFiles(bucket.names);
    var count := 0;
    while count < |items|
      invariant count <= |items| && (count == 0 || count <= maxItems)
      invariant (bucket.names, outcomes) == Backups(old(bucket.names), items, count, today, replies)
      invariant added == TitlesWith(items, outcomes, true)
      invariant skipped == TitlesWith(items, outcomes, false)
    {
      if count >= maxItems {
        break;
      }
      BackupsNext(old(bucket.names), items, count, today, replies);
      var outcome, _ := BackupItem(items[count], bucket, today, replies(count));
      TitlesWithNext(items, outcomes, outcome, true);
      TitlesWithNext(items, outcomes, outcome, false);
      if Stored(outcome) {
        added := added + [items[count].title];
      }
      if outcome != Uploaded {
        skipped := skipped + [items[count].title];
      }
      outcomes := outcomes + [outcome];
      count := count + 1;
    }
  }

  // Retention

  /**
    `delete_old_archives`' reading of a name: the archive base, split on '_' into the layer
    name (all fields but the last three) and the date (the last three fields).
   */
  function ArchiveDate(name: string): Option<(string, Date)> {
    match ArchiveBase(name)
    case None => None
    case Some(base) =>
      var nameParts := Split(base, '_');
      match ParseDate(Join(LastFields(nameParts, 3), '_'))
      case None => None
      case Some(date) => Some((Join(LeadingFields(nameParts, 3), '_'), date))
  }

  /** An archive is expired when its day began before the cutoff; other names are kept. */
  predicate Expired(name: string, cutoff: Moment) {
    ArchiveDate(name).Some? && Before(Midnight(ArchiveDate(name).value.1), cutoff)
  }

  /** The names whose flag is `want`, in order. */
  function Select(names: seq<string>, flags: seq<bool>, want: bool): seq<string>
    requires |flags| == |names|
    decreases |names|
  {
    if names == [] then []
    else
      var n := |names| - 1;
      Select(names[..n], flags[..n], want) + (if flags[n] == want then [names[n]] else [])
  }

  lemma SelectNext(names: seq<string>, flags: seq<bool>, want: bool, i: nat)
    requires |flags| == |names| && i < |names|
    ensures Select(names[..i + 1], flags[..i + 1], want)
      == Select(names[..i], flags[..i], want) + (if flags[i] == want then [names[i]] else [])
  {
    assert names[..i + 1][..i] == names[..i];
    assert flags[..i + 1][..i] == flags[..i];
  }

  lemma {:induction false} SelectMembers(names: seq<string>, flags: seq<bool>, want: bool)
    requires |flags| == |names|
    ensures forall x :: x in Select(names, flags, want) ==> exists i :: 0 <= i < |names| && names[i] == x && flags[i] == want
    decreases |names|
  {
    if names != [] {
      var n := |names| - 1;
      SelectMembers(names[..n], flags[..n], want);
      forall x | x in Select(names, flags, want)
        ensures exists i :: 0 <= i < |names| && names[i] == x && flags[i] == want
      {
        if x in Select(names[..n], flags[..n], want) {
          var i :| 0 <= i < n && names[..n][i] == x && flags[..n][i] == want;
          assert names[i] == x && flags[i] == want;
        } else {
          assert names[n] == x && flags[n] == want;
        }
      }
    }
  }

  lemma {:induction false} SelectPartition(names: seq<string>, flags: seq<bool>)
    requires |flags| == |names|
    ensures multiset(Select(names, flags, true)) + multiset(Select(names, flags, false)) == multiset(names)
    decreases |names|
  {
    if names != [] {
      var n := |names| - 1;
      SelectPartition(names[..n], flags[..n]);
      assert names == names[..n] + [names[n]];
    }
  }

  /** Which names of the listing are expired. */
  function Expiries(names: seq<string>, cutoff: Moment): (r: seq<bool>)
    ensures |r| == |names|
    decreases |names|
  {
    if names == [] then [] else
      var n := |names| - 1;
      Expiries(names[..n], cutoff) + [Expired(names[n], cutoff)]
  }

  lemma {:induction false} ExpiriesAt(names: seq<string>, cutoff: Moment, i: nat)
    requires i < |names|
    ensures Expiries(names, cutoff)[i] == Expired(names[i], cutoff)
    decreases |names|
  {
    var n := |names| - 1;
    if i < n {
      ExpiriesAt(names[..n], cutoff, i);
    }
  }

  /** The names that are (`expired`) or are not (`!expired`) expired, in listing order. */
  function WithExpiry(names: seq<string>, cutoff: Moment, expired: bool): seq<string> {
    Select(names, Expiries(names, cutoff), expired)
  }

  /** Every deleted name was listed and expired; every kept name was listed and not expired. */
  lemma WithExpiryMembers(names: seq<string>, cutoff: Moment, expired: bool)
    ensures forall x :: x in WithExpiry(names, cutoff, expired) ==> x in names && Expired(x, cutoff) == expired
  {
    var flags := Expiries(names, cutoff);
    SelectMembers(names, flags, expired);
    forall x | x in WithExpiry(names, cutoff, expired)
      ensures x in names && Expired(x, cutoff) == expired
    {
      var i :| 0 <= i < |names| && names[i] == x && flags[i] == expired;
      ExpiriesAt(names, cutoff, i);
    }
  }

  /** Deleted and kept names together are the listing. */
  lemma WithExpiryPartition(names: seq<string>, cutoff: Moment)
    ensures multiset(WithExpiry(names, cutoff, true)) + multiset(WithExpiry(names, cutoff, false)) == multiset(names)
  {
    SelectPartition(names, Expiries(names, cutoff));
  }

  /** One step of the deletion loop: removing the `i`-th listed name from the bucket, or keeping it. */
  lemma DeleteStep(blobs: seq<string>, flags: seq<bool>, i: nat, names: seq<string>)
    requires |flags| == |blobs| && i < |blobs|
    requires names == Select(blobs[..i], flags[..i], false) + blobs[i..]
    ensures var p := |Select(blobs[..i], flags[..i], false)|;
      && p < |names|
      && (if flags[i] then names[..p] + names[p + 1..] else names) == Select(blobs[..i + 1], flags[..i + 1], false) + blobs[i + 1..]
      && |Select(blobs[..i + 1], flags[..i + 1], false)| == (if flags[i] then p else p + 1)
      && Select(blobs[..i + 1], flags[..i + 1], true) == Select(blobs[..i], flags[..i], true) + (if flags[i] then [blobs[i]] else [])
  {
    var kept := Select(blobs[..i], flags[..i], false);
    SelectNext(blobs, flags, true, i);
    SelectNext(blobs, flags, false, i);
    assert blobs[i..] == [blobs[i]] + blobs[i + 1..];
    assert names == kept + [blobs[i]] + blobs[i + 1..];
    var p := |kept|;
    assert names[..p] == kept && names[p + 1..] == blobs[i + 1..];
  }

  /**
    The deletion test as the loop states it: a dated archive before the cutoff, and either
    not among the services just added or (again) before the cutoff. The list of services
    just added never saves an expired archive.
   */
  method DeletionTest(blobs: seq<string>, i: nat, cutoff: Moment, addedFiles: seq<string>) returns (delete: bool)
    requires i < |blobs|
    ensures delete == Expiries(blobs, cutoff)[i]
  {
    var filename := blobs[i];
    ExpiriesAt(blobs, cutoff, i);
    var archive := ArchiveDate(filename);
    delete := false;
    if archive.Some? {
      var (layerName, fileDate) := archive.value;
      if Before(Midnight(fileDate), cutoff) && (layerName !in addedFiles || Before(Midnight(fileDate), cutoff)) {
        delete := true;
      }
    }
  }

  /**
    One pass of the deletion loop over the i-th listed name, whose test gave `delete`: an
    expired name is removed from the bucket, at its position among the names kept so far,
    and recorded as deleted; any other name stays and the position moves past it.
   */
  method DeleteIfExpired(bucket: ArchiveBucket, blobs: seq<string>, ghost flags: seq<bool>, i: nat, delete: bool,
                         deleted: seq<string>, position: nat)
    returns (deleted': seq<string>, position': nat)
    requires |flags| == |blobs| && i < |blobs| && delete == flags[i]
    requires deleted == Select(blobs[..i], flags[..i], true)
    requires bucket.names == Select(blobs[..i], flags[..i], false) + blobs[i..]
    requires position == |Select(blobs[..i], flags[..i], false)|
    modifies bucket
    ensures deleted' == Select(blobs[..i + 1], flags[..i + 1], true)
    ensures bucket.names == Select(blobs[..i + 1], flags[..i + 1], false) + blobs[i + 1..]
    ensures position' == |Select(blobs[..i + 1], flags[..i + 1], false)|
  {
    DeleteStep(blobs, flags, i, bucket.names);
    if delete {
      bucket.names := bucket.names[..position] + bucket.names[position + 1..];
      deleted', position' := deleted + [blobs[i]], position;
    } else {
      deleted', position' := deleted, position + 1;
    }
  }

  /**
    `delete_old_archives`: every archive whose date is before the cutoff (now less the
    retention period) is deleted, whatever the list of services just added says; names
    without an archive extension or a readable date are kept.
   */
  method DeleteOldArchives(bucket: ArchiveBucket, cutoff: Moment, addedFiles: seq<string>) returns (deleted: seq<string>)
    modifies bucket
    ensures deleted == WithExpiry(old(bucket.names), cutoff, true)
    ensures bucket.names == WithExpiry(old(bucket.names), cutoff, false)
  {
    var blobs := bucket.names;
    ghost var flags := Expiries(blobs, cutoff);
    deleted := [];
    var position := 0;
    for i := 0 to |blobs|
      invariant deleted == Select(blobs[..i], flags[..i], true)
      invariant bucket.names == Select(blobs[..i], flags[..i], false) + blobs[i..]
      invariant position == |Select(blobs[..i], flags[..i], false)|
    {
      var delete := DeletionTest(blobs, i, cutoff, addedFiles);
      deleted, position := DeleteIfExpired(bucket, blobs, flags, i, delete, deleted, position);
    }
    assert blobs[..|blobs|] == blobs && flags[..|blobs|] == flags;
  }

  /** An archive made on day d is read back with its service name and day, and outlives any cutoff up to d's midnight. */
  lemma ArchiveNameRetention(title: string, d: Date, cutoff: Moment)
    requires ValidDate(d) && 1000 <= d.year <= 9999
    ensures ArchiveDate(ArchiveName(title, FormatDate(d))) == Some((SanitizeName(title), d))
    ensures Expired(ArchiveName(title, FormatDate(d)), cutoff) <==> Before(Midnight(d), cutoff)
  {
    var name := SanitizeName(title);
    var today := FormatDate(d);
    var archive := ArchiveName(title, today);
    ArchiveBaseOfGdb(name + "_" + today);
    FormatDateFields(d);
    ParseFormatDate(d);
    var fields := Split(today, '_');
    SplitAround(name, today, '_');
    assert name + "_" + today == name + ['_'] + today;
    var parts := Split(name, '_') + fields;
    assert LastFields(parts, 3) == fields;
    assert LeadingFields(parts, 3) == Split(name, '_');
    JoinSplit(today, '_');
    JoinSplit(name, '_');
  }
}

=== FILE: backup_dates.dfy ===
/**
  The archive dates of the backup job: `strptime(s, '%d_%b_%Y')` in the C locale, the
  `strftime("%d_%b_%Y")` that names a new archive, and the order of Python datetimes. A
  parsed date stands for midnight of that day; the modification time of an item and the
  retention cutoff carry a time of day.
 */
module BackupDates {
  import opened Wrappers
  import opened Strings

  datatype Date = Date(year: int, month: int, day: int)

  /** A datetime: a calendar day and the time elapsed since its midnight. */
  datatype Moment = Moment(date: Date, timeOfDay: nat)

  function Midnight(d: Date): Moment {
    Moment(d, 0)
  }

  predicate DateBefore(a: Date, b: Date) {
    a.year < b.year
    || (a.year == b.year && a.month < b.month)
    || (a.year == b.year && a.month == b.month && a.day < b.day)
  }

  /** `a < b` on datetimes: by day, then by time of day. */
  predicate Before(a: Moment, b: Moment) {
    DateBefore(a.date, b.date) || (a.date == b.date && a.timeOfDay < b.timeOfDay)
  }

  lemma BeforeIsStrictTotalOrder(a: Moment, b: Moment, c: Moment)
    ensures !Before(a, a)
    ensures Before(a, b) && Before(b, c) ==> Before(a, c)
    ensures a == b || Before(a, b) || Before(b, a)
  {
  }

  predicate LeapYear(y: int) {
    y % 4 == 0 && (y % 100 != 0 || y % 400 == 0)
  }

  function DaysIn(month: int, year: int): int {
    if month == 2 then (if LeapYear(year) then 29 else 28)
    else if month == 4 || month == 6 || month == 9 || month == 11 then 30
    else 31
  }

  /** The days `datetime` accepts: year 1 onwards, a month of 1..12, a day within the month. */
  predicate ValidDate(d: Date) {
    d.year >= 1 && 1 <= d.month <= 12 && 1 <= d.day <= DaysIn(d.month, d.year)
  }

  // Parsing

  /** `%d`: one digit 1-9, a space and a digit 1-9, or two digits 01-31. */
  function ParseDay(s: string): (r: Option<int>)
    ensures r.Some? ==> 1 <= r.value <= 31
  {
    if |s| == 1 && '1' <= s[0] <= '9' then Some(DigitValue(s[0]))
    else if |s| == 2 && s[0] == ' ' && '1' <= s[1] <= '9' then Some(DigitValue(s[1]))
    else if |s| == 2 && IsDigit(s[0]) && IsDigit(s[1]) && 1 <= 10 * DigitValue(s[0]) + DigitValue(s[1]) <= 31 then
      Some(10 * DigitValue(s[0]) + DigitValue(s[1]))
    else None
  }

  const MonthNames: seq<string> := ["Jan", "Feb", "Mar", "Apr", "May", "Jun", "Jul", "Aug", "Sep", "Oct", "Nov", "Dec"]

  /** `%b` in the C locale, matched without regard to case. */
  function MonthNumber(s: string): (r: Option<int>)
    ensures r.Some? ==> 1 <= r.value <= 12
  {
    if |s| != 3 then None
    else
      var key := [LowerChar(s[0]), LowerChar(s[1]), LowerChar(s[2])];
      if key == "jan" then Some(1) else if key == "feb" then Some(2)
      else if key == "mar" then Some(3) else if key == "apr" then Some(4)
      else if key == "may" then Some(5) else if key == "jun" then Some(6)
      else if key == "jul" then Some(7) else if key == "aug" then Some(8)
      else if key == "sep" then Some(9) else if key == "oct" then Some(10)
      else if key == "nov" then Some(11) else if key == "dec" then Some(12)
      else None
  }

  /** `%Y`: exactly four digits. */
  function ParseYear(s: string): (r: Option<int>)
    ensures r.Some? ==> 0 <= r.value <= 9999
  {
    if |s| == 4 && IsDigit(s[0]) && IsDigit(s[1]) && IsDigit(s[2]) && IsDigit(s[3]) then
      Some(1000 * DigitValue(s[0]) + 100 * DigitValue(s[1]) + 10 * DigitValue(s[2]) + DigitValue(s[3]))
    else None
  }

  /**
    `datetime.strptime(s, '%d_%b_%Y')`: the whole text must be the three fields separated by
    '_' (none of the fields can hold a '_'), and the day must exist; None stands for the
    ValueError.
   */
  function ParseDate(s: string): (r: Option<Date>)
    ensures r.Some? ==> ValidDate(r.value)
  {
    var parts := Split(s, '_');
    if |parts| != 3 then None
    else
      var day := ParseDay(parts[0]);
      var month := MonthNumber(parts[1]);
      var year := ParseYear(parts[2]);
      if day.None? || month.None? || year.None? then None
      else if year.value < 1 || day.value > DaysIn(month.value, year.value) then None
      else Some(Date(year.value, month.value, day.value))
  }

  // Formatting

  function TwoDigits(n: int): string
    requires 0 <= n < 100
  {
    [DigitChar(n / 10), DigitChar(n % 10)]
  }

  function FourDigits(n: int): string
    requires 0 <= n < 10000
  {
    TwoDigits(n / 100) + TwoDigits(n % 100)
  }

  /** `strftime("%d_%b_%Y")` for a year of four digits. */
  function FormatDate(d: Date): (r: string)
    requires ValidDate(d) && d.year <= 9999
  {
    TwoDigits(d.day) + "_" + MonthNames[d.month - 1] + "_" + FourDigits(d.year)
  }

  lemma MonthNumberOfName(m: int)
    requires 1 <= m <= 12
    ensures MonthNumber(MonthNames[m - 1]) == Some(m)
    ensures '_' !in MonthNames[m - 1] && '.' !in MonthNames[m - 1]
  {
    if m <= 6 {
      MonthNumberOfFirstHalf(m);
    } else {
      MonthNumberOfSecondHalf(m);
    }
  }

  lemma MonthNumberOfFirstHalf(m: int)
    requires 1 <= m <= 6
    ensures MonthNumber(MonthNames[m - 1]) == Some(m)
    ensures '_' !in MonthNames[m - 1] && '.' !in MonthNames[m - 1]
  {
    if m == 1 { assert MonthNames[0] == "Jan"; }
    else if m == 2 { assert MonthNames[1] == "Feb"; }
    else if m == 3 { assert MonthNames[2] == "Mar"; }
    else if m == 4 { assert MonthNames[3] == "Apr"; }
    else if m == 5 { assert MonthNames[4] == "May"; }
    else { assert MonthNames[5] == "Jun"; }
  }

  lemma MonthNumberOfSecondHalf(m: int)
    requires 7 <= m <= 12
    ensures MonthNumber(MonthNames[m - 1]) == Some(m)
    ensures '_' !in MonthNames[m - 1] && '.' !in MonthNames[m - 1]
  {
    if m == 7 { assert MonthNames[6] == "Jul"; }
    else if m == 8 { assert MonthNames[7] == "Aug"; }
    else if m == 9 { assert MonthNames[8] == "Sep"; }
    else if m == 10 { assert MonthNames[9] == "Oct"; }
    else if m == 11 { assert MonthNames[10] == "Nov"; }
    else { assert MonthNames[11] == "Dec"; }
  }

  lemma ParseTwoDigits(n: int)
    requires 1 <= n <= 31
    ensures ParseDay(TwoDigits(n)) == Some(n)
  {
    var t := TwoDigits(n);
    assert DigitValue(t[0]) == n / 10 && DigitValue(t[1]) == n % 10;
  }

  lemma ParseFourDigits(n: int)
    requires 0 <= n <= 9999
    ensures ParseYear(FourDigits(n)) == Some(n)
  {
    var h, l := n / 100, n % 100;
    var t := FourDigits(n);
    assert DigitValue(t[0]) == h / 10 && DigitValue(t[1]) == h % 10;
    assert DigitValue(t[2]) == l / 10 && DigitValue(t[3]) == l % 10;
    assert 10 * (h / 10) + h % 10 == h && 10 * (l / 10) + l % 10 == l;
    assert 100 * h + l == n;
  }

  lemma FormatDateFields(d: Date)
    requires ValidDate(d) && d.year <= 9999
    ensures Split(FormatDate(d), '_') == [TwoDigits(d.day), MonthNames[d.month - 1], FourDigits(d.year)]
    ensures '.' !in FormatDate(d)
  {
    var day, month, year := TwoDigits(d.day), MonthNames[d.month - 1], FourDigits(d.year);
    MonthNumberOfName(d.month);
    assert Join([month, year], '_') == month + "_" + year;
    assert [day, month, year][1..] == [month, year];
    assert FormatDate(d) == Join([day, month, year], '_');
    assert '_' !in day && '_' !in year;
    SplitJoin([day, month, year], '_');
  }

  /** A formatted date with a four-digit year parses back to itself, and holds no '.'. */
  lemma ParseFormatDate(d: Date)
    requires ValidDate(d) && 1000 <= d.year <= 9999
    ensures ParseDate(FormatDate(d)) == Some(d)
    ensures '.' !in FormatDate(d)
  {
    FormatDateFields(d);
    ParseTwoDigits(d.day);
    MonthNumberOfName(d.month);
    ParseFourDigits(d.year);
  }
}

=== FILE: esri_to_geojson.dfy ===
/**
  The Esri feature set to GeoJSON FeatureCollection translation (RFC 7946, sections 3.1 and 3.3).
  Coordinates are values of an opaque number type `N`; attribute values are of an opaque type `V`.
 */
module EsriToGeoJson {
  import opened Wrappers

  type Position<N> = seq<N>
  type Path<N> = seq<Position<N>>

  /** An Esri geometry object. A key the object does not carry is `None`. */
  datatype EsriGeometry<N> = EsriGeometry(
    x: Option<N>,
    y: Option<N>,
    points: Option<seq<Position<N>>>,
    paths: Option<seq<Path<N>>>,
    rings: Option<seq<Path<N>>>)

  datatype EsriFeature<N, V> = EsriFeature(attributes: Option<map<string, V>>, geometry: Option<EsriGeometry<N>>)

  /** An Esri feature set; `features` is `None` when the response has no "features" key. */
  datatype EsriFeatureSet<N, V> = EsriFeatureSet(features: Option<seq<EsriFeature<N, V>>>)

  /** A GeoJSON "coordinates" value: a number or a (nested) JSON array. */
  datatype Coords<N> = Num(n: N) | Arr(items: seq<Coords<N>>)

  datatype GeoGeometry<N> = GeoGeometry(kind: string, coordinates: Coords<N>)
  datatype GeoFeature<N, V> = GeoFeature(kind: string, properties: map<string, V>, geometry: GeoGeometry<N>)
  datatype FeatureCollection<N, V> = FeatureCollection(kind: string, features: seq<GeoFeature<N, V>>)

  // Encoding typed coordinate parts as JSON arrays

  function EncList<T, N>(xs: seq<T>, enc: T -> Coords<N>): (r: seq<Coords<N>>)
    ensures |r| == |xs|
  {
    if |xs| == 0 then [] else [enc(xs[0])] + EncList(xs[1..], enc)
  }

  function EncNum<N>(n: N): Coords<N> {
    Num(n)
  }

  function EncPosition<N>(p: Position<N>): Coords<N> {
    Arr(EncList(p, EncNum))
  }

  function EncPositions<N>(ps: seq<Position<N>>): Coords<N> {
    Arr(EncList(ps, EncPosition))
  }

  function EncPaths<N>(ls: seq<Path<N>>): Coords<N> {
    Arr(EncList(ls, EncPositions))
  }

  /** `[ring]`: a ring wrapped as a polygon of its own. */
  function EncRingAsPolygon<N>(ring: Path<N>): Coords<N> {
    Arr([EncPositions(ring)])
  }

  // Decoding JSON arrays back into typed coordinate parts; `None` when the nesting does not fit

  function DecList<T, N>(cs: seq<Coords<N>>, dec: Coords<N> -> Option<T>): (r: Option<seq<T>>)
    ensures r.Some? ==> |r.value| == |cs|
  {
    if |cs| == 0 then Some([])
    else match (dec(cs[0]), DecList(cs[1..], dec))
      case (Some(x), Some(rest)) => Some([x] + rest)
      case _ => None
  }

  function DecNum<N>(c: Coords<N>): Option<N> {
    match c
    case Num(n) => Some(n)
    case Arr(_) => None
  }

  function DecPosition<N>(c: Coords<N>): Option<Position<N>> {
    match c
    case Arr(items) => DecList(items, DecNum)
    case Num(_) => None
  }

  function DecPositions<N>(c: Coords<N>): Option<seq<Position<N>>> {
    match c
    case Arr(items) => DecList(items, DecPosition)
    case Num(_) => None
  }

  function DecPaths<N>(c: Coords<N>): Option<seq<Path<N>>> {
    match c
    case Arr(items) => DecList(items, DecPositions)
    case Num(_) => None
  }

  function DecPolygons<N>(c: Coords<N>): Option<seq<seq<Path<N>>>> {
    match c
    case Arr(items) => DecList(items, DecPaths)
    case Num(_) => None
  }

  /** Decoding what was encoded element by element gives the elements back. */
  lemma {:induction false} DecEncList<T, N>(xs: seq<T>, enc: T -> Coords<N>, dec: Coords<N> -> Option<T>)
    requires forall k :: 0 <= k < |xs| ==> dec(enc(xs[k])) == Some(xs[k])
    ensures DecList(EncList(xs, enc), dec) == Some(xs)
  {
    if |xs| > 0 {
      assert dec(enc(xs[0])) == Some(xs[0]);
      DecEncList(xs[1..], enc, dec);
      assert EncList(xs, enc)[1..] == EncList(xs[1..], enc);
      assert [xs[0]] + xs[1..] == xs;
    }
  }

  lemma DecEncPosition<N>(p: Position<N>)
    ensures DecPosition(EncPosition(p)) == Some(p)
  {
    DecEncList(p, EncNum, DecNum);
  }

  lemma DecEncPositions<N>(ps: seq<Position<N>>)
    ensures DecPositions(EncPositions(ps)) == Some(ps)
  {
    forall k | 0 <= k < |ps| ensures DecPosition(EncPosition(ps[k])) == Some(ps[k]) {
      DecEncPosition(ps[k]);
    }
    DecEncList(ps, EncPosition, DecPosition);
  }

  lemma DecEncPaths<N>(ls: seq<Path<N>>)
    ensures DecPaths(EncPaths(ls)) == Some(ls)
  {
    forall k | 0 <= k < |ls| ensures DecPositions(EncPositions(ls[k])) == Some(ls[k]) {
      DecEncPositions(ls[k]);
    }
    DecEncList(ls, EncPositions, DecPositions);
  }

  function WrapRings<N>(rings: seq<Path<N>>): (r: seq<seq<Path<N>>>)
    ensures |r| == |rings| && forall k :: 0 <= k < |rings| ==> r[k] == [rings[k]]
  {
    if |rings| == 0 then [] else [[rings[0]]] + WrapRings(rings[1..])
  }

  lemma DecEncRingsAsPolygons<N>(rings: seq<Path<N>>)
    ensures DecPolygons(Arr(EncList(rings, EncRingAsPolygon))) == Some(WrapRings(rings))
  {
    var wrapped := WrapRings(rings);
    forall k | 0 <= k < |rings|
      ensures DecPaths(EncRingAsPolygon(rings[k])) == Some(wrapped[k])
    {
      DecEncPositions(rings[k]);
      assert EncList([rings[k]], EncPositions) == [EncPositions(rings[k])] by {
        assert [rings[k]][1..] == [];
      }
      DecEncList([rings[k]], EncPositions, DecPositions);
    }
    DecEncListMapped(rings, wrapped, EncRingAsPolygon, DecPaths);
  }

  /** Like DecEncList, when decoding yields a known image of each element rather than the element itself. */
  lemma {:induction false} DecEncListMapped<T, U, N>(xs: seq<T>, ys: seq<U>, enc: T -> Coords<N>, dec: Coords<N> -> Option<U>)
    requires |xs| == |ys|
    requires forall k :: 0 <= k < |xs| ==> dec(enc(xs[k])) == Some(ys[k])
    ensures DecList(EncList(xs, enc), dec) == Some(ys)
  {
    if |xs| > 0 {
      assert dec(enc(xs[0])) == Some(ys[0]);
      DecEncListMapped(xs[1..], ys[1..], enc, dec);
      assert EncList(xs, enc)[1..] == EncList(xs[1..], enc);
      assert [ys[0]] + ys[1..] == ys;
    }
  }

  /** Encoding what was decoded element by element gives the JSON array back: decoding loses nothing. */
  lemma {:induction false} EncDecList<T, N>(cs: seq<Coords<N>>, dec: Coords<N> -> Option<T>, enc: T -> Coords<N>, xs: seq<T>)
    requires DecList(cs, dec) == Some(xs)
    requires forall k :: 0 <= k < |cs| && dec(cs[k]).Some? ==> enc(dec(cs[k]).value) == cs[k]
    ensures EncList(xs, enc) == cs
    decreases |cs|
  {
    if |cs| > 0 {
      var rest := DecList(cs[1..], dec);
      assert dec(cs[0]).Some? && rest.Some?;
      assert xs == [dec(cs[0]).value] + rest.value;
      forall k | 0 <= k < |cs[1..]| && dec(cs[1..][k]).Some?
        ensures enc(dec(cs[1..][k]).value) == cs[1..][k]
      {
        assert cs[1..][k] == cs[k + 1];
      }
      EncDecList(cs[1..], dec, enc, rest.value);
      assert xs[1..] == rest.value;
      assert cs == [cs[0]] + cs[1..];
    }
  }

  lemma EncDecPosition<N>(c: Coords<N>)
    requires DecPosition(c).Some?
    ensures EncPosition(DecPosition(c).value) == c
  {
    EncDecList(c.items, DecNum, EncNum, DecPosition(c).value);
  }

  lemma EncDecPositions<N>(c: Coords<N>)
    requires DecPositions(c).Some?
    ensures EncPositions(DecPositions(c).value) == c
  {
    forall k | 0 <= k < |c.items| && DecPosition(c.items[k]).Some?
      ensures EncPosition(DecPosition(c.items[k]).value) == c.items[k]
    {
      EncDecPosition(c.items[k]);
    }
    EncDecList(c.items, DecPosition, EncPosition, DecPositions(c).value);
  }

  lemma EncDecPaths<N>(c: Coords<N>)
    requires DecPaths(c).Some?
    ensures EncPaths(DecPaths(c).value) == c
  {
    forall k | 0 <= k < |c.items| && DecPositions(c.items[k]).Some?
      ensures EncPositions(DecPositions(c.items[k]).value) == c.items[k]
    {
      EncDecPositions(c.items[k]);
    }
    EncDecList(c.items, DecPositions, EncPositions, DecPaths(c).value);
  }

  /** A MultiPolygon's coordinates: one array of rings per polygon. */
  function EncPolygons<N>(polys: seq<seq<Path<N>>>): Coords<N> {
    Arr(EncList(polys, EncPaths))
  }

  lemma EncDecPolygons<N>(c: Coords<N>)
    requires DecPolygons(c).Some?
    ensures EncPolygons(DecPolygons(c).value) == c
  {
    forall k | 0 <= k < |c.items| && DecPaths(c.items[k]).Some?
      ensures EncPaths(DecPaths(c.items[k]).value) == c.items[k]
    {
      EncDecPaths(c.items[k]);
    }
    EncDecList(c.items, DecPaths, EncPaths, DecPolygons(c).value);
  }

  // The translation

  function NoGeometry<N>(): GeoGeometry<N> {
    GeoGeometry("", Arr([]))
  }

  /** True when the Esri geometry carries none of the recognised keys. */
  predicate Unrecognised<N>(g: Option<EsriGeometry<N>>) {
    match g
    case None => true
    case Some(e) => !(e.x.Some? && e.y.Some?) && e.points.None? && e.paths.None? && e.rings.None?
  }

  /**
    The "geometry" member built for one Esri feature (the if/elif chain over x/y, points,
    paths, rings): one of the six GeoJSON geometry types, or "" exactly when the Esri
    geometry carries no recognised key.
   */
  function GeometryOf<N>(g: Option<EsriGeometry<N>>): (r: GeoGeometry<N>)
    ensures r.kind in {"", "Point", "MultiPoint", "LineString", "MultiLineString", "Polygon", "MultiPolygon"}
    ensures r.kind == "" <==> Unrecognised(g)
  {
    match g
    case None => NoGeometry()
    case Some(e) =>
      if e.x.Some? && e.y.Some? then GeoGeometry("Point", Arr([Num(e.x.value), Num(e.y.value)]))
      else if e.points.Some? then GeoGeometry("MultiPoint", EncPositions(e.points.value))
      else if e.paths.Some? then
        if |e.paths.value| == 1 then GeoGeometry("LineString", EncPositions(e.paths.value[0]))
        else GeoGeometry("MultiLineString", EncPaths(e.paths.value))
      else if e.rings.Some? then
        if |e.rings.value| == 1 then GeoGeometry("Polygon", EncPaths(e.rings.value))
        else GeoGeometry("MultiPolygon", Arr(EncList(e.rings.value, EncRingAsPolygon)))
      else NoGeometry()
  }

  /**
    What each output geometry holds: the GeoJSON type is chosen by the first recognised key
    in the order x/y, points, paths, rings, and its coordinates decode back to exactly that
    key's Esri value (paths[0] for a single path, each ring wrapped for several rings);
    with no recognised key the type is "" and the coordinates are [].
   */
  lemma {:induction false} CoordinatesCarryEsriParts<N>(g: Option<EsriGeometry<N>>)
    ensures var r := GeometryOf(g);
      && (Unrecognised(g) <==> r.kind == "")
      && (Unrecognised(g) ==> r.coordinates == Arr([]))
      && (g.Some? && g.value.x.Some? && g.value.y.Some? ==>
            r.kind == "Point" && DecPosition(r.coordinates) == Some([g.value.x.value, g.value.y.value]))
      && (r.kind == "MultiPoint" <==> g.Some? && !(g.value.x.Some? && g.value.y.Some?) && g.value.points.Some?)
      && (r.kind == "MultiPoint" ==> DecPositions(r.coordinates) == Some(g.value.points.value))
      && (r.kind == "LineString" || r.kind == "MultiLineString" <==>
            g.Some? && !(g.value.x.Some? && g.value.y.Some?) && g.value.points.None? && g.value.paths.Some?)
      && (r.kind == "LineString" <==> (r.kind == "LineString" || r.kind == "MultiLineString") && |g.value.paths.value| == 1)
      && (r.kind == "LineString" ==> DecPositions(r.coordinates) == Some(g.value.paths.value[0]))
      && (r.kind == "MultiLineString" ==> DecPaths(r.coordinates) == Some(g.value.paths.value))
      && (r.kind == "Polygon" || r.kind == "MultiPolygon" <==>
            g.Some? && !(g.value.x.Some? && g.value.y.Some?) && g.value.points.None? && g.value.paths.None? && g.value.rings.Some?)
      && (r.kind == "Polygon" <==> (r.kind == "Polygon" || r.kind == "MultiPolygon") && |g.value.rings.value| == 1)
      && (r.kind == "Polygon" ==> DecPaths(r.coordinates) == Some(g.value.rings.value))
      && (r.kind == "MultiPolygon" ==> DecPolygons(r.coordinates) == Some(WrapRings(g.value.rings.value)))
  {
    match g
    case None =>
    case Some(e) =>
      if e.x.Some? && e.y.Some? {
        var xy := [e.x.value, e.y.value];
        assert EncList(xy, EncNum) == [Num(e.x.value), Num(e.y.value)] by {
          assert xy[1..] == [e.y.value];
          assert xy[1..][1..] == [];
        }
        DecEncList(xy, EncNum, DecNum);
      } else if e.points.Some? {
        DecEncPositions(e.points.value);
      } else if e.paths.Some? {
        if |e.paths.value| == 1 {
          DecEncPositions(e.paths.value[0]);
        } else {
          DecEncPaths(e.paths.value);
        }
      } else if e.rings.Some? {
        if |e.rings.value| == 1 {
          DecEncPaths(e.rings.value);
        } else {
          DecEncRingsAsPolygons(e.rings.value);
        }
      }
  }

  /** One GeoJSON "Feature": the attributes as properties ({} without attributes) and the geometry GeometryOf builds. */
  function ConvertFeature<N, V>(f: EsriFeature<N, V>): (r: GeoFeature<N, V>)
    ensures r.kind == "Feature"
    ensures f.attributes.Some? ==> r.properties == f.attributes.value
    ensures f.attributes.None? ==> r.properties == map[]
    ensures r.geometry.kind == "" <==> Unrecognised(f.geometry)
  {
    GeoFeature("Feature", f.attributes.GetOr(map[]), GeometryOf(f.geometry))
  }

  /** `esri_json.get("features", [])` */
  function InputFeatures<N, V>(esri: EsriFeatureSet<N, V>): seq<EsriFeature<N, V>> {
    esri.features.GetOr([])
  }

  /**
    `esri_to_geojson`: one "Feature" per input feature, in input order, each carrying the
    input's attributes (or {} when it has none) and the geometry GeometryOf builds.
   */
  method EsriToGeoJson<N, V>(esri: EsriFeatureSet<N, V>) returns (geojson: FeatureCollection<N, V>)
    ensures geojson.kind == "FeatureCollection"
    ensures esri.features.None? ==> geojson.features == []
    ensures |geojson.features| == |InputFeatures(esri)|
    ensures forall k :: 0 <= k < |geojson.features| ==>
      && geojson.features[k].kind == "Feature"
      && geojson.features[k].properties == InputFeatures(esri)[k].attributes.GetOr(map[])
      && geojson.features[k].geometry == GeometryOf(InputFeatures(esri)[k].geometry)
  {
    var input := InputFeatures(esri);
    var out: seq<GeoFeature<N, V>> := [];
    var i := 0;
    while i < |input|
      invariant 0 <= i <= |input|
      invariant |out| == i
      invariant forall k :: 0 <= k < i ==> out[k] == ConvertFeature(input[k])
    {
      out := out + [ConvertFeature(input[i])];
      i := i + 1;
    }
    geojson := FeatureCollection("FeatureCollection", out);
  }
}

=== FILE: get_services.dfy ===
/**
  `get_pg_services`: the service names of a libpq service file are its section headers, the
  lines that, once stripped of surrounding whitespace, read `[name]`. Opening and reading the
  file is an input: the file is missing, fails to read with a message, or is a list of lines
  (each with its line ending, as Python's line iteration yields them).
 */
module PgServices {
  import opened Wrappers
  import opened Strings

  datatype ReadResult = NotFound | ReadFailed(message: string) | Lines(lines: seq<string>)

  /** `{"services": names}` or `{"error": message}`. */
  datatype ServicesResult = Services(names: seq<string>) | ServiceError(error: string)

  const NotFoundMessage := "pg_service.conf file not found"

  /**
    The regular expression `^\[([^\]]+)\]$` applied to a stripped line: one '[' first, one
    ']' last, and a non-empty group without ']' between them, which is returned. (`$` could
    also match before a final newline, which a stripped line never has.)
   */
  function HeaderName(s: string): Option<string> {
    if |s| >= 3 && s[0] == '[' && s[|s| - 1] == ']' && ']' !in s[1..|s| - 1] then Some(s[1..|s| - 1])
    else None
  }

  predicate ValidServiceName(name: string) {
    name != [] && ']' !in name
  }

  /** A line names a service exactly when it is `[` + name + `]` for a non-empty name without ']'. */
  lemma HeaderNameExact(s: string, name: string)
    ensures HeaderName(s) == Some(name) <==> s == "[" + name + "]" && ValidServiceName(name)
  {
    if s == "[" + name + "]" && ValidServiceName(name) {
      assert s[1..|s| - 1] == name;
    }
  }

  /** What matching makes of each line: its header name, if any. */
  function Matches(lines: seq<string>): (r: seq<Option<string>>)
    ensures |r| == |lines|
  {
    seq(|lines|, i requires 0 <= i < |lines| => HeaderName(Strip(lines[i])))
  }

  /** The names found, in order. */
  function Collect(found: seq<Option<string>>): seq<string>
    decreases |found|
  {
    if found == [] then []
    else
      var n := |found| - 1;
      Collect(found[..n]) + (if found[n].Some? then [found[n].value] else [])
  }

  /** The names of the lines that hold a header, in file order. */
  function ServiceNames(lines: seq<string>): seq<string> {
    Collect(Matches(lines))
  }

  lemma ServiceNamesNext(lines: seq<string>, i: nat)
    requires i < |lines|
    ensures ServiceNames(lines[..i + 1])
      == ServiceNames(lines[..i]) + (match HeaderName(Strip(lines[i])) case Some(name) => [name] case None => [])
  {
    var found := Matches(lines[..i + 1]);
    assert found[..i] == Matches(lines[..i]);
    assert found[i] == HeaderName(Strip(lines[i]));
  }

  lemma {:induction false} CollectAppend(a: seq<Option<string>>, b: seq<Option<string>>)
    ensures Collect(a + b) == Collect(a) + Collect(b)
    decreases |b|
  {
    if b == [] {
      assert a + b == a;
    } else {
      var n := |b| - 1;
      CollectAppend(a, b[..n]);
      assert (a + b)[..|a + b| - 1] == a + b[..n];
    }
  }

  lemma {:induction false} CollectMembers(found: seq<Option<string>>)
    ensures |Collect(found)| <= |found|
    ensures forall x :: x in Collect(found) <==> Some(x) in found
    decreases |found|
  {
    if found != [] {
      var n := |found| - 1;
      CollectMembers(found[..n]);
      assert found == found[..n] + [found[n]];
    }
  }

  /** The names of a file made of two parts are those of the first part, then those of the second. */
  lemma ServiceNamesAppend(a: seq<string>, b: seq<string>)
    ensures ServiceNames(a + b) == ServiceNames(a) + ServiceNames(b)
  {
    var ab, ma, mb := Matches(a + b), Matches(a), Matches(b);
    forall k | 0 <= k < |ab|
      ensures ab[k] == (ma + mb)[k]
    {
      if k < |a| {
        assert (a + b)[k] == a[k];
      } else {
        assert (a + b)[k] == b[k - |a|];
      }
    }
    assert ab == ma + mb;
    CollectAppend(Matches(a), Matches(b));
  }

  /** There are no more names than lines, every name listed is the header of a line, and every header is listed. */
  lemma ServiceNamesMembers(lines: seq<string>)
    ensures |ServiceNames(lines)| <= |lines|
    ensures forall x :: x in ServiceNames(lines) <==> exists i :: 0 <= i < |lines| && HeaderName(Strip(lines[i])) == Some(x)
  {
    var found := Matches(lines);
    CollectMembers(found);
    forall x
      ensures Some(x) in found <==> exists i :: 0 <= i < |lines| && HeaderName(Strip(lines[i])) == Some(x)
    {
      if Some(x) in found {
        var i :| 0 <= i < |found| && found[i] == Some(x);
        assert HeaderName(Strip(lines[i])) == Some(x);
      }
      if exists i :: 0 <= i < |lines| && HeaderName(Strip(lines[i])) == Some(x) {
        var i :| 0 <= i < |lines| && HeaderName(Strip(lines[i])) == Some(x);
        assert found[i] == Some(x);
      }
    }
  }

  /** A header line keeps its name whatever whitespace surrounds it, line ending included. */
  lemma PaddedHeader(left: string, name: string, right: string)
    requires AllSpace(left) && AllSpace(right) && ValidServiceName(name)
    ensures HeaderName(Strip(left + "[" + name + "]" + right)) == Some(name)
  {
    var header := "[" + name + "]";
    assert !IsSpace(header[0]) && !IsSpace(header[|header| - 1]);
    assert left + "[" + name + "]" + right == left + header + right;
    StripPadded(left, header, right);
    HeaderNameExact(header, name);
  }

  /** Any text after the closing bracket, even another ']', means the line names no service. */
  lemma TrailingTextNoName(name: string, rest: string)
    requires rest != []
    ensures HeaderName("[" + name + "]" + rest) == None
  {
    var s := "[" + name + "]" + rest;
    if s[|s| - 1] == ']' {
      assert s[1..|s| - 1][|name|] == ']';
    }
  }

  /** A stripped line that does not open with '[' (a `key=value` setting whose key does not start with '[', a comment) names no service. */
  lemma OtherLineNoName(line: string)
    requires Strip(line) == [] || Strip(line)[0] != '['
    ensures HeaderName(Strip(line)) == None
  {
  }

  /**
    `get_pg_services`: a missing file gives the fixed not-found error, any other read failure
    its message; otherwise every line is stripped and matched in turn, and the names of the
    matching lines are returned in file order.
   */
  method GetPgServices(file: ReadResult) returns (result: ServicesResult)
    ensures file.NotFound? ==> result == ServiceError(NotFoundMessage)
    ensures file.ReadFailed? ==> result == ServiceError(file.message)
    ensures file.Lines? ==> result == Services(ServiceNames(file.lines))
  {
    match file
    case NotFound =>
      return ServiceError(NotFoundMessage);
    case ReadFailed(message) =>
      return ServiceError(message);
    case Lines(lines) =>
      var serviceNames := [];
      for i := 0 to |lines|
        invariant serviceNames == ServiceNames(lines[..i])
      {
        ServiceNamesNext(lines, i);
        var match_ := HeaderName(Strip(lines[i]));
        if match_.Some? {
          serviceNames := serviceNames + [match_.value];
        }
      }
      assert lines[..|lines|] == lines;
      return Services(serviceNames);
  }
}

=== FILE: pg_to_agol.dfy ===
/**
  The PostGIS to ArcGIS Online direction: GeoJSON geometries read from PostGIS become
  Esri geometries, PostgreSQL column types become Esri field types, attribute maps are
  cleaned of the object id and ignored fields, and features are appended in batches.
 */
module PgToAgol {
  import opened Wrappers
  import opened Strings
  import opened Sequences
  import opened EsriToGeoJson

  // GeoJSON to Esri geometry

  /**
    The argument of `convert_geojson_to_esri_geometry`: JSON text (whose decoding yields a
    GeoJSON geometry object, or fails), an already decoded object, or anything else.
   */
  datatype GeoJsonInput<N> = JsonText(parsed: Option<GeoGeometry<N>>) | JsonObject(geometry: GeoGeometry<N>) | OtherInput

  datatype ConvertError =
    | WrongInputType              // TypeError: neither str nor dict
    | MalformedJson               // the text does not decode to a geometry object
    | UnsupportedType(geomType: string)  // ValueError, carrying the upper-cased type
    | MalformedCoordinates        // coordinates whose nesting does not fit the type

  /** The geometry-type table of `get_postgis_geometry_type`, keyed by upper-cased PostGIS type. */
  const GeometryTypeMapping: map<string, string> := map[
    "POINT" := "esriGeometryPoint",
    "MULTIPOINT" := "esriGeometryMultipoint",
    "LINESTRING" := "esriGeometryPolyline",
    "MULTILINESTRING" := "esriGeometryPolyline",
    "POLYGON" := "esriGeometryPolygon",
    "MULTIPOLYGON" := "esriGeometryPolygon"
  ]

  /** The layer geometry type for a PostGIS geometry type name, compared upper-cased; unknown names give a polygon layer. */
  function GeometryTypeFor(pgType: string): (t: string)
    ensures t in {"esriGeometryPoint", "esriGeometryMultipoint", "esriGeometryPolyline", "esriGeometryPolygon"}
    ensures Upper(pgType) !in GeometryTypeMapping ==> t == "esriGeometryPolygon"
  {
    var u := Upper(pgType);
    if u in GeometryTypeMapping then GeometryTypeMapping[u] else "esriGeometryPolygon"
  }

  /** The Esri layer geometry type a converted geometry belongs to, read off the key it carries. */
  function LayerTypeOf<N>(e: EsriGeometry<N>): string {
    if e.x.Some? then "esriGeometryPoint"
    else if e.points.Some? then "esriGeometryMultipoint"
    else if e.paths.Some? then "esriGeometryPolyline"
    else "esriGeometryPolygon"
  }

  /** An Esri geometry that carries exactly one of the key groups x/y, points, paths, rings. */
  predicate SingleKind<N>(e: EsriGeometry<N>) {
    || (e.x.Some? && e.y.Some? && e.points.None? && e.paths.None? && e.rings.None?)
    || (e.x.None? && e.y.None? && e.points.Some? && e.paths.None? && e.rings.None?)
    || (e.x.None? && e.y.None? && e.points.None? && e.paths.Some? && e.rings.None?)
    || (e.x.None? && e.y.None? && e.points.None? && e.paths.None? && e.rings.Some?)
  }

  function PointOf<N>(c: Coords<N>): Option<(N, N)> {
    match c
    case Arr(items) =>
      if |items| >= 2 && items[0].Num? && items[1].Num? then Some((items[0].n, items[1].n)) else None
    case Num(_) => None
  }

  function OkOrMalformed<T, N>(o: Option<T>, build: T -> EsriGeometry<N>): Result<EsriGeometry<N>, ConvertError> {
    match o
    case Some(v) => Ok(build(v))
    case None => Err(MalformedCoordinates)
  }

  /**
    The case analysis on the upper-cased GeoJSON type: a Point keeps its first two numbers as
    x and y, MultiPoint coordinates become points, a LineString becomes a one-path paths list,
    MultiLineString coordinates become paths, Polygon coordinates become rings and a
    MultiPolygon's rings are concatenated polygon by polygon. The type names it accepts are
    exactly those of the layer geometry-type table, and the geometry it builds belongs to
    the layer type that table gives.
   */
  function FromGeoJson<N>(g: GeoGeometry<N>): (r: Result<EsriGeometry<N>, ConvertError>)
    ensures (r.Err? && r.error.UnsupportedType?) <==> Upper(g.kind) !in GeometryTypeMapping
    ensures r.Err? && r.error.UnsupportedType? ==> r.error.geomType == Upper(g.kind)
    ensures r.Err? ==> r.error.UnsupportedType? || r.error.MalformedCoordinates?
    ensures r.Ok? ==> SingleKind(r.value) && LayerTypeOf(r.value) == GeometryTypeFor(g.kind)
    ensures Upper(g.kind) == "POINT" ==>
      && (r.Ok? <==> PointOf(g.coordinates).Some?)
      && (r.Ok? ==> r.value.x == Some(g.coordinates.items[0].n) && r.value.y == Some(g.coordinates.items[1].n))
    ensures Upper(g.kind) == "MULTIPOINT" ==>
      (r.Ok? <==> DecPositions(g.coordinates).Some?) && (r.Ok? ==> r.value.points == DecPositions(g.coordinates))
    ensures Upper(g.kind) == "LINESTRING" ==>
      && (r.Ok? <==> DecPositions(g.coordinates).Some?)
      && (r.Ok? ==> r.value.paths == Some([DecPositions(g.coordinates).value]))
    ensures Upper(g.kind) == "MULTILINESTRING" ==>
      (r.Ok? <==> DecPaths(g.coordinates).Some?) && (r.Ok? ==> r.value.paths == DecPaths(g.coordinates))
    ensures Upper(g.kind) == "POLYGON" ==>
      (r.Ok? <==> DecPaths(g.coordinates).Some?) && (r.Ok? ==> r.value.rings == DecPaths(g.coordinates))
    ensures Upper(g.kind) == "MULTIPOLYGON" ==>
      && (r.Ok? <==> DecPolygons(g.coordinates).Some?)
      && (r.Ok? ==> r.value.rings == Some(Concat(DecPolygons(g.coordinates).value)))
  {
    var t := Upper(g.kind);
    if t == "POINT" then
      OkOrMalformed(PointOf(g.coordinates), (xy: (N, N)) => EsriGeometry(Some(xy.0), Some(xy.1), None, None, None))
    else if t == "MULTIPOINT" then
      OkOrMalformed(DecPositions(g.coordinates), (ps: seq<Position<N>>) => EsriGeometry(None, None, Some(ps), None, None))
    else if t == "LINESTRING" then
      OkOrMalformed(DecPositions(g.coordinates), (ps: seq<Position<N>>) => EsriGeometry(None, None, None, Some([ps]), None))
    else if t == "MULTILINESTRING" then
      OkOrMalformed(DecPaths(g.coordinates), (ls: seq<Path<N>>) => EsriGeometry(None, None, None, Some(ls), None))
    else if t == "POLYGON" then
      OkOrMalformed(DecPaths(g.coordinates), (rs: seq<Path<N>>) => EsriGeometry(None, None, None, None, Some(rs)))
    else if t == "MULTIPOLYGON" then
      OkOrMalformed(DecPolygons(g.coordinates), (polys: seq<seq<Path<N>>>) => EsriGeometry(None, None, None, None, Some(Concat(polys))))
    else
      Err(UnsupportedType(t))
  }

  /**
    Nothing of a well-nested GeoJSON geometry is lost: a Point keeps its first two numbers,
    the Esri points, paths or rings encode back to exactly the GeoJSON coordinates, and a
    MultiPolygon's rings are its polygons' rings, which encode back polygon by polygon.
   */
  lemma FromGeoJsonKeepsCoordinates<N>(g: GeoGeometry<N>)
    ensures var r := FromGeoJson(g); var c := g.coordinates; var t := Upper(g.kind);
      && (t == "POINT" && r.Ok? ==>
            c.Arr? && |c.items| >= 2 && c.items[0] == Num(r.value.x.value) && c.items[1] == Num(r.value.y.value))
      && (t == "MULTIPOINT" && r.Ok? ==> EncPositions(r.value.points.value) == c)
      && (t == "LINESTRING" && r.Ok? ==> |r.value.paths.value| == 1 && EncPositions(r.value.paths.value[0]) == c)
      && (t == "MULTILINESTRING" && r.Ok? ==> EncPaths(r.value.paths.value) == c)
      && (t == "POLYGON" && r.Ok? ==> EncPaths(r.value.rings.value) == c)
      && (t == "MULTIPOLYGON" && r.Ok? ==>
            exists polys :: EncPolygons(polys) == c && Concat(polys) == r.value.rings.value)
  {
    var c := g.coordinates;
    var t := Upper(g.kind);
    if t == "MULTIPOINT" || t == "LINESTRING" {
      if DecPositions(c).Some? {
        EncDecPositions(c);
      }
    } else if t == "MULTILINESTRING" || t == "POLYGON" {
      if DecPaths(c).Some? {
        EncDecPaths(c);
      }
    } else if t == "MULTIPOLYGON" {
      if DecPolygons(c).Some? {
        EncDecPolygons(c);
        var polys := DecPolygons(c).value;
        assert EncPolygons(polys) == c;
      }
    }
  }

  /** `convert_geojson_to_esri_geometry`: text is decoded first, a dict is used as it is, anything else is a TypeError. */
  function ConvertGeoJsonToEsriGeometry<N>(input: GeoJsonInput<N>): (r: Result<EsriGeometry<N>, ConvertError>)
    ensures input.OtherInput? <==> r == Err(WrongInputType)
    ensures input.JsonText? && input.parsed.None? ==> r == Err(MalformedJson)
    ensures input.JsonText? && input.parsed.Some? ==> r == FromGeoJson(input.parsed.value)
  {
    match input
    case OtherInput => Err(WrongInputType)
    case JsonText(parsed) =>
      (match parsed
       case None => Err(MalformedJson)
       case Some(g) => FromGeoJson(g))
    case JsonObject(g) => FromGeoJson(g)
  }

  lemma UpperOfGeoJsonTypes()
    ensures Upper("Point") == "POINT" && Upper("MultiPoint") == "MULTIPOINT"
    ensures Upper("LineString") == "LINESTRING" && Upper("MultiLineString") == "MULTILINESTRING"
    ensures Upper("Polygon") == "POLYGON" && Upper("MultiPolygon") == "MULTIPOLYGON"
    ensures Upper("") == ""
  {
  }

  lemma {:induction false} ConcatWrapRings<N>(rings: seq<Path<N>>)
    ensures Concat(WrapRings(rings)) == rings
    decreases |rings|
  {
    if |rings| > 0 {
      var n := |rings| - 1;
      var init := rings[..n];
      var wrapped := WrapRings(rings);
      ConcatWrapRings(init);
      assert wrapped[..n] == WrapRings(init);
      assert wrapped[n] == [rings[n]];
      assert Concat(wrapped) == Concat(wrapped[..n]) + wrapped[n];
      assert init + [rings[n]] == rings;
    }
  }

  /**
    The two directions agree: an Esri geometry carrying exactly one key group comes back
    unchanged from its GeoJSON translation, while a feature without geometry (type "")
    converts back to a ValueError.
   */
  lemma {:induction false} EsriRoundTrip<N>(g: Option<EsriGeometry<N>>)
    requires g.Some? ==> SingleKind(g.value)
    ensures g.Some? ==> ConvertGeoJsonToEsriGeometry(JsonObject(GeometryOf(g))) == Ok(g.value)
    ensures g.None? ==> ConvertGeoJsonToEsriGeometry(JsonObject(GeometryOf(g))) == Err(UnsupportedType(""))
  {
    UpperOfGeoJsonTypes();
    CoordinatesCarryEsriParts(g);
    match g
    case None =>
    case Some(e) =>
      var r := GeometryOf(g);
      if e.x.Some? {
        assert r.coordinates == Arr([Num(e.x.value), Num(e.y.value)]);
      } else if e.points.Some? {
      } else if e.paths.Some? {
        if |e.paths.value| == 1 {
          assert [e.paths.value[0]] == e.paths.value;
        }
      } else {
        if |e.rings.value| != 1 {
          ConcatWrapRings(e.rings.value);
        }
      }
  }

  // PostgreSQL column types to Esri field types

  /** `PG_TO_ESRI_TYPE_MAP` */
  const PgToEsriTypeMap: map<string, string> := map[
    "integer" := "esriFieldTypeInteger",
    "bigint" := "esriFieldTypeInteger",
    "smallint" := "esriFieldTypeSmallInteger",
    "text" := "esriFieldTypeString",
    "varchar" := "esriFieldTypeString",
    "character varying" := "esriFieldTypeString",
    "date" := "esriFieldTypeDate",
    "timestamp without time zone" := "esriFieldTypeDate",
    "timestamp with time zone" := "esriFieldTypeDate",
    "numeric" := "esriFieldTypeDouble",
    "double precision" := "esriFieldTypeDouble",
    "float" := "esriFieldTypeDouble"
  ]

  /** The Esri type of a non-key column; a type the table does not know is stored as a string. */
  function EsriFieldType(dataType: string): (t: string)
    ensures t != "esriFieldTypeOID"
    ensures t in {"esriFieldTypeInteger", "esriFieldTypeSmallInteger", "esriFieldTypeString", "esriFieldTypeDate", "esriFieldTypeDouble"}
  {
    if dataType in PgToEsriTypeMap then PgToEsriTypeMap[dataType] else "esriFieldTypeString"
  }

  /** Which PostgreSQL types produce each Esri type other than the string fallback. */
  lemma EsriFieldTypePreimages(dataType: string)
    ensures EsriFieldType(dataType) == "esriFieldTypeInteger" <==> dataType in {"integer", "bigint"}
    ensures EsriFieldType(dataType) == "esriFieldTypeSmallInteger" <==> dataType == "smallint"
    ensures EsriFieldType(dataType) == "esriFieldTypeDate" <==>
      dataType in {"date", "timestamp without time zone", "timestamp with time zone"}
    ensures EsriFieldType(dataType) == "esriFieldTypeDouble" <==> dataType in {"numeric", "double precision", "float"}
  {
  }

  datatype Column = Column(name: string, dataType: string)
  datatype EsriField = EsriField(name: string, fieldType: string, alias: string)

  /**
    `set(ignore.split(',')) if ignore else set()`, plus the geometry column. The parts are
    taken as they are, not stripped.
   */
  function IgnoreSet(ignore: Option<string>, geom: string): (s: set<string>)
    ensures geom in s
    ensures forall p :: p in s <==> p == geom || (ignore.Some? && ignore.value != "" && p in Split(ignore.value, ','))
  {
    (if ignore.Some? && ignore.value != "" then set p | p in Split(ignore.value, ',') else {}) + {geom}
  }

  /**
    The field query and the feature preparation read the same `--ignore` text differently:
    after a space following a comma, the query ignores the column " b" while the features
    lose the attribute "b".
   */
  lemma IgnoreSetUnstripped()
    ensures IgnoreSet(Some("a, b"), "geom") == {"a", " b", "geom"}
    ensures "b" !in IgnoreSet(Some("a, b"), "geom")
    ensures ParseIgnoreFields("a, b") == ["a", "b"]
  {
    var s := IgnoreSet(Some("a, b"), "geom");
    var parts := Split("a, b", ',');
    SplitCommaSpace();
    assert forall p :: p in parts <==> p == "a" || p == " b";
    assert forall p :: p in s <==> p == "geom" || p == "a" || p == " b";
    assert s == {"a", " b", "geom"};
    assert |"b"| == 1 && |" b"| == 2 && |"geom"| == 4 && "a"[0] != "b"[0];
    ParseCommaSpace();
  }

  lemma ParseCommaSpace()
    ensures ParseIgnoreFields("a, b") == ["a", "b"]
  {
    SplitCommaSpace();
    StrippedCommaSpace();
  }

  lemma StrippedCommaSpace()
    ensures StrippedNonEmpty(["a", " b"]) == ["a", "b"]
  {
    StripCommaSpaceParts();
    var parts := ["a", " b"];
    assert parts[1..] == [" b"] && [" b"][1..] == [];
    assert StrippedNonEmpty([]) == [];
    assert StrippedNonEmpty([" b"]) == ["b"];
    assert StrippedNonEmpty(parts) == ["a"] + StrippedNonEmpty([" b"]);
  }

  lemma SplitCommaSpace()
    ensures Split("a, b", ',') == ["a", " b"]
  {
    assert "b"[1..] == "" && " b"[1..] == "b" && ", b"[1..] == " b" && "a, b"[1..] == ", b";
    assert Split("", ',') == [""];
    assert ['b'] + "" == "b" && [""][1..] == [];
    assert Split("b", ',') == ["b"];
    assert [' '] + "b" == " b" && ["b"][1..] == [];
    assert Split(" b", ',') == [" b"];
    assert Split(", b", ',') == ["", " b"];
    assert ['a'] + "" == "a" && ["", " b"][1..] == [" b"];
  }

  lemma StripCommaSpaceParts()
    ensures Strip("a") == "a" && Strip(" b") == "b"
  {
    assert !IsSpace('a') && !IsSpace('b') && IsSpace(' ');
    assert " b"[1..] == "b" && " b"[0] == ' ' && "b"[0] == 'b' && "a"[0] == 'a';
    assert StripLeft("a") == "a" && StripRight("a") == "a";
    assert StripLeft("b") == "b" && StripRight("b") == "b";
    assert StripLeft(" b") == StripLeft("b");
  }

  /**
    The columns the `column_name NOT IN ignored` query returns, in the order the catalogue
    lists them (the query has no ORDER BY, so that order is an input).
   */
  function Unignored(columns: seq<Column>, ignored: set<string>): (r: seq<Column>)
    ensures |r| <= |columns|
    ensures forall c :: c in r <==> c in columns && c.name !in ignored
    ensures |columns| == 1 ==> r == (if columns[0].name in ignored then [] else columns)
    decreases |columns|
  {
    if |columns| == 0 then []
    else
      var rest := Unignored(columns[..|columns| - 1], ignored);
      var last := columns[|columns| - 1];
      assert columns == columns[..|columns| - 1] + [last];
      if last.name in ignored then rest else rest + [last]
  }

  /** The filter keeps the catalogue's order: two lists of columns give their results one after the other. */
  lemma {:induction false} UnignoredAppend(xs: seq<Column>, ys: seq<Column>, ignored: set<string>)
    ensures Unignored(xs + ys, ignored) == Unignored(xs, ignored) + Unignored(ys, ignored)
    decreases |ys|
  {
    if ys == [] {
      assert xs + ys == xs;
    } else {
      var init := ys[..|ys| - 1];
      var last := ys[|ys| - 1];
      assert (xs + ys)[..|xs + ys| - 1] == xs + init;
      UnignoredAppend(xs, init, ignored);
    }
  }

  function FieldFor(c: Column, primaryKey: Option<string>): (f: EsriField)
    ensures f.name == c.name && f.alias == c.name
    ensures f.fieldType == "esriFieldTypeOID" <==> primaryKey == Some(c.name)
  {
    EsriField(c.name, if primaryKey == Some(c.name) then "esriFieldTypeOID" else EsriFieldType(c.dataType), c.name)
  }

  /**
    The mapping loop of `fetch_field_definitions` over the columns left after the ignore set
    (which always holds the geometry column): one field per column in order, aliased by its
    own name, typed OID exactly when it is the primary key.
   */
  method FetchFieldDefinitions(columns: seq<Column>, primaryKey: Option<string>, geom: string, ignore: Option<string>)
    returns (fields: seq<EsriField>)
    ensures var listed := Unignored(columns, IgnoreSet(ignore, geom));
      |fields| == |listed| && forall k :: 0 <= k < |fields| ==> fields[k] == FieldFor(listed[k], primaryKey)
    ensures forall k :: 0 <= k < |fields| ==>
      && fields[k].name != geom
      && fields[k].alias == fields[k].name
      && (fields[k].fieldType == "esriFieldTypeOID" <==> primaryKey == Some(fields[k].name))
  {
    var listed := Unignored(columns, IgnoreSet(ignore, geom));
    fields := [];
    var i := 0;
    while i < |listed|
      invariant 0 <= i <= |listed|
      invariant |fields| == i
      invariant forall k :: 0 <= k < i ==> fields[k] == FieldFor(listed[k], primaryKey)
    {
      fields := fields + [FieldFor(listed[i], primaryKey)];
      i := i + 1;
    }
    forall k | 0 <= k < |fields|
      ensures fields[k].name != geom
    {
      var c := listed[k];
      assert c in listed;
      assert fields[k] == FieldFor(c, primaryKey);
    }
  }

  // Preparing features for the append

  /** An attribute value: a datetime (shown by its ISO 8601 text), a string, or any other value. */
  datatype AttrValue<V> = DateTime(iso: string) | Text(s: string) | Other(v: V)

  datatype Feature<V, G> = Feature(attributes: map<string, AttrValue<V>>, geometry: G)

  /** A datetime is sent as its `isoformat()` text; every other value as it is. */
  function WireValue<V>(v: AttrValue<V>): (w: AttrValue<V>)
    ensures !w.DateTime?
    ensures v.DateTime? ==> w == Text(v.iso)
    ensures !v.DateTime? ==> w == v
  {
    match v
    case DateTime(iso) => Text(iso)
    case _ => v
  }

  predicate Kept(key: string, ignoreFields: seq<string>) {
    Lower(key) != "objectid" && key !in ignoreFields
  }

  function PreparedAttributes<V>(attrs: map<string, AttrValue<V>>, ignoreFields: seq<string>): map<string, AttrValue<V>> {
    map key | key in attrs && Kept(key, ignoreFields) :: WireValue(attrs[key])
  }

  /** Preparing an already prepared attribute map changes nothing. */
  lemma PreparedAttributesIdempotent<V>(attrs: map<string, AttrValue<V>>, ignoreFields: seq<string>)
    ensures PreparedAttributes(PreparedAttributes(attrs, ignoreFields), ignoreFields) == PreparedAttributes(attrs, ignoreFields)
  {
    var once := PreparedAttributes(attrs, ignoreFields);
    var twice := PreparedAttributes(once, ignoreFields);
    assert forall key :: key in twice <==> key in once;
    forall key | key in once
      ensures twice[key] == once[key]
    {
      assert !once[key].DateTime?;
    }
  }

  /**
    `prepare_features`: one prepared feature per raw feature, in order, with the same geometry;
    it keeps exactly the attributes whose lower-cased key is not "objectid" and whose key is
    not ignored, and no datetime value survives.
   */
  method PrepareFeatures<V, G>(raw: seq<Feature<V, G>>, ignoreFields: Option<seq<string>>) returns (prepared: seq<Feature<V, G>>)
    ensures |prepared| == |raw|
    ensures forall k :: 0 <= k < |raw| ==> prepared[k].geometry == raw[k].geometry
    ensures forall k, key :: 0 <= k < |raw| ==>
      (key in prepared[k].attributes <==>
         key in raw[k].attributes && Lower(key) != "objectid" && key !in ignoreFields.GetOr([]))
    ensures forall k, key :: 0 <= k < |raw| && key in prepared[k].attributes && key in raw[k].attributes ==>
      && !prepared[k].attributes[key].DateTime?
      && (!raw[k].attributes[key].DateTime? ==> prepared[k].attributes[key] == raw[k].attributes[key])
      && (raw[k].attributes[key].DateTime? ==> prepared[k].attributes[key] == Text(raw[k].attributes[key].iso))
  {
    var ignored := ignoreFields.GetOr([]);
    prepared := [];
    var i := 0;
    while i < |raw|
      invariant 0 <= i <= |raw|
      invariant |prepared| == i
      invariant forall k :: 0 <= k < i ==>
        prepared[k] == Feature(PreparedAttributes(raw[k].attributes, ignored), raw[k].geometry)
    {
      prepared := prepared + [Feature(PreparedAttributes(raw[i].attributes, ignored), raw[i].geometry)];
      i := i + 1;
    }
  }

  // Batched append

  datatype AppendError = ZeroBatchSize  // `range()` refuses a zero step


  /** The responses of the batches whose submission succeeded, in batch order. */
  function Successes<F, R>(submit: (nat, seq<F>) -> Option<R>, batches: seq<seq<F>>): (rs: seq<R>)
    ensures |rs| <= |batches|
    decreases |batches|
  {
    if |batches| == 0 then []
    else
      var j := |batches| - 1;
      Successes(submit, batches[..j]) + (match submit(j, batches[j]) case Some(resp) => [resp] case None => [])
  }

  lemma SuccessesAppend<F, R>(submit: (nat, seq<F>) -> Option<R>, batches: seq<seq<F>>, batch: seq<F>)
    ensures Successes(submit, batches + [batch]) ==
      Successes(submit, batches) + (if submit(|batches|, batch).Some? then [submit(|batches|, batch).value] else [])
  {
    assert (batches + [batch])[..|batches|] == batches;
  }

  /** When every submission succeeds, there is one response per batch. */
  lemma {:induction false} SuccessesWhenAllSucceed<F, R>(submit: (nat, seq<F>) -> Option<R>, batches: seq<seq<F>>)
    requires forall j :: 0 <= j < |batches| ==> submit(j, batches[j]).Some?
    ensures |Successes(submit, batches)| == |batches|
    decreases |batches|
  {
    if |batches| > 0 {
      SuccessesWhenAllSucceed(submit, batches[..|batches| - 1]);
    }
  }

  /**
    `append_features`: a zero batch size is the ValueError `range` raises and a negative one
    submits nothing; otherwise ceil(n/b) consecutive batches are submitted whose concatenation
    is the whole feature list, a failing batch does not stop the later ones, and the results
    are the responses of the successful batches.
   */
  method AppendFeatures<F, R>(features: seq<F>, batchSize: int, submit: (nat, seq<F>) -> Option<R>)
    returns (results: Result<seq<R>, AppendError>, batches: seq<seq<F>>)
    ensures results.Err? <==> batchSize == 0
    ensures batchSize <= 0 ==> batches == []
    ensures batchSize < 0 ==> results == Ok([])
    ensures batchSize > 0 ==>
      && batches == Chunks(features, batchSize)
      && |batches| == (|features| + batchSize - 1) / batchSize
      && Concat(batches) == features
      && results == Ok(Successes(submit, batches))
  {
    batches := [];
    if batchSize == 0 {
      return Err(ZeroBatchSize), batches;
    }
    if batchSize < 0 {
      return Ok([]), batches;
    }
    var acc;
    acc, batches := SubmitBatches(features, batchSize, submit);
    ChunksCover(features, batchSize);
    results := Ok(acc);
  }

  /** The batch loop of `append_features`: consecutive slices of the batch size, each submitted whatever the previous ones returned. */
  method SubmitBatches<F, R>(features: seq<F>, batchSize: nat, submit: (nat, seq<F>) -> Option<R>)
    returns (acc: seq<R>, batches: seq<seq<F>>)
    requires batchSize > 0
    ensures batches == Chunks(features, batchSize)
    ensures acc == Successes(submit, batches)
  {
    var n := |features|;
    acc, batches := [], [];
    var start := 0;
    while start < n
      invariant 0 <= start <= n
      invariant batches + Chunks(features[start..], batchSize) == Chunks(features, batchSize)
      invariant acc == Successes(submit, batches)
      decreases n - start
    {
      var end := Min(start + batchSize, n);
      var batch := features[start .. end];
      ChunksFrom(features, batchSize, start);
      assert batches + Chunks(features[start..], batchSize) == (batches + [batch]) + Chunks(features[end..], batchSize);
      SuccessesAppend(submit, batches, batch);
      var response := submit(|batches|, batch);
      if response.Some? {
        acc := acc + [response.value];
      }
      batches := batches + [batch];
      start := end;
    }
    assert features[n..] == [];
  }

  // The ignore list of the command line

  /** `[f.strip() for f in parts if f.strip()]` */
  function StrippedNonEmpty(parts: seq<string>): (r: seq<string>)
    ensures |r| <= |parts|
  {
    if |parts| == 0 then []
    else if Strip(parts[0]) == "" then StrippedNonEmpty(parts[1..])
    else [Strip(parts[0])] + StrippedNonEmpty(parts[1..])
  }

  /** A field name as the command line can carry it: non-empty, without ',' and without surrounding whitespace. */
  predicate PlainField(f: string) {
    f != "" && ',' !in f && Strip(f) == f
  }

  lemma {:induction false} StrippedNonEmptyPlain(parts: seq<string>)
    requires forall k :: 0 <= k < |parts| ==> ',' !in parts[k]
    ensures forall k :: 0 <= k < |StrippedNonEmpty(parts)| ==> PlainField(StrippedNonEmpty(parts)[k])
  {
    if |parts| > 0 {
      StrippedNonEmptyPlain(parts[1..]);
      StripIdempotent(parts[0]);
      StripInside(parts[0]);
    }
  }

  lemma {:induction false} StrippedNonEmptyOfPlain(parts: seq<string>)
    requires forall k :: 0 <= k < |parts| ==> PlainField(parts[k])
    ensures StrippedNonEmpty(parts) == parts
  {
    if |parts| > 0 {
      var rest := parts[1..];
      forall k | 0 <= k < |rest|
        ensures PlainField(rest[k])
      {
        assert rest[k] == parts[k + 1];
      }
      StrippedNonEmptyOfPlain(rest);
      assert PlainField(parts[0]);
      assert StrippedNonEmpty(parts) == [parts[0]] + StrippedNonEmpty(rest);
      assert [parts[0]] + rest == parts;
    }
  }

  /** The ignore list `main` hands to `prepare_features`: stripped, non-empty comma-separated names. */
  function ParseIgnoreFields(ignore: string): (r: seq<string>)
    ensures forall k :: 0 <= k < |r| ==> PlainField(r[k])
  {
    SplitPartsAvoidSeparator(ignore, ',');
    StrippedNonEmptyPlain(Split(ignore, ','));
    StrippedNonEmpty(Split(ignore, ','))
  }

  /** Any list of plain field names survives being written comma-separated and parsed again. */
  lemma ParseIgnoreFieldsOfJoin(names: seq<string>)
    requires forall k :: 0 <= k < |names| ==> PlainField(names[k])
    ensures ParseIgnoreFields(Join(names, ',')) == names
  {
    if names == [] {
      assert Split("", ',') == [""];
      assert Strip("") == "";
    } else {
      SplitJoin(names, ',');
      StrippedNonEmptyOfPlain(names);
    }
  }
}

=== FILE: sequences.dfy ===
/**
  Flattening a sequence of sequences (Python's `[x for xs in xss for x in xs]`) and cutting
  a sequence into consecutive chunks of a fixed size (what offset/count paging returns).
 */
module Sequences {

  function Concat<T>(xss: seq<seq<T>>): (r: seq<T>)
    decreases |xss|
  {
    if |xss| == 0 then [] else Concat(xss[..|xss| - 1]) + xss[|xss| - 1]
  }

  lemma ConcatAppend<T>(xss: seq<seq<T>>, xs: seq<T>)
    ensures Concat(xss + [xs]) == Concat(xss) + xs
  {
    assert (xss + [xs])[..|xss|] == xss;
  }

  lemma {:induction false} ConcatSplit<T>(xss: seq<seq<T>>, yss: seq<seq<T>>)
    ensures Concat(xss + yss) == Concat(xss) + Concat(yss)
    decreases |yss|
  {
    if |yss| == 0 {
      assert xss + yss == xss;
    } else {
      var init := yss[..|yss| - 1];
      assert xss + yss == (xss + init) + [yss[|yss| - 1]];
      ConcatAppend(xss + init, yss[|yss| - 1]);
      ConcatSplit(xss, init);
      ConcatAppend(init, yss[|yss| - 1]);
      assert init + [yss[|yss| - 1]] == yss;
    }
  }

  lemma ConcatSingletons<T>(xs: seq<T>)
    ensures Concat(seq(|xs|, k requires 0 <= k < |xs| => [xs[k]])) == xs
    decreases |xs|
  {
    if |xs| > 0 {
      var init := xs[..|xs| - 1];
      ConcatSingletons(init);
      assert seq(|xs|, k requires 0 <= k < |xs| => [xs[k]])[..|xs| - 1]
          == seq(|init|, k requires 0 <= k < |init| => [init[k]]);
      assert init + [xs[|xs| - 1]] == xs;
    }
  }

  function Min(a: int, b: int): int {
    if a <= b then a else b
  }

  /** The consecutive slices of `xs` of length `b`, the last one possibly shorter. */
  function Chunks<F>(xs: seq<F>, b: nat): (r: seq<seq<F>>)
    requires b > 0
    decreases |xs|
  {
    if |xs| == 0 then [] else
      var m := Min(b, |xs|);
      [xs[..m]] + Chunks(xs[m..], b)
  }

  lemma {:induction false} ChunksConcat<F>(xs: seq<F>, b: nat)
    requires b > 0
    ensures Concat(Chunks(xs, b)) == xs
    decreases |xs|
  {
    if |xs| > 0 {
      var m := Min(b, |xs|);
      ChunksConcat(xs[m..], b);
      ConcatSplit([xs[..m]], Chunks(xs[m..], b));
      ConcatAppend([], xs[..m]);
      assert [] + [xs[..m]] == [xs[..m]];
      assert xs[..m] + xs[m..] == xs;
    }
  }

  /** There are just enough chunks to cover `xs`: ceil(|xs| / b) of them. */
  lemma {:induction false} ChunksCount<F>(xs: seq<F>, b: nat)
    requires b > 0
    ensures |Chunks(xs, b)| * b >= |xs|
    ensures |Chunks(xs, b)| == 0 || (|Chunks(xs, b)| - 1) * b < |xs|
    decreases |xs|
  {
    if |xs| > 0 {
      var m := Min(b, |xs|);
      ChunksCount(xs[m..], b);
      var c := |Chunks(xs[m..], b)|;
      assert (c + 1) * b == c * b + b;
    }
  }

  lemma CeilingDivision(n: nat, b: nat, k: nat)
    requires b > 0
    requires k * b >= n
    requires k == 0 || (k - 1) * b < n
    ensures k == (n + b - 1) / b
  {
    var q := (n + b - 1) / b;
    var m := (n + b - 1) % b;
    assert n + b - 1 == q * b + m && 0 <= m < b;
    assert q * b >= n;
    assert (q - 1) * b < n;
  }

  /** ceil(n / b) pages of b cover n. */
  lemma CeilingCovers(n: nat, b: nat)
    requires b > 0
    ensures Times((n + b - 1) / b, b) >= n
  {
    var q := (n + b - 1) / b;
    assert n + b - 1 == q * b + (n + b - 1) % b;
  }

  /** The chunks, in order, make up the whole sequence, and there are ceil(|xs| / b) of them. */
  lemma ChunksCover<F>(xs: seq<F>, b: nat)
    requires b > 0
    ensures Concat(Chunks(xs, b)) == xs
    ensures |Chunks(xs, b)| == (|xs| + b - 1) / b
  {
    ChunksConcat(xs, b);
    ChunksCount(xs, b);
    CeilingDivision(|xs|, b, |Chunks(xs, b)|);
  }

  /** Chunk `j` is the slice of `xs` starting at offset j * b. */
  lemma {:induction false} ChunksAt<F>(xs: seq<F>, b: nat, j: nat)
    requires b > 0 && j < |Chunks(xs, b)|
    ensures j * b < |xs| && Chunks(xs, b)[j] == xs[j * b .. Min((j + 1) * b, |xs|)]
    decreases j
  {
    if j > 0 {
      ChunksTail(xs, b);
      var rest := xs[b..];
      assert Chunks(xs, b)[j] == Chunks(rest, b)[j - 1];
      ChunksAt(rest, b, j - 1);
      var p := (j - 1) * b;
      var q := j * b;
      MulSucc(j - 1, b);
      MulSucc(j, b);
      assert q == p + b && (j + 1) * b == q + b;
      var e := Min(q, |rest|);
      assert Chunks(rest, b)[j - 1] == rest[p .. e];
      assert Min((j + 1) * b, |xs|) == e + b;
      DropSlice(xs, b, p, e);
    }
  }

  lemma DropSlice<F>(xs: seq<F>, b: nat, i: nat, j: nat)
    requires b <= |xs| && i <= j <= |xs| - b
    ensures xs[b..][i .. j] == xs[i + b .. j + b]
  {
  }

  /** Chunking from offset `start` takes the slice up to start + b, then chunks the rest. */
  lemma ChunksFrom<F>(xs: seq<F>, b: nat, start: nat)
    requires b > 0 && start < |xs|
    ensures var end := Min(start + b, |xs|);
      Chunks(xs[start..], b) == [xs[start .. end]] + Chunks(xs[end..], b)
  {
    var end := Min(start + b, |xs|);
    assert xs[start..][..end - start] == xs[start .. end];
    assert xs[start..][end - start..] == xs[end..];
  }

  lemma ChunksTail<F>(xs: seq<F>, b: nat)
    requires b > 0 && |Chunks(xs, b)| > 1
    ensures |xs| > b && Chunks(xs, b)[1..] == Chunks(xs[b..], b)
  {
    var m := Min(b, |xs|);
    assert Chunks(xs, b) == [xs[..m]] + Chunks(xs[m..], b);
  }

  lemma MulSucc(j: nat, b: nat)
    ensures (j + 1) * b == j * b + b
  {
  }


  /** Division is determined by a quotient and a remainder below the divisor. */
  lemma DivUnique(n: nat, b: nat, k: nat, r: nat)
    requires b > 0 && r < b && n == k * b + r
    ensures n / b == k
  {
    var q := n / b;
    MulOrder(q, k, b);
    MulOrder(k, q, b);
  }

  lemma MulOrder(i: int, j: int, b: nat)
    ensures i < j ==> (i + 1) * b <= j * b
  {
    if i < j {
      assert j * b == (i + 1) * b + (j - i - 1) * b;
    }
  }

  /** `k * b` by repeated addition, which keeps loop invariants about page offsets linear. */
  function Times(k: nat, b: nat): (r: nat)
    ensures r == k * b
  {
    if k == 0 then 0 else Times(k - 1, b) + b
  }

  /** A loop over n records in pages of b that met an empty page after k full pages made k + 1 requests over ceil(n / b) = k pages. */
  lemma EndOnEmptyPage(n: nat, b: nat, k: nat)
    requires b > 0 && n == Times(k, b)
    ensures n / b + 1 == k + 1 && (n + b - 1) / b == k
  {
    DivUnique(n, b, k, 0);
    DivUnique(n + b - 1, b, k, b - 1);
  }

  /** A loop over n records in pages of b whose k-th page held r < b records made k requests over ceil(n / b) = k pages. */
  lemma EndOnShortPage(n: nat, b: nat, k: nat, r: nat)
    requires 0 < r < b && k > 0 && n == Times(k - 1, b) + r
    ensures n / b + 1 == k && (n + b - 1) / b == k
  {
    DivUnique(n, b, k - 1, r);
    assert n + b - 1 == Times(k, b) + (r - 1);
    DivUnique(n + b - 1, b, k, r - 1);
  }

  // Offset/count paging

  /** The records a query with `resultOffset` = start and `resultRecordCount` = count returns. */
  function Page<T>(records: seq<T>, start: nat, count: nat): (p: seq<T>)
    ensures |p| <= count
    ensures start < |records| && count > 0 ==> p != [] && start + |p| <= |records| && p == records[start .. start + |p|]
    ensures start + count <= |records| ==> |p| == count
    ensures start < |records| < start + count ==> start + |p| == |records|
  {
    if start >= |records| then [] else records[start .. Min(start + count, |records|)]
  }

  lemma PageSlice<T>(records: seq<T>, start: nat, count: nat)
    ensures Page(records, start, count) == records[Min(start, |records|) .. Min(start + count, |records|)]
  {
  }

  /** The offsets of the first k pages of size b: 0, b, ..., (k - 1) * b. */
  function PageOffsets(k: nat, b: nat): (r: seq<nat>)
    ensures |r| == k && forall j :: 0 <= j < k ==> r[j] == j * b
  {
    seq(k, j requires 0 <= j < k => Times(j, b))
  }

  lemma PageOffsetsNext(k: nat, b: nat)
    ensures PageOffsets(k + 1, b) == PageOffsets(k, b) + [Times(k, b)]
  {
  }
}

=== FILE: sql.dfy ===
/**
  Emptying a PostgreSQL table before a load: TRUNCATE, falling back to DELETE only when
  PostgreSQL refuses the truncation because a foreign key references the table. The
  database is the table's rows and its identity sequence; what each statement does on the
  server (succeed, or fail with an error) is an input.
 */
module Sql {
  import opened Wrappers
  import opened Strings

  /**
    An SQL identifier as `psycopg2.sql.Identifier` renders it: double-quoted, inner quotes
    doubled, so that PostgreSQL reads the text between the outer quotes back as the name.
   */
  function QuoteIdent(name: string): (r: string)
    ensures |r| >= 2 && r[0] == '"' && r[|r| - 1] == '"'
    ensures ReadQuoted(r[1..|r| - 1]) == Some(name)
  {
    EscapeRead(name);
    var r := "\"" + EscapeQuotes(name) + "\"";
    assert r[1..|r| - 1] == EscapeQuotes(name);
    r
  }

  function EscapeQuotes(s: string): string {
    if s == [] then [] else (if s[0] == '"' then "\"\"" else [s[0]]) + EscapeQuotes(s[1..])
  }

  /**
    How PostgreSQL reads the inside of a quoted identifier: a doubled quote stands for one
    quote, and a lone quote would have ended the identifier (`None`).
   */
  function ReadQuoted(s: string): Option<string> {
    if s == [] then Some([])
    else if s[0] != '"' then
      (match ReadQuoted(s[1..]) case Some(t) => Some([s[0]] + t) case None => None)
    else if |s| >= 2 && s[1] == '"' then
      (match ReadQuoted(s[2..]) case Some(t) => Some(['"'] + t) case None => None)
    else None
  }

  lemma {:induction false} EscapeRead(name: string)
    ensures ReadQuoted(EscapeQuotes(name)) == Some(name)
  {
    if name != [] {
      EscapeRead(name[1..]);
      var e := EscapeQuotes(name);
      if name[0] == '"' {
        assert e == "\"\"" + EscapeQuotes(name[1..]);
        assert e[2..] == EscapeQuotes(name[1..]);
      } else {
        assert e[1..] == EscapeQuotes(name[1..]);
      }
      assert [name[0]] + name[1..] == name;
    }
  }

  function TruncateStatement(schema: string, table: string, cascade: bool, reset: bool): string {
    "TRUNCATE TABLE " + QuoteIdent(schema) + "." + QuoteIdent(table)
      + (if reset then " RESTART IDENTITY" else "")
      + (if cascade then " CASCADE" else "")
  }

  function DeleteStatement(schema: string, table: string): string {
    "DELETE FROM " + QuoteIdent(schema) + "." + QuoteIdent(table)
  }

  /** Reads the two options back off a TRUNCATE statement's tail: (restart identity, cascade). */
  function TruncateFlags(stmt: string): (bool, bool) {
    var cascade := EndsWith(stmt, " CASCADE");
    var rest := if cascade then stmt[..|stmt| - |" CASCADE"|] else stmt;
    (EndsWith(rest, " RESTART IDENTITY"), cascade)
  }

  lemma EndsWithLast(s: string, suffix: string)
    requires EndsWith(s, suffix) && suffix != []
    ensures s[|s| - 1] == suffix[|suffix| - 1]
  {
    assert s[|s| - |suffix|..][|suffix| - 1] == s[|s| - 1];
  }

  /**
    " RESTART IDENTITY" is present exactly when the identity is reset and " CASCADE" exactly
    when the truncation cascades, in that order and at the end of the statement, whatever the
    schema and table names are.
   */
  lemma TruncateFlagsRoundTrip(schema: string, table: string, cascade: bool, reset: bool)
    ensures TruncateFlags(TruncateStatement(schema, table, cascade, reset)) == (reset, cascade)
  {
    var head := "TRUNCATE TABLE " + QuoteIdent(schema) + "." + QuoteIdent(table);
    var middle := head + (if reset then " RESTART IDENTITY" else "");
    var stmt := TruncateStatement(schema, table, cascade, reset);
    assert stmt == middle + (if cascade then " CASCADE" else "");
    assert head[|head| - 1] == '"';
    assert middle[|middle| - 1] != 'E';
    if cascade {
      assert stmt[|stmt| - |" CASCADE"|..] == " CASCADE";
      assert stmt[..|stmt| - |" CASCADE"|] == middle;
    } else {
      assert stmt == middle;
      if EndsWith(stmt, " CASCADE") {
        EndsWithLast(stmt, " CASCADE");
        assert false;
      }
    }
    if reset {
      assert middle[|middle| - |" RESTART IDENTITY"|..] == " RESTART IDENTITY";
    } else {
      assert middle == head;
      if EndsWith(head, " RESTART IDENTITY") {
        EndsWithLast(head, " RESTART IDENTITY");
        assert false;
      }
    }
  }

  /** The text PostgreSQL puts in the error when a foreign key forbids the truncation. */
  const ForeignKeyRefusal := "cannot truncate a table referenced in a foreign key constraint"

  datatype DbError = FeatureNotSupported(message: string) | OtherError(message: string)

  /** What executing one statement on the server did. */
  datatype Execution = Done | Failed(error: DbError)

  /** How `truncate_or_delete_table` ended: normally by either path, or by raising. */
  datatype Outcome = Truncated | DeletedInstead(resetWarning: bool) | Raised(error: DbError)

  predicate IsForeignKeyRefusal(e: Execution) {
    e.Failed? && e.error.FeatureNotSupported? && Contains(e.error.message, ForeignKeyRefusal)
  }

  /**
    The decision logic: a successful TRUNCATE ends there; the foreign-key refusal falls back
    to DELETE (warning when a reset was asked for, since the fallback never resets) and
    re-raises the DELETE's own error; every other TRUNCATE error is re-raised as it is.
   */
  function Decide(truncation: Execution, deletion: Execution, reset: bool): (o: Outcome)
    ensures o.Truncated? <==> truncation.Done?
    ensures o.DeletedInstead? <==> IsForeignKeyRefusal(truncation) && deletion.Done?
    ensures o.DeletedInstead? ==> o.resetWarning == reset
    ensures o.Raised? && !IsForeignKeyRefusal(truncation) ==> truncation == Failed(o.error)
    ensures o.Raised? && IsForeignKeyRefusal(truncation) ==> deletion == Failed(o.error)
  {
    match truncation
    case Done => Truncated
    case Failed(e) =>
      if IsForeignKeyRefusal(truncation) then
        (match deletion
         case Done => DeletedInstead(reset)
         case Failed(d) => Raised(d))
      else Raised(e)
  }

  /** A table with its rows and the next value of its identity sequence. */
  class Table<R> {
    var rows: seq<R>
    var nextIdentity: nat

    constructor (rows: seq<R>, nextIdentity: nat)
      ensures this.rows == rows && this.nextIdentity == nextIdentity
    {
      this.rows := rows;
      this.nextIdentity := nextIdentity;
    }

    /**
      `truncate_or_delete_table`: `issued` lists the statements sent, in order. A normal
      return leaves the table empty; only the TRUNCATE path with reset restarts the identity
      sequence; when the call raises, the table is as it was.
     */
    method TruncateOrDelete(schema: string, table: string, cascade: bool, reset: bool, truncation: Execution, deletion: Execution)
      returns (outcome: Outcome, issued: seq<string>)
      modifies this
      ensures outcome == Decide(truncation, deletion, reset)
      ensures issued == [TruncateStatement(schema, table, cascade, reset)]
        + (if IsForeignKeyRefusal(truncation) then [DeleteStatement(schema, table)] else [])
      ensures !outcome.Raised? ==> rows == []
      ensures outcome.Raised? ==> rows == old(rows)
      ensures nextIdentity == (if outcome.Truncated? && reset then 1 else old(nextIdentity))
    {
      issued := [TruncateStatement(schema, table, cascade, reset)];
      match truncation {
        case Done =>
          rows := [];
          if reset {
            nextIdentity := 1;
          }
          outcome := Truncated;
        case Failed(e) =>
          if e.FeatureNotSupported? && Contains(e.message, ForeignKeyRefusal) {
            issued := issued + [DeleteStatement(schema, table)];
            match deletion {
              case Done =>
                rows := [];
                outcome := DeletedInstead(reset);
              case Failed(d) =>
                outcome := Raised(d);
            }
          } else {
            outcome := Raised(e);
          }
      }
    }
  }
}

=== FILE: strings.dfy ===
/**
  The few Python `str` operations the program relies on: `strip`, `split`, `join`,
  `upper`/`lower`, `startswith`/`endswith`, `in` on strings, `replace(pat, '')`
  and `str(int)`. Case mapping is that of ASCII; whitespace is Python's full set.
 */
module Strings {

  /** `str.isspace()`: the characters `strip()` removes. */
  predicate IsSpace(c: char) {
    || c == ' ' || ('\t' <= c <= '\r') || ('\U{1C}' <= c <= '\U{1F}')
    || c == '\U{85}' || c == '\U{A0}' || c == '\U{1680}' || ('\U{2000}' <= c <= '\U{200A}')
    || c == '\U{2028}' || c == '\U{2029}' || c == '\U{202F}' || c == '\U{205F}' || c == '\U{3000}'
  }

  predicate AllSpace(s: string) {
    forall i :: 0 <= i < |s| ==> IsSpace(s[i])
  }

  /** The regular-expression class `[A-Za-z0-9]`. */
  predicate IsAsciiAlnum(c: char) {
    ('A' <= c <= 'Z') || ('a' <= c <= 'z') || ('0' <= c <= '9')
  }

  predicate IsDigit(c: char) {
    '0' <= c <= '9'
  }

  predicate StartsWith(s: string, prefix: string) {
    prefix <= s
  }

  predicate EndsWith(s: string, suffix: string) {
    |suffix| <= |s| && s[|s| - |suffix|..] == suffix
  }

  /** Python's `sub in s`. */
  predicate Contains(s: string, sub: string)
    decreases |s|
  {
    sub <= s || (s != [] && Contains(s[1..], sub))
  }

  function StripLeft(s: string): (r: string)
    ensures |r| <= |s| && r == s[|s| - |r|..]
    ensures r == [] || !IsSpace(r[0])
  {
    if s != [] && IsSpace(s[0]) then StripLeft(s[1..]) else s
  }

  function StripRight(s: string): (r: string)
    ensures |r| <= |s| && r == s[..|r|]
    ensures r == [] || !IsSpace(r[|r| - 1])
  {
    if s != [] && IsSpace(s[|s| - 1]) then StripRight(s[..|s| - 1]) else s
  }

  /** `str.strip()`: drops leading and trailing whitespace. */
  function Strip(s: string): (r: string)
    ensures r == [] || (!IsSpace(r[0]) && !IsSpace(r[|r| - 1]))
  {
    StripRight(StripLeft(s))
  }

  lemma {:induction false} StripLeftSpaceAt(s: string, i: nat)
    requires i < |s| - |StripLeft(s)|
    ensures IsSpace(s[i])
    decreases |s|
  {
    if i > 0 {
      StripLeftSpaceAt(s[1..], i - 1);
    }
  }

  lemma {:induction false} StripRightSpaceAt(s: string, i: nat)
    requires |StripRight(s)| <= i < |s|
    ensures IsSpace(s[i])
    decreases |s|
  {
    if i < |s| - 1 {
      StripRightSpaceAt(s[..|s| - 1], i);
    }
  }

  /** What `lstrip` and `rstrip` remove is whitespace. */
  lemma StripLeftSpaces(s: string)
    ensures AllSpace(s[..|s| - |StripLeft(s)|])
  {
    forall i | 0 <= i < |s| - |StripLeft(s)|
      ensures IsSpace(s[i])
    {
      StripLeftSpaceAt(s, i);
    }
  }

  lemma StripRightSpaces(s: string)
    ensures AllSpace(s[|StripRight(s)|..])
  {
    forall i | |StripRight(s)| <= i < |s|
      ensures IsSpace(s[i])
    {
      StripRightSpaceAt(s, i);
    }
  }

  lemma {:induction false} StripLeftPadded(pad: string, x: string)
    requires AllSpace(pad)
    requires x == [] || !IsSpace(x[0])
    ensures StripLeft(pad + x) == x
    decreases |pad|
  {
    if pad == [] {
      assert pad + x == x;
    } else {
      var s := pad + x;
      assert s[0] == pad[0] && IsSpace(s[0]);
      assert s[1..] == pad[1..] + x;
      StripLeftPadded(pad[1..], x);
    }
  }

  lemma {:induction false} StripRightPadded(x: string, pad: string)
    requires AllSpace(pad)
    requires x == [] || !IsSpace(x[|x| - 1])
    ensures StripRight(x + pad) == x
    decreases |pad|
  {
    if pad == [] {
      assert x + pad == x;
    } else {
      var s := x + pad;
      assert s[|s| - 1] == pad[|pad| - 1] && IsSpace(s[|s| - 1]);
      assert s[..|s| - 1] == x + pad[..|pad| - 1];
      StripRightPadded(x, pad[..|pad| - 1]);
    }
  }

  /** Surrounding whitespace never changes what `strip` returns for a word that neither starts nor ends with whitespace. */
  lemma {:induction false} StripPadded(left: string, x: string, right: string)
    requires AllSpace(left) && AllSpace(right)
    requires x != [] && !IsSpace(x[0]) && !IsSpace(x[|x| - 1])
    ensures Strip(left + x + right) == x
  {
    assert left + x + right == left + (x + right);
    StripLeftPadded(left, x + right);
    StripRightPadded(x, right);
  }

  /** Stripping twice strips nothing more. */
  lemma StripIdempotent(s: string)
    ensures Strip(Strip(s)) == Strip(s)
  {
    var x := Strip(s);
    if x != [] {
      StripPadded("", x, "");
      assert "" + x + "" == x;
    }
  }

  /** `strip` only removes characters: every character of the result occurs in the input. */
  lemma StripInside(s: string)
    ensures forall c :: c in Strip(s) ==> c in s
  {
    var l := StripLeft(s);
    var r := Strip(s);
    forall c | c in r
      ensures c in s
    {
      var i :| 0 <= i < |r| && r[i] == c;
      assert r[i] == l[i];
      assert l[i] == s[|s| - |l| + i];
    }
  }

  function UpperChar(c: char): char {
    if 'a' <= c <= 'z' then (c as int - 32) as char else c
  }

  function LowerChar(c: char): char {
    if 'A' <= c <= 'Z' then (c as int + 32) as char else c
  }

  /**
    `str.upper()` on ASCII letters: no lower-case letter is left, nothing but a
    lower-case letter changes, and each character keeps its letter up to case.
   */
  function Upper(s: string): (r: string)
    ensures |r| == |s|
    ensures forall i :: 0 <= i < |r| ==> !('a' <= r[i] <= 'z')
    ensures forall i :: 0 <= i < |s| && !('a' <= s[i] <= 'z') ==> r[i] == s[i]
    ensures forall i :: 0 <= i < |s| ==> LowerChar(r[i]) == LowerChar(s[i])
  {
    seq(|s|, i requires 0 <= i < |s| => UpperChar(s[i]))
  }

  /**
    `str.lower()` on ASCII letters: no upper-case letter is left, nothing but an
    upper-case letter changes, and each character keeps its letter up to case.
   */
  function Lower(s: string): (r: string)
    ensures |r| == |s|
    ensures forall i :: 0 <= i < |r| ==> !('A' <= r[i] <= 'Z')
    ensures forall i :: 0 <= i < |s| && !('A' <= s[i] <= 'Z') ==> r[i] == s[i]
    ensures forall i :: 0 <= i < |s| ==> UpperChar(r[i]) == UpperChar(s[i])
  {
    seq(|s|, i requires 0 <= i < |s| => LowerChar(s[i]))
  }

  /** Case mapping forgets the case it started from: each mapping is idempotent and absorbs the other. */
  lemma CaseMappings(s: string)
    ensures Upper(Upper(s)) == Upper(s) && Lower(Lower(s)) == Lower(s)
    ensures Lower(Upper(s)) == Lower(s) && Upper(Lower(s)) == Upper(s)
  {
  }

  /** `s.split(sep)` with an explicit one-character separator: never empty, `""` splits to `[""]`. */
  function Split(s: string, sep: char): (parts: seq<string>)
    ensures |parts| >= 1
    decreases |s|
  {
    if s == [] then [""]
    else
      var rest := Split(s[1..], sep);
      if s[0] == sep then [""] + rest else [[s[0]] + rest[0]] + rest[1..]
  }

  /** `sep.join(parts)`. */
  function Join(parts: seq<string>, sep: char): string {
    if parts == [] then ""
    else if |parts| == 1 then parts[0]
    else parts[0] + [sep] + Join(parts[1..], sep)
  }

  /** Splitting and joining again on the same separator gives back the original text. */
  lemma {:induction false} JoinSplit(s: string, sep: char)
    ensures Join(Split(s, sep), sep) == s
  {
    if s != [] {
      var rest := Split(s[1..], sep);
      JoinSplit(s[1..], sep);
      if s[0] == sep {
        assert Split(s, sep) == [""] + rest;
        assert ([""] + rest)[1..] == rest;
      } else if |rest| > 1 {
        assert Join(rest, sep) == rest[0] + [sep] + Join(rest[1..], sep);
        assert ([[s[0]] + rest[0]] + rest[1..])[1..] == rest[1..];
      }
    }
  }

  /** No part of a split contains the separator. */
  lemma {:induction false} SplitPartsAvoidSeparator(s: string, sep: char)
    ensures forall k :: 0 <= k < |Split(s, sep)| ==> sep !in Split(s, sep)[k]
  {
    if s != [] {
      SplitPartsAvoidSeparator(s[1..], sep);
    }
  }

  lemma {:induction false} SplitWithoutSeparator(s: string, sep: char)
    requires sep !in s
    ensures Split(s, sep) == [s]
  {
    if s != [] {
      SplitWithoutSeparator(s[1..], sep);
      assert [s[0]] + s[1..] == s;
    }
  }

  /** Splitting distributes over a separator occurrence. */
  lemma {:induction false} SplitAround(a: string, b: string, sep: char)
    ensures Split(a + [sep] + b, sep) == Split(a, sep) + Split(b, sep)
  {
    if a == [] {
      assert ([] + [sep] + b)[1..] == b;
    } else {
      assert (a + [sep] + b)[1..] == a[1..] + [sep] + b;
      SplitAround(a[1..], b, sep);
    }
  }

  /** Joining parts that avoid the separator and splitting again gives the parts back. */
  lemma {:induction false} SplitJoin(parts: seq<string>, sep: char)
    requires parts != []
    requires forall k :: 0 <= k < |parts| ==> sep !in parts[k]
    ensures Split(Join(parts, sep), sep) == parts
    decreases |parts|
  {
    SplitWithoutSeparator(parts[0], sep);
    if |parts| > 1 {
      SplitJoin(parts[1..], sep);
      SplitAround(parts[0], Join(parts[1..], sep), sep);
      assert [parts[0]] + parts[1..] == parts;
    }
  }

  /** Python's `s.replace(pat, '')`: occurrences removed left to right, without overlap. */
  function RemoveAll(s: string, pat: string): (r: string)
    requires pat != []
    ensures |r| <= |s|
    decreases |s|
  {
    if pat <= s then RemoveAll(s[|pat|..], pat)
    else if s == [] then []
    else [s[0]] + RemoveAll(s[1..], pat)
  }

  lemma {:induction false} RemoveAllAfter(x: string, y: string, pat: string)
    requires pat != [] && pat[0] !in x
    ensures RemoveAll(x + y, pat) == x + RemoveAll(y, pat)
  {
    if x != [] {
      assert !(pat <= x + y) by { assert (x + y)[0] == x[0] != pat[0]; }
      assert (x + y)[1..] == x[1..] + y;
      RemoveAllAfter(x[1..], y, pat);
      calc {
        RemoveAll(x + y, pat);
        [x[0]] + RemoveAll(x[1..] + y, pat);
        [x[0]] + (x[1..] + RemoveAll(y, pat));
        { assert [x[0]] + x[1..] == x; }
        x + RemoveAll(y, pat);
      }
    } else {
      assert x + y == y;
    }
  }

  function DigitChar(d: nat): (c: char)
    requires d < 10
    ensures IsDigit(c) && DigitValue(c) == d
  {
    ('0' as int + d) as char
  }

  function DigitValue(c: char): int {
    c as int - '0' as int
  }

  /** `str(n)` for a natural number: its decimal digits, without leading zeros. */
  function NatToString(n: nat): (r: string)
    ensures r != [] && forall i :: 0 <= i < |r| ==> IsDigit(r[i])
    decreases n
  {
    if n < 10 then [DigitChar(n)] else NatToString(n / 10) + [DigitChar(n % 10)]
  }

  /** `str(i)` for an integer. */
  function IntToString(i: int): (r: string)
    ensures r != [] && '_' !in r && '.' !in r && '/' !in r
  {
    if i < 0 then "-" + NatToString(-i) else NatToString(i)
  }
}

=== FILE: wrappers.dfy ===
/** Option and Result values standing in for Python's None and raised exceptions. */
module Wrappers {

  datatype Option<+T> = None | Some(value: T) {
    /** The value, or `default` when absent (Python's `d.get(key, default)`). */
    function GetOr(default: T): T {
      match this
      case Some(v) => v
      case None => default
    }
  }

  datatype Result<+T, +E> = Ok(value: T) | Err(error: E)
}
